=== FILE: README.md ===
# abc-redux, modelled in Dafny

abc-redux is a small Kotlin state-container library in the Redux style. A
single root store owns an immutable state tree. Every store handed to user
code is a *view* of that tree: a lens from the root to one slice, built by
`subState(key, init)` (a keyed child, seen together with its parent's value
as a pair) and by `map(lens)` (the same node, reshaped). Stores change state
only through `dispatch` (a mutator, or an action through a reducer) and
`withState` (a block assigning a scoped value). They call their subscribers
when the tree changes. A re-entrancy flag refuses a dispatch made while
another is in flight.

The repository ships three variants of the root store, and each is its own
module here, over shared modules for lenses, values and collections:

| module | models |
|---|---|
| `Lenses` | `Lens.kt`: `Lens(get, set)`, the identity lens, `+` (composition), `modify` |
| `Values` | the universal state value (ints, longs, strings, unit, pairs) used for every slice and for child keys |
| `Linked` | the insertion-ordered `LinkedHashMap`/`LinkedHashSet` the stores iterate, as association lists |
| `Callbacks` | subscriber blocks by identity, and the broadcast to a subscriber set |
| `TreeNodes` | abcstore `StateNode.kt`: nodes with value, subscribers and children; `DefaultStateNodeRef` |
| `TreeStore` | abcstore `Store.kt`: `RootStateStore`, `DefaultStateStore`, `ReducerStore`, `StateScope.map` |
| `ReduxNodes` | abcredux-core `StateNode.kt`: `StateNode`, `StateRef`, `MutableStateRef`, `State` |
| `ObservedStore` | abcstore-core's `hu.nemi.abcredux.core` `Store.kt`: the observable state, the global subscriber set, `withState` |
| `ReduxStore` | abcredux-core `Store.kt`: the subscription map, `ActionCreator`, `ReducerStore` with middleware, `subState`/`map`/`zip` |
| `Middlewares` | abcredux-core `MiddlewareDispatcher` |
| `Scopes` | `withState` blocks and `StateScope.map` |
| `Reducers` | `fold` of both `Reducers.kt` files (they are identical) |
| `Subscriptions` | abcredux-core `DefaultSubscription` (once-only `unsubscribe`) |
| `Locks` | `DefaultLock` (owner plus access count, fail-fast re-entrant lock) |
| `TreeStoreScenarios`, `ObservedStoreScenarios` | the repository's store tests, replayed on the model |

Modelling choices:
- Every store operation is a pure function. It takes the root store's
  state (tree, `isDispatching` flag, subscribers) and returns an `Effect`:
  the outcome (`Pass` or `Fail(error)` for the exception thrown), the store
  afterwards, the subscriber calls made, in order, as a log of
  `Call(block, value)`, and the store as those calls see it.
- Both schedulers are the `ImmediateScheduler`.
- The store's `Lock` is always held by the single caller of this
  sequential model. `Locks.ReenterSucceeds` shows that it then never
  refuses. The lock itself is modelled separately with explicit owner
  tokens.
- User functions (mutators, reducers, lenses, middlewares, action creators)
  are Dafny function values. A mutator or a reducer of a store that throws
  returns `Err`; the exception leaves the store unchanged.
- Node references are datatypes recording how they were built
  (`RootRef`/`ChildRef`/`MappedRef`, `MRoot`/`MChild`/`MMapped`,
  `Mut`/`Composed`/`Paired`). These are the only constructions the library
  allows, and spelling them out makes them amenable to induction. The
  lemmas `TreeNodes.ChildRefIsComposition` and
  `TreeNodes.MappedRefIsComposition` tie them back to the lens
  compositions written in the source.
- Subscriber blocks are numbers (`SubId`), compared by identity. In the
  `hu.nemi.abcredux.core` stores a subscriber wraps its block together with
  its store's value lens. That lens is created with the store, so a
  subscriber is identified by the pair (block, store) (`StoreId`).

Behaviour of the code worth noting:
- `withState` does not consult `isDispatching` in any variant. A
  `withState` from inside a subscriber callback is accepted
  (`TreeStore.ReentrantWithStateRuns`).
- On every change of the root tree, every subscriber is called, not only
  those whose own slice moved. The per-step calls in
  `TreeStoreScenarios.ChildStateDispatches` show this.
- In abcstore `Store.kt` subscribers run inside `setState`, while
  `isDispatching` is still set, so a dispatch from a callback is refused
  (`TreeStore.ReentrantDispatchRefused`). In both `abcredux` stores the flag
  is reset in the `finally` before the new tree is assigned, so a callback
  may dispatch (`ObservedStore.CallbackMayDispatch`,
  `ReduxStore.CallbackMayDispatch`). An `Effect` records, as `during`, the
  store the callbacks see, and these lemmas are stated over it.

abcstore-core's `hu.nemi.abcredux.core.StateNodeRef` is assumed to have the
shape of abcredux-core's `MutableStateRef` (`value`, `addChild`, `plus`),
with `Pair` in place of `State`; `ObservedStore` reuses `ReduxNodes` for it.
Likewise the `Lens` and `Lock` used by abcredux-core are taken to be the
ones of `Lens.kt` and `Lock.kt`.

## Model

| member | source | states |
|---|---|---|
| Lenses.Of | abcstore-core/src/main/java/hu/nemi/abcstore/core/Lens.kt:27 | the lens built from `get` and a curried `set` reads with `get` and writes `set(a)(s)`, and it satisfies get-put, put-get or put-put exactly when `get` and `set` satisfy the corresponding law |
| Lenses.Modify | abcstore-core/src/main/java/hu/nemi/abcstore/core/Lens.kt:48 | for a lens that reads back its writes, `lens(s, f)` leaves `f` of the old focus in the focus; for a lens that writes back reads unchanged, a function fixing the focus leaves `s` unchanged |
| Lenses.IdentityIsLawful | abcstore-core/src/main/java/hu/nemi/abcstore/core/Lens.kt:34-37 | the identity lens satisfies get-put, put-get and put-put |
| Lenses.ComposeKeepsGetPut | abcstore-core/src/main/java/hu/nemi/abcstore/core/Lens.kt:46 | composing two lenses that read back their writes gives one that does too |
| Lenses.ComposeKeepsPutGet | abcstore-core/src/main/java/hu/nemi/abcstore/core/Lens.kt:46 | composing two lenses that write back reads unchanged gives one that does too |
| Lenses.ComposeKeepsPutPut | abcstore-core/src/main/java/hu/nemi/abcstore/core/Lens.kt:46 | a second write through the composition overrides the first when the outer lens is get-put and put-put and the inner is put-put |
| Lenses.ComposeIsAssociative | abcstore-core/src/main/java/hu/nemi/abcstore/core/Lens.kt:46 | `(l1 + l2) + l3` and `l1 + (l2 + l3)` read and write alike everywhere |
| Lenses.IdentityIsUnit | abcstore-core/src/main/java/hu/nemi/abcstore/core/Lens.kt:34-46 | the identity lens is a left and a right unit of composition, extensionally |
| Linked.Put | abcstore-core/src/main/java/hu/nemi/abcstore/core/StateNode.kt:43 | `map + (k to v)` maps `k` to `v`, keeps every other key's value, and appends `k` to the key order only when it was absent |
| Linked.PutLookup | abcredux-core/src/main/java/hu/nemi/abcredux/core/StateNode.kt:50 | putting back the value found under a present key gives the same map |
| Linked.PutKeepsDistinctKeys | abcredux-core/src/main/java/hu/nemi/abcredux/core/Store.kt:188 | adding an entry keeps every key of the map unique |
| Linked.Insert | abcstore-core/src/main/java/hu/nemi/abcstore/core/Store.kt:113-115 | `set + x` holds exactly the old elements and `x`, grows by one only for a new element, and keeps the set duplicate-free |
| Linked.Remove | abcstore-core/src/main/java/hu/nemi/abcstore/core/Store.kt:124-126 | `set - x` holds exactly the old elements other than `x`, is unchanged when `x` is absent, and stays duplicate-free |
| Linked.Delete | abcredux-core/src/main/java/hu/nemi/abcredux/core/Store.kt:186 | `map - k` has no entry for `k`, keeps every other key's value, and is unchanged when `k` was absent |
| Linked.DeleteKeepsDistinctKeys | abcredux-core/src/main/java/hu/nemi/abcredux/core/Store.kt:186 | removing a key keeps every key of the map unique |
| Callbacks.Broadcast | abcredux-core/src/main/java/hu/nemi/abcredux/core/Store.kt:152 | `forEach { it(newState) }` makes one call per member of the subscriber set, in iteration order, each to its member with the value its reader sees |
| Callbacks.BroadcastReachesEveryone | abcredux-core/src/main/java/hu/nemi/abcredux/core/Store.kt:152 | every member of the set is called with the value its own reader sees |
| Callbacks.BroadcastOnlySubscribers | abcstore-core/src/main/java/hu/nemi/abcredux/core/Store.kt:93 | every call goes to a member of the set, with the value that member's reader sees |
| TreeNodes.LeafIsWellFormed | abcstore-core/src/main/java/hu/nemi/abcstore/core/StateNode.kt:3 | a new node, with no children, has distinct child keys at every level |
| TreeNodes.ChildPutFields | abcstore-core/src/main/java/hu/nemi/abcstore/core/StateNode.kt:41-45 | the `addChild` write takes the parent value from `.first`, puts `.second` with the carried subscribers and children under `key`, and keeps the parent's subscribers and every other child |
| TreeNodes.ChildGet | abcstore-core/src/main/java/hu/nemi/abcstore/core/StateNode.kt:36-40 | the read half of `addChild`; `ChildPutThenGet` and `ChildGetThenPut` state its round trips with `ChildPut` |
| TreeNodes.ChildPut | abcstore-core/src/main/java/hu/nemi/abcstore/core/StateNode.kt:41-45 | the write half of `addChild`; its fields are stated by `ChildPutFields` and its round trips by `ChildPutThenGet` and `ChildGetThenPut` |
| TreeNodes.MapPut | abcstore-core/src/main/java/hu/nemi/abcstore/core/StateNode.kt:49-54 | the write of the node step of `plus(lens)` puts the value back through `lens` and takes subscribers and children from the written node; for a get-put `lens` the read half (`MapGet`) gives back the written node, and for a put-get `lens` writing back what was read changes nothing |
| TreeNodes.RootRefIsIdentity | abcstore-core/src/main/java/hu/nemi/abcstore/core/StateNode.kt:14 | `StateNodeRef()` has the identity node lens |
| TreeNodes.NodeGet | abcstore-core/src/main/java/hu/nemi/abcstore/core/StateNode.kt:18-54 | the `nodeLens` read of a reference; `GetAt` states that the node read has the subscriber sets of the tree node at the reference's path and of everything below it |
| TreeNodes.NodePut | abcstore-core/src/main/java/hu/nemi/abcstore/core/StateNode.kt:18-54 | the `nodeLens` write; `PutAt` states that the subscriber sets at and below the path become those of the written node and every other subscriber set stays in place |
| TreeNodes.ValueGet | abcstore-core/src/main/java/hu/nemi/abcstore/core/StateNode.kt:20-23 | the `value` read; `ValueIsComposition` ties it to `nodeLens` composed with the value field lens |
| TreeNodes.ValuePut | abcstore-core/src/main/java/hu/nemi/abcstore/core/StateNode.kt:20-23 | the `value` write; `ValueIsComposition` and `RefValuePutKeepsSubscribers` state it |
| TreeNodes.SubsGet | abcstore-core/src/main/java/hu/nemi/abcstore/core/StateNode.kt:25-32 | the `subscribers` read; `SubscribersIsComposition` and `RefSubscribersAt` state it |
| TreeNodes.SubsPut | abcstore-core/src/main/java/hu/nemi/abcstore/core/StateNode.kt:25-32 | the `subscribers` write; `SubscribersIsComposition` and `RefSubscribersAt` state it |
| TreeNodes.ChildRefGetIsComposition | abcstore-core/src/main/java/hu/nemi/abcstore/core/StateNode.kt:34-40 | reading through `addChild` is reading through `nodeLens` composed with the child lens |
| TreeNodes.ChildRefPutIsComposition | abcstore-core/src/main/java/hu/nemi/abcstore/core/StateNode.kt:34-47 | writing through `addChild` is writing through `nodeLens` composed with the child lens |
| TreeNodes.ChildRefIsComposition | abcstore-core/src/main/java/hu/nemi/abcstore/core/StateNode.kt:34-47 | a child reference is extensionally `nodeLens + childLens(key, init)` |
| TreeNodes.MappedRefGetIsComposition | abcstore-core/src/main/java/hu/nemi/abcstore/core/StateNode.kt:49-51 | reading through `plus(lens)` is reading through `nodeLens` composed with the mapping lens |
| TreeNodes.MappedRefPutIsComposition | abcstore-core/src/main/java/hu/nemi/abcstore/core/StateNode.kt:49-54 | writing through `plus(lens)` is writing through `nodeLens` composed with the mapping lens |
| TreeNodes.MappedRefIsComposition | abcstore-core/src/main/java/hu/nemi/abcstore/core/StateNode.kt:49-54 | a mapped reference is extensionally `nodeLens + mapLens(lens)` |
| TreeNodes.ValueIsComposition | abcstore-core/src/main/java/hu/nemi/abcstore/core/StateNode.kt:20-23 | a reference's `value` reads and writes as `nodeLens` composed with the value field lens |
| TreeNodes.SubscribersIsComposition | abcstore-core/src/main/java/hu/nemi/abcstore/core/StateNode.kt:25-32 | a reference's `subscribers` reads and writes as `nodeLens` composed with the subscriber field lens |
| TreeNodes.ValueLensIsLawful | abcstore-core/src/main/java/hu/nemi/abcstore/core/StateNode.kt:20-23 | the value field lens satisfies get-put, put-get and put-put |
| TreeNodes.FieldLensesWriteOneField | abcstore-core/src/main/java/hu/nemi/abcstore/core/StateNode.kt:20-32 | the value write keeps subscribers and children; the subscriber write keeps value and children |
| TreeNodes.ChildPutThenGet | abcstore-core/src/main/java/hu/nemi/abcstore/core/StateNode.kt:36-45 | after writing a pair through `addChild`, reading returns it, whatever the initializer |
| TreeNodes.ChildGetThenPut | abcstore-core/src/main/java/hu/nemi/abcstore/core/StateNode.kt:36-45 | writing back what `addChild` read leaves a node with that child unchanged |
| TreeNodes.ChildGetThenPutAbsent | abcstore-core/src/main/java/hu/nemi/abcstore/core/StateNode.kt:36-45 | for an absent child the write-back changes the node: it creates the child as a leaf of `init` |
| TreeNodes.MapLensKeepsLaws | abcstore-core/src/main/java/hu/nemi/abcstore/core/StateNode.kt:49-54 | the node step of `plus(lens)` is get-put, put-get or put-put whenever `lens` is |
| TreeNodes.MappedRefStaysOnNode | abcstore-core/src/main/java/hu/nemi/abcstore/core/StateNode.kt:49-54 | a mapped reference has the same path, subscribers and children as its parent reference, and reads its value through the lens |
| TreeNodes.GetAt | abcstore-core/src/main/java/hu/nemi/abcstore/core/StateNode.kt:34-54 | reading through a reference gives a node whose subscriber set at every relative path `q` is the tree's set at `Path(r) + q` |
| TreeNodes.PutAt | abcstore-core/src/main/java/hu/nemi/abcstore/core/StateNode.kt:34-54 | writing through a reference makes the subscriber set at each path below `Path(r)` that of the written node at the relative path, and leaves every subscriber set elsewhere in place |
| TreeNodes.RefValuePutKeepsSubscribers | abcstore-core/src/main/java/hu/nemi/abcstore/core/StateNode.kt:20-23 | writing a value through any reference moves no subscriber anywhere in the tree |
| TreeNodes.RefSubscribersAt | abcstore-core/src/main/java/hu/nemi/abcstore/core/StateNode.kt:25-32 | a reference's `subscribers` reads and writes exactly the set at its path |
| TreeNodes.NodeGetKeepsWellFormed | abcstore-core/src/main/java/hu/nemi/abcstore/core/StateNode.kt:34-54 | reading through any reference of a tree whose child maps have distinct keys gives such a node |
| TreeNodes.NodePutKeepsWellFormed | abcstore-core/src/main/java/hu/nemi/abcstore/core/StateNode.kt:34-54 | writing such a node through any reference keeps every child map's keys distinct |
| TreeNodes.FieldPutsKeepWellFormed | abcstore-core/src/main/java/hu/nemi/abcstore/core/StateNode.kt:20-32 | the `value` and `subscribers` writes keep every child map's keys distinct |
| TreeStore.CreateIsValid | abcstore-core/src/main/java/hu/nemi/abcstore/core/Store.kt:73-88 | a new store is not dispatching, has no subscriber on any node, and is valid |
| TreeStore.Entries | abcstore-core/src/main/java/hu/nemi/abcstore/core/Store.kt:130-133 | the pre-order walk of `dispatchStateChanged`; `EntriesComplete` and `EntriesSound` state that it lists the subscribers of the tree and nobody else, and `EntriesNoDuplicates` that, with every node's subscribers a set, it lists each (subscriber, node) pair once; `PreOrder` and `ChildrenInOrder` state its order |
| TreeStore.EntriesComplete | abcstore-core/src/main/java/hu/nemi/abcstore/core/Store.kt:130-133 | the pre-order walk visits every subscriber on every node below the start |
| TreeStore.EntriesSound | abcstore-core/src/main/java/hu/nemi/abcstore/core/Store.kt:130-133 | every entry of the walk is a subscriber of the node at its path |
| TreeStore.NotifyComplete | abcstore-core/src/main/java/hu/nemi/abcstore/core/Store.kt:130-133 | every subscriber of the tree is called with its projection of the new tree (that it is called once per node is `NotifyOnce`) |
| TreeStore.PreOrder | abcstore-core/src/main/java/hu/nemi/abcstore/core/Store.kt:130-133 | pre-order: a subscriber on a node comes before every subscriber on a node below it |
| TreeStore.ChildrenInOrder | abcstore-core/src/main/java/hu/nemi/abcstore/core/Store.kt:130-133 | children in turn: everything under a child comes before everything under the children after it in the child map's order |
| TreeStore.EntriesNoDuplicates | abcstore-core/src/main/java/hu/nemi/abcstore/core/Store.kt:130-133 | in a well-formed tree whose nodes hold sets of subscribers, no (subscriber, path) pair occurs twice in the walk |
| TreeStore.NotifyOnce | abcstore-core/src/main/java/hu/nemi/abcstore/core/Store.kt:130-133 | a subscriber on the node at a path has exactly one entry in the walk, and the call at that position goes to it with its projection |
| TreeStore.NotifySound | abcstore-core/src/main/java/hu/nemi/abcstore/core/Store.kt:130-133 | every call goes to a subscriber of the tree, with its projection |
| TreeStore.SetState | abcstore-core/src/main/java/hu/nemi/abcstore/core/Store.kt:135-142 | `setState` always passes and stores the new tree; an equal tree calls nobody, a different one makes one call per subscriber entry of the new tree, and the calls see the store with the new tree |
| TreeStore.RootDispatch | abcstore-core/src/main/java/hu/nemi/abcstore/core/Store.kt:90-101 | a dispatch passes exactly when none is in flight and the action succeeds; an in-flight one fails with `IllegalStateException`; a failure changes nothing; a different tree notifies everybody, an equal one nobody |
| TreeStore.Dispatch | abcstore-core/src/main/java/hu/nemi/abcstore/core/Store.kt:178-182 | a narrowed dispatch writes `f(value)` back through the store's reference, with the same flag, failure and notification rules, and keeps the subscribers |
| TreeStore.DispatchKeepsValid | abcstore-core/src/main/java/hu/nemi/abcstore/core/Store.kt:178-182 | a dispatch moves no subscriber on any node and keeps the store valid |
| TreeStore.DispatchNotifiesSubscribers | abcstore-core/src/main/java/hu/nemi/abcstore/core/Store.kt:135-141 | after a change, every subscriber on every node is called with its own reference's new value |
| TreeStore.DispatchCallsOnce | abcstore-core/src/main/java/hu/nemi/abcstore/core/Store.kt:130-141 | a block subscribed on one node only is called exactly once by a dispatch that changed the tree, with its reference's new value |
| TreeStore.DispatchCallsOnlySubscribers | abcstore-core/src/main/java/hu/nemi/abcstore/core/Store.kt:130-141 | every call of a dispatch goes to a subscriber present in the tree |
| TreeStore.ReentrantDispatchRefused | abcstore-core/src/main/java/hu/nemi/abcstore/core/Store.kt:90-101 | subscribers run inside `setState`, with the flag still set and the new tree in place, so a dispatch from a callback fails with `IllegalStateException` and changes nothing |
| TreeStore.Subscribe | abcstore-core/src/main/java/hu/nemi/abcstore/core/Store.kt:109-121 | `subscribe` passes, keeps the flag, and calls only the new subscriber, once, with its current value |
| TreeStore.SubscribeAdds | abcstore-core/src/main/java/hu/nemi/abcstore/core/Store.kt:113-115 | the block joins the subscriber set of its node and no other set changes |
| TreeStore.SubscribeKeepsValid | abcstore-core/src/main/java/hu/nemi/abcstore/core/Store.kt:109-121 | subscribing keeps the store valid: child keys distinct, every node's subscribers a set (`LinkedHashSet`), each with a reader of its node |
| TreeStore.SubscribeAgainAddsNothing | abcstore-core/src/main/java/hu/nemi/abcstore/core/Store.kt:159-172 | a block subscribed again at the same node, through any reference, adds no second entry and keeps its first reader |
| TreeStore.Unsubscribe | abcstore-core/src/main/java/hu/nemi/abcstore/core/Store.kt:123-127 | `unsubscribe` keeps the flag and the readers and is not checked against `isDispatching` |
| TreeStore.UnsubscribeRemoves | abcstore-core/src/main/java/hu/nemi/abcstore/core/Store.kt:123-127 | the block leaves the set of its node and no other set changes |
| TreeStore.UnsubscribeKeepsValid | abcstore-core/src/main/java/hu/nemi/abcstore/core/Store.kt:123-127 | unsubscribing keeps the store valid, every node's subscribers still a set |
| TreeStore.UnsubscribeAgainRemovesNothing | abcstore-core/src/main/java/hu/nemi/abcstore/core/Store.kt:123-127 | a second `unsubscribe` leaves every set as the first left it |
| TreeStore.UnsubscribedIsNotCalled | abcstore-core/src/main/java/hu/nemi/abcstore/core/Store.kt:123-141 | a block that sat only on that node is never called by a later dispatch |
| TreeStore.WithState | abcstore-core/src/main/java/hu/nemi/abcstore/core/Store.kt:184-188 | `withState` always passes, commits what the block run on `map(node.value)` ends with, keeps flag and readers, and notifies only on a change |
| TreeStore.ValueRunKeepsShape | abcstore-core/src/main/java/hu/nemi/abcstore/core/Store.kt:228-234 | assignments through a store's value lens move no subscriber and keep child keys distinct |
| TreeStore.WithStateKeepsValid | abcstore-core/src/main/java/hu/nemi/abcstore/core/Store.kt:103-107 | `withState` moves no subscriber and keeps the store valid |
| TreeStore.RootValueReadsBack | abcstore-core/src/main/java/hu/nemi/abcstore/core/StateNode.kt:14-23 | the root store's value lens reads back what it writes |
| TreeStore.WithStateLastAssignmentWins | abcstore-core/src/main/java/hu/nemi/abcstore/core/Store.kt:144-152 | for a store whose value lens reads back its writes, a block ending with `value = x` leaves `x` as the store's value, whatever it assigned before |
| TreeStore.ReentrantWithStateRuns | abcstore-core/src/main/java/hu/nemi/abcstore/core/Store.kt:103-107 | `withState` passes while a dispatch is in flight and leaves the flag set |
| TreeStore.ReducerDispatch | abcstore-core/src/main/java/hu/nemi/abcstore/core/Store.kt:210-212 | a reducer store's dispatch writes `reducer(value, action)` through the reference; it fails with `IllegalState` while a dispatch is in flight and with the reducer's own error when the reducer throws, and a failure changes nothing |
| TreeStoreScenarios.EmitsOnSubscribe | abcstore-core/src/test/java/hu/nemi/abcstore/core/StateStoreTest.kt:12-19 | subscribing to `StateStore(23)` calls the block once with 23 |
| TreeStoreScenarios.NotNotifiedAfterUnsubscribing | abcstore-core/src/test/java/hu/nemi/abcstore/core/StateStoreTest.kt:23-32 | after unsubscribing, doubling the state calls nobody |
| TreeStoreScenarios.NotifiedWhenChanged | abcstore-core/src/test/java/hu/nemi/abcstore/core/StateStoreTest.kt:36-47 | doubling 23 calls the subscriber once, with 46 |
| TreeStoreScenarios.NotNotifiedWhenUnchanged | abcstore-core/src/test/java/hu/nemi/abcstore/core/StateStoreTest.kt:51-61 | dispatching `{ 23 }` on 23 calls nobody |
| TreeStoreScenarios.ChildStateSubscriptions | abcstore-core/src/test/java/hu/nemi/abcstore/core/StateStoreTest.kt:65-92 | the root, child and grandchild subscribers are called with 23, "Hello, World!" and -1 in turn, and the tree then holds the two children |
| TreeStoreScenarios.RootDoubles | abcstore-core/src/test/java/hu/nemi/abcstore/core/StateStoreTest.kt:85 | doubling through the root store changes only the root value |
| TreeStoreScenarios.ChildSaysGoodbye | abcstore-core/src/test/java/hu/nemi/abcstore/core/StateStoreTest.kt:86 | the child store's dispatch replaces only the child's text |
| TreeStoreScenarios.GrandchildAdds | abcstore-core/src/test/java/hu/nemi/abcstore/core/StateStoreTest.kt:87 | the grandchild store's dispatch turns -1 into 22 and changes nothing else |
| TreeStoreScenarios.ChildStateDispatches | abcstore-core/src/test/java/hu/nemi/abcstore/core/StateStoreTest.kt:85-96 | each of the three dispatches calls all three subscribers, in tree order, with their own slices |
| TreeStoreScenarios.DeepStateEmitted | abcstore-core/src/test/java/hu/nemi/abcstore/core/StateStoreTest.kt:129-143 | five nested sub-states over 23 are seen as the left-nested pairs `(((((23, "1"), 2), 3L), Unit), (1, 2))` |
| TreeStoreScenarios.ReducerActionUpdatesState | abcstore-core/src/test/java/hu/nemi/abcstore/core/ReducerStoreTest.kt:10-26 | `Inc` through the reducer store calls the store subscriber and the reducer-store subscriber with 24, in that order |
| TreeStoreScenarios.StateActionReachesReducerSubscriber | abcstore-core/src/test/java/hu/nemi/abcstore/core/ReducerStoreTest.kt:30-46 | doubling through the state store calls both subscribers with 46 |
| TreeStoreScenarios.UnsubscribedReducerSubscriberNotCalled | abcstore-core/src/test/java/hu/nemi/abcstore/core/ReducerStoreTest.kt:50-65 | after the reducer-store subscriber unsubscribes, `Inc` calls only the store subscriber, with 24 |
| ReduxNodes.RMapPut | abcredux-core/src/main/java/hu/nemi/abcredux/core/StateNode.kt:57-62 | the write of `MutableStateRef.plus(lens)` puts the value back through `lens` and takes the children from the written node; for a get-put `lens` the read half (`RMapGet`) gives back the written node, and for a put-get `lens` writing back what was read changes nothing |
| ReduxNodes.RootValueLensIsLawful | abcredux-core/src/main/java/hu/nemi/abcredux/core/StateNode.kt:37-40 | the root reference's value lens reads back its writes and a second write replaces the first |
| ReduxNodes.RChildPutFields | abcredux-core/src/main/java/hu/nemi/abcredux/core/StateNode.kt:48-51 | the `addChild` write sets the parent value from `parentState`, puts `state` with the carried children under `key`, and keeps every other child |
| ReduxNodes.RChildGet | abcredux-core/src/main/java/hu/nemi/abcredux/core/StateNode.kt:44-47 | the read half of `addChild`; `RChildPutThenGet` and `RChildGetThenPut` state its round trips with `RChildPut` |
| ReduxNodes.RChildPut | abcredux-core/src/main/java/hu/nemi/abcredux/core/StateNode.kt:48-51 | the write half of `addChild`; its fields are stated by `RChildPutFields` and its round trips by `RChildPutThenGet` and `RChildGetThenPut` |
| ReduxNodes.RChildPutThenGet | abcredux-core/src/main/java/hu/nemi/abcredux/core/StateNode.kt:42-55 | after writing a `State` through `addChild`, reading returns it |
| ReduxNodes.RChildGetThenPut | abcredux-core/src/main/java/hu/nemi/abcredux/core/StateNode.kt:42-55 | writing back what was read leaves a node with that child unchanged |
| ReduxNodes.RChildGetThenPutAbsent | abcredux-core/src/main/java/hu/nemi/abcredux/core/StateNode.kt:42-55 | for an absent child the write-back changes the node by inserting a leaf of `init`, so put-get fails there |
| ReduxNodes.MPutThenGet | abcredux-core/src/main/java/hu/nemi/abcredux/core/StateNode.kt:36-62 | a mutable reference reads back the node written through it whenever every step of the write fits (pairs for sub-states, get-put for user lenses) |
| ReduxNodes.MGet | abcredux-core/src/main/java/hu/nemi/abcredux/core/StateNode.kt:36-62 | the `nodeLens` read of a mutable reference; `MPutThenGet` states that it reads back what `MPut` wrote |
| ReduxNodes.MPut | abcredux-core/src/main/java/hu/nemi/abcredux/core/StateNode.kt:36-62 | the `nodeLens` write; `MPutThenGet` and `ValuePutKeepsChildren` state it |
| ReduxNodes.SGet | abcredux-core/src/main/java/hu/nemi/abcredux/core/StateNode.kt:10-28 | the `value` read of a `StateRef`; `MappedIsComposed`, `SiblingPairReadsBack` and `SelfPairLosesLeft` state it |
| ReduxNodes.SPut | abcredux-core/src/main/java/hu/nemi/abcredux/core/StateNode.kt:15-18 | the `value` write of a `StateRef`, a pair written left first; `SiblingPairReadsBack` and `SelfPairLosesLeft` state it |
| ReduxNodes.ValuePutKeepsChildren | abcredux-core/src/main/java/hu/nemi/abcredux/core/StateNode.kt:37-40 | after writing a value through a mutable reference, the referenced node has that value and its old children |
| ReduxNodes.ChildStateReadsBack | abcredux-core/src/main/java/hu/nemi/abcredux/core/StateNode.kt:42-55 | the child part of a root's sub-state reads back what was written to it |
| ReduxNodes.MappedIsComposed | abcredux-core/src/main/java/hu/nemi/abcredux/core/StateNode.kt:57-62 | `plus(lens)` on a mutable reference (mapping the node) and on a plain reference (composing the value lens) read and write alike |
| ReduxNodes.SiblingUntouched | abcredux-core/src/main/java/hu/nemi/abcredux/core/StateNode.kt:48-51 | writing one sub-state of the root leaves a sibling sub-state's value unchanged |
| ReduxNodes.SiblingPairReadsBack | abcredux-core/src/main/java/hu/nemi/abcredux/core/StateNode.kt:15-18 | `a + b` over two sibling sub-states reads back the pair written to it |
| ReduxNodes.SelfPairLosesLeft | abcredux-core/src/main/java/hu/nemi/abcredux/core/StateNode.kt:15-18 | `r + r` writes `first` and then `second` through the same reference, so it reads back `(second, second)` |
| Scopes.MapBlock | abcstore-core/src/main/java/hu/nemi/abcredux/core/Store.kt:204-210 | a block run on `map(lens)` makes one parent assignment per assignment of the block |
| Scopes.Run | abcstore-core/src/main/java/hu/nemi/abcstore/core/Store.kt:103-107 | the scope's value when a `withState` block returns; `RunEndsWithAssign` and `RunAppend` state it |
| Scopes.RunAppend | abcstore-core/src/main/java/hu/nemi/abcstore/core/Store.kt:144-151 | running two blocks one after the other on the scope is running their concatenation |
| Scopes.RunEndsWithAssign | abcstore-core/src/main/java/hu/nemi/abcredux/core/Store.kt:117-126 | a block that ends with `value = x` leaves `x` in the scope, whatever came before |
| Scopes.MappedRunReads | abcstore-core/src/main/java/hu/nemi/abcredux/core/Store.kt:204-210 | for a lens that reads back its writes, the mapped scope ends with the value the block computes on the narrowed value |
| Scopes.MappedRunWrites | abcstore-core/src/main/java/hu/nemi/abcredux/core/Store.kt:204-210 | for a get-put and put-put lens, a non-empty mapped block is a single write of its final value to the parent |
| Scopes.MappedEmptyRun | abcstore-core/src/main/java/hu/nemi/abcredux/core/Store.kt:204-210 | a block that assigns nothing leaves the parent as it was |
| ObservedStore.CreateIsValid | abcstore-core/src/main/java/hu/nemi/abcredux/core/Store.kt:98 | a new store's subscriber set holds each subscriber once |
| ObservedStore.CreateReadsInitial | abcstore-core/src/main/java/hu/nemi/abcredux/core/Store.kt:89 | a new store reads its initial value at the root, and a sub-state of it reads the pair of that value and the sub-state's initial value |
| ObservedStore.Assign | abcstore-core/src/main/java/hu/nemi/abcredux/core/Store.kt:89-96 | assigning `state` always passes and stores the tree; an equal tree calls nobody, a different one calls each member of the set once, against the store afterwards |
| ObservedStore.RootDispatch | abcstore-core/src/main/java/hu/nemi/abcredux/core/Store.kt:102-113 | a dispatch passes exactly when none is in flight and the action succeeds; an in-flight one fails with `IllegalStateException`; a failure assigns nothing; a different tree is broadcast to the set, an equal one is silent |
| ObservedStore.Dispatch | abcstore-core/src/main/java/hu/nemi/abcredux/core/Store.kt:149-153 | a narrowed dispatch writes `f(value)` back through the store's reference with the same rules and keeps the subscriber set |
| ObservedStore.DispatchNotifiesSubscribers | abcstore-core/src/main/java/hu/nemi/abcredux/core/Store.kt:89-96 | after a change every subscriber is called with its own store's new value |
| ObservedStore.CallbackMayDispatch | abcstore-core/src/main/java/hu/nemi/abcredux/core/Store.kt:89-113 | subscribers run from the `observable` delegate after the `finally` has reset the flag and see the store afterwards, so a dispatch from a callback passes exactly when its mutator succeeds on the new tree |
| ObservedStore.WithState | abcstore-core/src/main/java/hu/nemi/abcredux/core/Store.kt:155-159 | `withState` always passes, assigns what the block run on `map(node.value)` ends with, keeps flag and set, and notifies only on a change |
| ObservedStore.RootWithStateLastAssignmentWins | abcstore-core/src/main/java/hu/nemi/abcredux/core/Store.kt:115-128 | on the root store, a block ending with `value = x` leaves exactly `x` in the root node and keeps its children |
| ObservedStore.Subscribe | abcstore-core/src/main/java/hu/nemi/abcredux/core/Store.kt:130-138 | `subscribe` adds the subscriber (an equal one already there stays), changes no other entry and always calls the block once with its current value |
| ObservedStore.SubscribeKeepsValid | abcstore-core/src/main/java/hu/nemi/abcredux/core/Store.kt:135 | subscribing keeps each subscriber in the set once |
| ObservedStore.SubscriberSeesChanges | abcstore-core/src/main/java/hu/nemi/abcredux/core/Store.kt:173-177 | a new subscriber is called with its own store's new value after every later change |
| ObservedStore.Unsubscribe | abcstore-core/src/main/java/hu/nemi/abcredux/core/Store.kt:142 | `subscriptions -= subscriber` removes exactly that subscriber and keeps tree and flag |
| ObservedStore.UnsubscribeKeepsValid | abcstore-core/src/main/java/hu/nemi/abcredux/core/Store.kt:142 | unsubscribing keeps each subscriber in the set once |
| ObservedStore.UnsubscribedIsNotCalled | abcstore-core/src/main/java/hu/nemi/abcredux/core/Store.kt:141-143 | a block with no other store subscription is never called by a later dispatch once unsubscribed |
| ObservedStore.Unsubscription | abcstore-core/src/main/java/hu/nemi/abcredux/core/Store.kt:141-143 | the handle's `unsubscribe` removes the subscriber when live, does nothing when spent, and is spent afterwards |
| ObservedStore.SecondUnsubscriptionIsIgnored | abcredux-core/src/main/java/hu/nemi/abcredux/core/Observable.kt:42-50 | a second `unsubscribe` on the same handle changes nothing, even after the block subscribed again |
| ObservedStore.ReducerDispatch | abcstore-core/src/main/java/hu/nemi/abcredux/core/Store.kt:186-188 | a reducer store's dispatch writes `reducer(value, action)` through the reference; it fails with `IllegalState` while a dispatch is in flight and with the reducer's own error when the reducer throws, and a failure changes nothing |
| ObservedStoreScenarios.Subscriptions | abcstore-core/src/test/java/hu/nemi/abcredux/core/WithStateTest.kt:17-18 | the two subscribers are called with 23 and `23 to 2` and both are registered |
| ObservedStoreScenarios.SubStoreAssigns | abcstore-core/src/test/java/hu/nemi/abcredux/core/WithStateTest.kt:20 | `value = 13 to 1` on the sub-state store writes root and child, and calls both subscribers with 13 and `13 to 1` |
| ObservedStoreScenarios.RootAssigns | abcstore-core/src/test/java/hu/nemi/abcredux/core/WithStateTest.kt:21 | `value = 42` on the root store keeps the child and calls both with 42 and `42 to 1` |
| ObservedStoreScenarios.LoopThenAssign | abcstore-core/src/test/java/hu/nemi/abcredux/core/WithStateTest.kt:22-25 | 101 assignments and then `value = 53` notify once, with 53 and `53 to 1` |
| ObservedStoreScenarios.SameValuesAreSilent | abcstore-core/src/test/java/hu/nemi/abcredux/core/WithStateTest.kt:27-28 | assigning the values already held, on either store, calls nobody |
| ObservedStoreScenarios.WithStateRespectsDistinctChanges | abcstore-core/src/test/java/hu/nemi/abcredux/core/WithStateTest.kt:10-41 | over the whole test, each step makes exactly the calls the test verifies, and the last two make none |
| Middlewares.Chain | abcredux-core/src/main/java/hu/nemi/abcredux/core/Store.kt:139-146 | with no middleware the chain answers the action itself |
| Middlewares.ChainSplits | abcredux-core/src/main/java/hu/nemi/abcredux/core/Store.kt:141-146 | middlewares run in iteration order: the chain of `ms1 + ms2` is `ms1` with the chain of `ms2` as its `next` |
| Middlewares.ChainInto | abcredux-core/src/main/java/hu/nemi/abcredux/core/Store.kt:141-146 | the chain with a final `next` other than the action itself; `ChainSplits` states how it splits a chain |
| Middlewares.StopHidesTheRest | abcredux-core/src/main/java/hu/nemi/abcredux/core/Store.kt:144 | a middleware that answers without calling `next` decides the chain's answer; later middlewares do not matter |
| Middlewares.TransparentChainPassesAction | abcredux-core/src/main/java/hu/nemi/abcredux/core/Store.kt:139-146 | middlewares that only pass the action on to `next` leave it unchanged |
| ReduxStore.CreateIsValid | abcredux-core/src/main/java/hu/nemi/abcredux/core/Store.kt:155 | a new store is valid |
| ReduxStore.CreateReadsInitial | abcredux-core/src/main/java/hu/nemi/abcredux/core/Store.kt:151 | a new store reads its initial value at the root, and a sub-state of it reads `State(initial, init)` |
| ReduxStore.Assign | abcredux-core/src/main/java/hu/nemi/abcredux/core/Store.kt:151-153 | assigning `state` always passes and stores the tree; an equal tree calls nobody, a different one calls each subscriber of the map once, against the store afterwards |
| ReduxStore.RootDispatch | abcredux-core/src/main/java/hu/nemi/abcredux/core/Store.kt:159-168 | a dispatch passes exactly when none is in flight and the action succeeds; an in-flight one fails with `IllegalStateException`; a failure assigns nothing; a different tree is broadcast to the map, an equal one is silent |
| ReduxStore.Dispatch | abcredux-core/src/main/java/hu/nemi/abcredux/core/Store.kt:197-201 | a narrowed dispatch writes `f(value)` back through the store's reference with the same rules, and keeps subscribers and handles |
| ReduxStore.DispatchNotifiesSubscribers | abcredux-core/src/main/java/hu/nemi/abcredux/core/Store.kt:151-153 | after a change every subscriber of the map is called with its own store's new value |
| ReduxStore.DispatchCreator | abcredux-core/src/main/java/hu/nemi/abcredux/core/Store.kt:203-210 | the creator sees the store's value; the call fails exactly when the creator answers a mutator and a dispatch is in flight or the mutator throws, and a failure changes nothing; subscribers and handles and the flag are kept; a changed tree is broadcast to the map, an unchanged one is silent |
| ReduxStore.DispatchCreatorNotifiesSubscribers | abcredux-core/src/main/java/hu/nemi/abcredux/core/Store.kt:151-153 | dispatching through a creator keeps the store valid, and after a change every subscriber of the map is called with its own store's new value |
| ReduxStore.CallbackMayDispatch | abcredux-core/src/main/java/hu/nemi/abcredux/core/Store.kt:159-168 | subscribers run after the flag is reset and see the store afterwards, so a dispatch from a callback passes exactly when its mutator succeeds on the new tree |
| ReduxStore.NullCreatorChangesNothing | abcredux-core/src/main/java/hu/nemi/abcredux/core/Store.kt:170-174 | a creator returning null passes, leaves the store unchanged and calls nobody, even while a dispatch is in flight |
| ReduxStore.Subscribe | abcredux-core/src/main/java/hu/nemi/abcredux/core/Store.kt:182-192 | a subscriber already in the map gets its handle back and is not called; a new one gets a fresh handle, is entered in the map and is called once with its current value; no other entry changes |
| ReduxStore.SubscribeKeepsValid | abcredux-core/src/main/java/hu/nemi/abcredux/core/Store.kt:182-192 | subscribing keeps the map and the handles consistent |
| ReduxStore.SubscribeAgainReturnsSameHandle | abcredux-core/src/main/java/hu/nemi/abcredux/core/Store.kt:183-191 | subscribing the same block to the same store again returns the same handle, changes nothing and calls nobody |
| ReduxStore.Unsubscribe | abcredux-core/src/main/java/hu/nemi/abcredux/core/Store.kt:185-187 | a live handle removes its subscriber from the map and is spent; a spent handle changes nothing; no other handle changes |
| ReduxStore.UnsubscribeKeepsValid | abcredux-core/src/main/java/hu/nemi/abcredux/core/Store.kt:185-187 | unsubscribing keeps the map and the handles consistent |
| ReduxStore.UnsubscribeRemoves | abcredux-core/src/main/java/hu/nemi/abcredux/core/Store.kt:186 | a live handle takes its own subscriber out of the map and nobody else |
| ReduxStore.UnsubscribeAgainDoesNothing | abcredux-core/src/main/java/hu/nemi/abcredux/core/Store.kt:185-187 | a second `unsubscribe` on a handle has no further effect |
| ReduxStore.SpentHandleSparesResubscription | abcredux-core/src/main/java/hu/nemi/abcredux/core/Store.kt:183-188 | after subscribing, unsubscribing and subscribing again, the block gets a new handle and is called again, and the old handle no longer removes it |
| ReduxStore.UnsubscribedIsNotCalled | abcredux-core/src/main/java/hu/nemi/abcredux/core/Store.kt:185-187 | once its live handle is used, a block with no other store subscription is never called by a later dispatch |
| ReduxStore.WithReducer | abcredux-core/src/main/java/hu/nemi/abcredux/core/Store.kt:255-260 | a reducer store keeps its base, reducer and middleware, and its middleware dispatcher subscribes to the store, receiving the current value when new |
| ReduxStore.MiddlewareStateFollowsStore | abcredux-core/src/main/java/hu/nemi/abcredux/core/Store.kt:258-260 | after every change the middleware dispatcher's observer is called with the store's new value |
| ReduxStore.ReducerDispatch | abcredux-core/src/main/java/hu/nemi/abcredux/core/Store.kt:264-268 | the action goes through the middleware chain with the store's value; a null answer does nothing; otherwise the reducer's result on the chain's action is written back; it fails with `IllegalState` while a dispatch is in flight and with the reducer's own error when the reducer throws, and a failure changes nothing |
| ReduxStore.NoMiddlewareReducesAction | abcredux-core/src/main/java/hu/nemi/abcredux/core/Store.kt:139-146 | without middleware, and with a reducer that returns, the reducer receives the dispatched action itself and its result is written back |
| ReduxStore.ReducerCreatorDispatch | abcredux-core/src/main/java/hu/nemi/abcredux/core/Store.kt:270-276 | an action creator returning null through a reducer store does nothing |
| ReduxStore.CreatorBypassesMiddleware | abcredux-core/src/main/java/hu/nemi/abcredux/core/Store.kt:270-276 | an action creator's action acts like dispatching that action to the reducer store with no middleware |
| ReduxStore.SubState | abcredux-core/src/main/java/hu/nemi/abcredux/core/Store.kt:241-244 | `subState` gives a mutable store of the same root store |
| ReduxStore.SubStateSeesParent | abcredux-core/src/main/java/hu/nemi/abcredux/core/Store.kt:241-244 | a sub-state store sees a pair whose first part is its parent store's value |
| ReduxStore.Map | abcredux-core/src/main/java/hu/nemi/abcredux/core/Store.kt:246-252 | `map` gives a store of the same kind, mutable or immutable, and of the same root store |
| ReduxStore.MapIsThroughLens | abcredux-core/src/main/java/hu/nemi/abcredux/core/Store.kt:246-252 | a mapped store reads its parent's value through the lens and writes through `lens.put` |
| ReduxStore.Zip | abcredux-core/src/main/java/hu/nemi/abcredux/core/Store.kt:225-235 | `zip` fails with `IllegalArgumentException` exactly for a store of another implementation or of another root; otherwise it gives an immutable store of the same root |
| ReduxStore.ZipPairsValues | abcredux-core/src/main/java/hu/nemi/abcredux/core/Store.kt:225-235 | the zipped store reads the pair of both values and writes `first` through this store, then `second` through the other |
| Reducers.Fold | abcstore-core/src/main/java/hu/nemi/abcstore/core/Reducers.kt:10-17 | `fold` fails with `IllegalArgumentException` exactly when no reducer is given |
| Reducers.Thread | abcstore-core/src/main/java/hu/nemi/abcstore/core/Reducers.kt:12-16 | the fold of the reducer list over one action; `ThreadAppend`, `ThreadIsNest` and `ThreadIsLastOutput` state it |
| Reducers.Inputs | abcstore-core/src/main/java/hu/nemi/abcstore/core/Reducers.kt:13-15 | every reducer receives the same action, and the first one receives the initial state |
| Reducers.ThreadAppend | abcstore-core/src/main/java/hu/nemi/abcstore/core/Reducers.kt:13-15 | folding a concatenation folds each part in turn |
| Reducers.ThreadIsNest | abcstore-core/src/main/java/hu/nemi/abcstore/core/Reducers.kt:12-16 | the fold is `rn(... r1(s, a) ..., a)`, applied left to right |
| Reducers.InputsChain | abcstore-core/src/main/java/hu/nemi/abcstore/core/Reducers.kt:13-15 | each reducer receives the state the one before it returned |
| Reducers.ThreadIsLastOutput | abcstore-core/src/main/java/hu/nemi/abcstore/core/Reducers.kt:12-16 | the folded result is the last reducer's output on its input |
| Reducers.FoldSingle | abcstore-core/src/main/java/hu/nemi/abcstore/core/Reducers.kt:12-16 | a fold of one reducer is that reducer |
| Reducers.FoldRegroups | abcredux-core/src/main/java/hu/nemi/abcredux/core/Reducers.kt:12-16 | `fold(r1, r2, r3)` behaves like `fold(fold(r1, r2), r3)` |
| Reducers.FoldSplits | abcredux-core/src/main/java/hu/nemi/abcredux/core/Reducers.kt:12-16 | folding the halves of any split of the list and folding the two results gives the same reducer |
| Subscriptions.Unsubscribe | abcredux-core/src/main/java/hu/nemi/abcredux/core/Observable.kt:42-50 | `unsubscribe` runs the block exactly when the subscription is live, and spends it whatever the block's outcome |
| Subscriptions.FreshRunsOnce | abcredux-core/src/main/java/hu/nemi/abcredux/core/Observable.kt:40-50 | a fresh subscription runs its block on the first `unsubscribe()`, with the block's effect, and however often it is called the block runs exactly once |
| Subscriptions.SpentIgnoresCalls | abcredux-core/src/main/java/hu/nemi/abcredux/core/Observable.kt:43 | any number of calls on a spent subscription change nothing and run nothing |
| Subscriptions.RunsAtMostOnce | abcredux-core/src/main/java/hu/nemi/abcredux/core/Observable.kt:42-50 | over any number of calls the block runs at most once, exactly once for a live subscription, and the effect is that one run's |
| Subscriptions.FailureStillSpends | abcredux-core/src/main/java/hu/nemi/abcredux/core/Observable.kt:44-48 | a failing block still spends the subscription, so a retry does not run it |
| Locks.Enter | abcstore-core/src/main/java/hu/nemi/abcredux/core/Lock.kt:31-33 | entry succeeds exactly for the owner or on a free lock, making the caller the owner with one more entry, otherwise fails with `ConcurrentModificationException`; from a valid lock the entered lock is valid and one exit restores the original |
| Locks.Exit | abcstore-core/src/main/java/hu/nemi/abcredux/core/Lock.kt:37 | an exit counts one entry less and frees the lock when the count reaches zero; exiting a held valid lock gives a valid lock, either free or still held by the same owner |
| Locks.Invoke | abcstore-core/src/main/java/hu/nemi/abcredux/core/Lock.kt:30-42 | a thread that may not enter is refused with `ConcurrentModificationException` and the lock is unchanged; from a valid lock every call, also one whose block fails, leaves the lock as it found it |
| Locks.Run | abcstore-core/src/main/java/hu/nemi/abcredux/core/Lock.kt:34-38 | a block run under the held lock, with all its nested calls, leaves the lock as it found it |
| Locks.FreeLockAdmitsAnyone | abcstore-core/src/main/java/hu/nemi/abcredux/core/Lock.kt:27-33 | any thread enters a free lock and becomes its owner with one entry |
| Locks.ReenterSucceeds | abcstore-core/src/main/java/hu/nemi/abcredux/core/Lock.kt:32-33 | the owner re-enters, one more entry each time |
| Locks.ForeignOwnerRefused | abcstore-core/src/main/java/hu/nemi/abcredux/core/Lock.kt:39-41 | another thread is refused with `ConcurrentModificationException` while the lock is held, and the lock is unchanged |
| Locks.FreeAfterwards | abcstore-core/src/main/java/hu/nemi/abcredux/core/Lock.kt:36-38 | after a call on a free lock the lock is free again, whatever the block did |
| Locks.InvokeIsTransparent | abcstore-core/src/main/java/hu/nemi/abcredux/core/Lock.kt:34-35 | for a single thread the call returns the block's own result |
| Locks.RunIsTransparent | abcstore-core/src/main/java/hu/nemi/abcredux/core/Lock.kt:34-35 | a block run by its owner under the held lock returns its own result |
| Locks.NestedForeignEntryFails | abcstore-core/src/main/java/hu/nemi/abcredux/core/Lock.kt:39-41 | a nested entry by another thread fails the whole call and leaves the lock free |

## Left out

- Schedulers other than the immediate one: deferred schedulers only reorder work, and the only ones shipped run on Android threads.
- Threads, `@Volatile`, `AtomicLong` and real interleavings: the lock is modelled sequentially with explicit owner tokens, and the compare-and-set is one step.
- `AsyncActionCreator` dispatch in abcredux-core `Store.kt`: it is callback-driven re-dispatch of ordinary action creators, which are modelled.
- Middlewares.Chain: a middleware calls `next` at most once and does not dispatch back to the store. The source's shared iterator, which makes a second `next` call skip ahead, is not modelled.
- A `withState` block or an action creator that throws: blocks are modelled as sequences of assignments, and action creators as total functions returning an optional action.
- Re-entrant calls from inside subscriber callbacks: the model returns the calls as a log and does not run them. Whether a nested call made from a callback would be accepted is stated over the store the callbacks see by `TreeStore.ReentrantDispatchRefused`, `TreeStore.ReentrantWithStateRuns`, `ObservedStore.CallbackMayDispatch` and `ReduxStore.CallbackMayDispatch`.
- Callbacks.Broadcast: subscriber blocks are assumed not to throw. In the source a throwing block ends the notification after the new state is committed, skips the later subscribers and fails the call; the model always makes every call and passes. The same holds for `TreeStore.Notify`.
- NodeGet: the value of the node read is not stated against the tree; only its subscriber sets are (`GetAt`). Through a child reference the value is the pair of parent and child values, which `ChildRefGetIsComposition` states step by step.
- NodePut: values and child maps after the write are not stated against the tree; only the subscriber sets are (`PutAt`). Through a child reference the write also replaces the parent's value with the first component of the written pair (`ChildPutFields`).
- GetAt: states the subscriber sets below `Path(r)` only, not the values or child maps of the node read.
- PutAt: states the subscriber sets only, not the values or child maps of the written subtree or of its ancestors.
- Reducers.Fold: the reducers it folds are total functions. A reducer in the list that throws would end the folded reducer with its exception; the stores' own reducers may fail (`Result`), but the fold helper does not model failing reducers.
- A dispatch made from inside a mutator, reducer or middleware: these are pure functions in the model, so they cannot call back into the store while `isDispatching` is set.
- Order-insensitive equality of Kotlin maps and sets: `LinkedHashMap`/`LinkedHashSet` compare as sets of entries, while the association lists of `Linked` compare in insertion order. So two trees that hold the same children in a different order count as different here. `setState` and the `observable` delegate would then call the subscribers for a change the source ignores. Writes through a reference keep every key in its first position, so the trees before and after a modelled operation never differ in order alone.
- A side-effecting `init` thunk of `addChild`/`subState`: `init` is modelled as a value, on the assumption that the thunk is pure and returns the same value whenever it is called.
- The store's `Lock` around every store operation: it is held by the single caller, so it never refuses (`Locks.ReenterSucceeds`).
- Kotlin's 32- and 64-bit integer overflow: integers are unbounded. No modelled scenario comes near the limits.
- Ill-typed children: the Kotlin casts `as? StateNode<C>` cannot fail under erasure, so a present key is taken as a present child. A non-pair written through a sub-state is read as its own first component with `Unit` as its second; Kotlin's types rule this case out.
- abcstore-core's `Observable.kt` (the `Subscription` the `abcstore` stores return) is not part of this model. The `abcstore` handle is modelled as the bare removal `TreeStore.Unsubscribe`, and the `hu.nemi.abcredux.core` ones as the abcredux-core `DefaultSubscription`.
- abcstore-core's `hu.nemi.abcredux.core.StateNodeRef` is not part of this model: it is assumed to have the shape of abcredux-core's `MutableStateRef` with `Pair` in place of `State`.
- The `flatten` lens of the `deep states` test: it converts between Kotlin data classes that have no counterpart among the model's values. The nested-pair value that the unmapped store sees is proved (`TreeStoreScenarios.DeepStateEmitted`).
- ReduxStore.UnsubscribedIsNotCalled: stated for a live handle only. A spent handle promises nothing about later calls, because the block may have subscribed again since (`ReduxStore.SpentHandleSparesResubscription`).
- Getter.kt and Setter.kt: they only declare the two halves of `Lens`, which the `Lens` datatype already covers.
- Everything under sampletodo/ and abcstore-android/ (UI, dependency injection and LiveData glue), and the build files.

=== FILE: callbacks.dfy ===
/** Subscriber callbacks.

    Kotlin subscribers are function objects compared by identity; the model
    names each one by a number.  Calling a subscriber is observable only
    through the value it receives, so a notification is recorded as the
    pair of the two.
 */
module Callbacks {
  import opened Values
  import Linked

  /** A subscriber block, by identity. */
  type SubId = nat

  /** A store object (`DefaultStateStore`), by identity.  A subscriber
      wraps its block together with its store's value lens, which is
      created with the store, so two subscribers are equal exactly when
      block and store agree. */
  type StoreId = nat

  /** One invocation of block `sub` with `value`. */
  datatype Call = Call(sub: SubId, value: Value)

  /** A subscriber of the `abcredux` stores: a block on one store. */
  type Subscriber = (SubId, StoreId)

  /** `subscriptions.forEach { it(newState) }`: each subscriber of the set,
      in iteration order, called with what its reader `read` sees. */
  function Broadcast<R>(subs: seq<(Subscriber, R)>, read: R -> Value): (calls: seq<Call>)
    ensures |calls| == |subs|
    ensures forall i :: 0 <= i < |subs| ==> calls[i] == Call(subs[i].0.0, read(subs[i].1))
  {
    seq(|subs|, i requires 0 <= i < |subs| => Call(subs[i].0.0, read(subs[i].1)))
  }

  /** Nobody is missed: every member of the set is called with the value
      its own reader sees. */
  lemma BroadcastReachesEveryone<R>(subs: seq<(Subscriber, R)>, read: R -> Value, k: Subscriber)
    requires Linked.Lookup(subs, k).Some?
    ensures Call(k.0, read(Linked.Lookup(subs, k).value)) in Broadcast(subs, read)
  {
    var i := Linked.LookupEntry(subs, k);
  }

  /** Nobody else is called: each call goes to a member of the set, with
      the value that member's reader sees. */
  lemma BroadcastOnlySubscribers<R>(subs: seq<(Subscriber, R)>, read: R -> Value, i: nat) returns (id: StoreId)
    requires Linked.DistinctKeys(subs) && i < |Broadcast(subs, read)|
    ensures Linked.Lookup(subs, (Broadcast(subs, read)[i].sub, id)).Some?
    ensures Broadcast(subs, read)[i].value == read(Linked.Lookup(subs, (Broadcast(subs, read)[i].sub, id)).value)
  {
    id := subs[i].0.1;
    Linked.DistinctLookup(subs, i);
  }
}

=== FILE: lenses.dfy ===
/** Lenses: bidirectional accessors into immutable values.

    A `Lens<S, A>` focuses on an `A` inside an `S`.  `get` reads the focus,
    `put(s, a)` returns `s` with its focus replaced by `a` (the Kotlin
    `set: (A) -> (S) -> S`, uncurried; `set` is a reserved word here).
    Lenses are composed with `Compose` (Kotlin's `+`).
 */
module Lenses {

  datatype Lens<!S, !A> = Lens(get: S -> A, put: (S, A) -> S)

  /** Reading back what was just written gives the written value.  The law
      names give the order of the operations as written, innermost last:
      `GetPut` is "get after put" (the law often called PutGet elsewhere),
      and `PutGet` is "put after get" (often called GetPut). */
  ghost predicate GetPut<S(!new), A(!new)>(l: Lens<S, A>) {
    forall s, a :: l.get(l.put(s, a)) == a
  }

  /** Writing back what was just read changes nothing. */
  ghost predicate PutGet<S(!new), A(!new)>(l: Lens<S, A>) {
    forall s :: l.put(s, l.get(s)) == s
  }

  /** A second write overrides the first. */
  ghost predicate PutPut<S(!new), A(!new)>(l: Lens<S, A>) {
    forall s, a, b :: l.put(l.put(s, a), b) == l.put(s, b)
  }

  /** Extensional equality: same reads and same writes everywhere. */
  ghost predicate Same<S(!new), A(!new)>(l1: Lens<S, A>, l2: Lens<S, A>) {
    && (forall s :: l1.get(s) == l2.get(s))
    && (forall s, a :: l1.put(s, a) == l2.put(s, a))
  }

  /** `Lens(get, set)`: a lens from a getter and a curried setter. */
  function Of<S(!new), A(!new)>(get: S -> A, setter: A -> S -> S): (l: Lens<S, A>)
    ensures forall s :: l.get(s) == get(s)
    ensures forall s, a :: l.put(s, a) == setter(a)(s)
    ensures GetPut(l) <==> forall s, a :: get(setter(a)(s)) == a
    ensures PutGet(l) <==> forall s :: setter(get(s))(s) == s
    ensures PutPut(l) <==> forall s, a, b :: setter(b)(setter(a)(s)) == setter(b)(s)
  {
    Lens(get, (s, a) => setter(a)(s))
  }

  /** `Lens()`: the identity lens, focusing on the whole value. */
  function Identity<S(!new)>(): (l: Lens<S, S>)
    ensures forall s :: l.get(s) == s
    ensures forall s, a :: l.put(s, a) == a
  {
    Lens(s => s, (s, a) => a)
  }

  /** `outer + inner`: focus through `outer`, then through `inner`. */
  function Compose<S(!new), A(!new), B(!new)>(outer: Lens<S, A>, inner: Lens<A, B>): Lens<S, B>
  {
    Lens(s => inner.get(outer.get(s)), (s, b) => outer.put(s, inner.put(outer.get(s), b)))
  }

  /** How a composed lens reads and writes at one point. */
  lemma ComposeAt<S(!new), A(!new), B(!new)>(outer: Lens<S, A>, inner: Lens<A, B>, s: S, b: B)
    ensures Compose(outer, inner).get(s) == inner.get(outer.get(s))
    ensures Compose(outer, inner).put(s, b) == outer.put(s, inner.put(outer.get(s), b))
  {
  }

  /** `lens(s, f)`: replace the focus by `f` of the focus. */
  function Modify<S(!new), A(!new)>(l: Lens<S, A>, s: S, f: A -> A): (r: S)
    ensures GetPut(l) ==> l.get(r) == f(l.get(s))
    ensures PutGet(l) && f(l.get(s)) == l.get(s) ==> r == s
  {
    l.put(s, f(l.get(s)))
  }

  lemma IdentityIsLawful<S(!new)>()
    ensures GetPut(Identity<S>()) && PutGet(Identity<S>()) && PutPut(Identity<S>())
  {
  }

  lemma ComposeKeepsGetPut<S(!new), A(!new), B(!new)>(outer: Lens<S, A>, inner: Lens<A, B>)
    requires GetPut(outer) && GetPut(inner)
    ensures GetPut(Compose(outer, inner))
  {
    var l := Compose(outer, inner);
    forall s, b ensures l.get(l.put(s, b)) == b {
      var a := inner.put(outer.get(s), b);
      assert l.put(s, b) == outer.put(s, a);
      assert outer.get(outer.put(s, a)) == a;
    }
  }

  lemma ComposeKeepsPutGet<S(!new), A(!new), B(!new)>(outer: Lens<S, A>, inner: Lens<A, B>)
    requires PutGet(outer) && PutGet(inner)
    ensures PutGet(Compose(outer, inner))
  {
    var l := Compose(outer, inner);
    forall s ensures l.put(s, l.get(s)) == s {
      var a := outer.get(s);
      assert inner.put(a, inner.get(a)) == a;
    }
  }

  lemma ComposeKeepsPutPut<S(!new), A(!new), B(!new)>(outer: Lens<S, A>, inner: Lens<A, B>)
    requires GetPut(outer) && PutPut(outer) && PutPut(inner)
    ensures PutPut(Compose(outer, inner))
  {
    var l := Compose(outer, inner);
    forall s, b1, b2 ensures l.put(l.put(s, b1), b2) == l.put(s, b2) {
      var a := outer.get(s);
      var a1 := inner.put(a, b1);
      var s1 := outer.put(s, a1);
      assert outer.get(s1) == a1;
      assert inner.put(a1, b2) == inner.put(a, b2);
      assert outer.put(s1, inner.put(a, b2)) == outer.put(s, inner.put(a, b2));
    }
  }

  lemma ComposeIsAssociative<S(!new), A(!new), B(!new), C(!new)>(l1: Lens<S, A>, l2: Lens<A, B>, l3: Lens<B, C>)
    ensures Same(Compose(Compose(l1, l2), l3), Compose(l1, Compose(l2, l3)))
  {
  }

  lemma IdentityIsUnit<S(!new), A(!new)>(l: Lens<S, A>)
    ensures Same(Compose(Identity<S>(), l), l)
    ensures Same(Compose(l, Identity<A>()), l)
  {
  }
}

=== FILE: linked.dfy ===
/** Insertion-ordered maps and sets, as Kotlin's `mapOf`/`setOf` builders
    produce them (`LinkedHashMap`, `LinkedHashSet`).

    A map is an association list `seq<(K, V)>`: `Put` on a present key keeps
    its position, a new key is appended.  A set is a sequence without
    duplicates: `Insert` appends a new element, `Remove` takes it out and
    keeps the order of the rest.  The store notifies subscribers by iterating
    these collections, so their order is part of the observable behaviour.
 */
module Linked {
  import opened Outcomes

  /** The keys of an association list, in iteration order. */
  function Keys<K, V>(es: seq<(K, V)>): (ks: seq<K>)
    ensures |ks| == |es|
    ensures forall i :: 0 <= i < |es| ==> ks[i] == es[i].0
  {
    if es == [] then [] else [es[0].0] + Keys(es[1..])
  }

  /** `map[k]`: the value of the first entry with key `k`. */
  function Lookup<K(==), V>(es: seq<(K, V)>, k: K): Option<V> {
    if es == [] then None
    else if es[0].0 == k then Some(es[0].1)
    else Lookup(es[1..], k)
  }

  /** `map[k]` is non-null exactly for the keys of the map. */
  lemma {:induction false} LookupFindsKeys<K, V>(es: seq<(K, V)>, k: K)
    ensures Lookup(es, k).Some? <==> k in Keys(es)
  {
    if es != [] {
      LookupFindsKeys(es[1..], k);
      assert Keys(es) == [es[0].0] + Keys(es[1..]);
    }
  }

  /** A present key has an entry carrying the looked-up value. */
  lemma {:induction false} LookupEntry<K(!new), V>(es: seq<(K, V)>, k: K) returns (i: nat)
    requires Lookup(es, k).Some?
    ensures i < |es| && es[i].0 == k && es[i].1 == Lookup(es, k).value
  {
    if es[0].0 == k {
      i := 0;
    } else {
      var j := LookupEntry(es[1..], k);
      i := j + 1;
    }
  }

  /** `map + (k to v)`: replaces the entry for `k` in place, or appends it. */
  function Put<K(==,!new), V>(es: seq<(K, V)>, k: K, v: V): (r: seq<(K, V)>)
    ensures Lookup(r, k) == Some(v)
    ensures forall k' :: k' != k ==> Lookup(r, k') == Lookup(es, k')
    ensures Keys(r) == if k in Keys(es) then Keys(es) else Keys(es) + [k]
  {
    if es == [] then [(k, v)]
    else if es[0].0 == k then
      var r := [(k, v)] + es[1..];
      assert r[0] == (k, v) && r[1..] == es[1..];
      assert Keys(r) == [k] + Keys(es[1..]);
      r
    else
      var rest := Put(es[1..], k, v);
      var r := [es[0]] + rest;
      assert r[0] == es[0] && r[1..] == rest;
      assert Keys(r) == [es[0].0] + Keys(rest);
      r
  }

  /** Putting back the value found under a present key changes nothing. */
  lemma {:induction false} PutLookup<K(!new), V>(es: seq<(K, V)>, k: K)
    requires Lookup(es, k).Some?
    ensures Put(es, k, Lookup(es, k).value) == es
  {
    if es[0].0 != k {
      PutLookup(es[1..], k);
      assert [es[0]] + es[1..] == es;
    } else {
      assert [es[0]] + es[1..] == es;
    }
  }

  /** No key occurs twice: the association list is a genuine map. */
  ghost predicate DistinctKeys<K, V>(es: seq<(K, V)>) {
    forall i, j :: 0 <= i < j < |es| ==> es[i].0 != es[j].0
  }

  /** No element occurs twice: the sequence is a genuine set. */
  ghost predicate NoDuplicates<T>(s: seq<T>) {
    forall i, j :: 0 <= i < j < |s| ==> s[i] != s[j]
  }

  /** Two sets with no element in common concatenate to a set. */
  lemma NoDuplicatesAppend<T>(a: seq<T>, b: seq<T>)
    requires NoDuplicates(a) && NoDuplicates(b)
    requires forall x :: x in a ==> x !in b
    ensures NoDuplicates(a + b)
  {
    forall i, j | 0 <= i < j < |a + b|
      ensures (a + b)[i] != (a + b)[j]
    {
      if j >= |a| && i < |a| {
        assert (a + b)[i] == a[i] && (a + b)[j] == b[j - |a|];
        assert a[i] in a;
      }
    }
  }

  lemma PutKeepsDistinctKeys<K(!new), V>(es: seq<(K, V)>, k: K, v: V)
    requires DistinctKeys(es)
    ensures DistinctKeys(Put(es, k, v))
  {
    var r := Put(es, k, v);
    var ks := Keys(es);
    forall i, j | 0 <= i < j < |r|
      ensures r[i].0 != r[j].0
    {
      assert Keys(r)[i] == r[i].0 && Keys(r)[j] == r[j].0;
      if k !in ks && j == |ks| {
        assert r[i].0 == ks[i];
        assert ks[i] in ks;
      } else {
        assert r[i].0 == ks[i] && r[j].0 == ks[j];
        assert ks[i] == es[i].0 && ks[j] == es[j].0;
      }
    }
  }

  /** `set + x` on a `LinkedHashSet`: an element already present stays where it is. */
  function Insert<T(==,!new)>(s: seq<T>, x: T): (r: seq<T>)
    ensures forall y :: y in r <==> y in s || y == x
    ensures |r| == if x in s then |s| else |s| + 1
    ensures NoDuplicates(s) ==> NoDuplicates(r)
  {
    if x in s then s else s + [x]
  }

  /** `set - x`: every element but `x`, in the original order. */
  function Remove<T(==,!new)>(s: seq<T>, x: T): (r: seq<T>)
    ensures forall y :: y in r <==> y in s && y != x
    ensures x !in s ==> r == s
    ensures NoDuplicates(s) ==> NoDuplicates(r)
    ensures |r| <= |s|
  {
    if s == [] then []
    else if s[0] == x then Remove(s[1..], x)
    else
      var rest := Remove(s[1..], x);
      assert NoDuplicates(s) ==> s[0] !in s[1..] && NoDuplicates(s[1..]) by {
        if NoDuplicates(s) {
          forall j | 0 <= j < |s[1..]|
            ensures s[1..][j] != s[0]
          {
            assert s[1..][j] == s[j + 1];
          }
          forall i, j | 0 <= i < j < |s[1..]|
            ensures s[1..][i] != s[1..][j]
          {
            assert s[1..][i] == s[i + 1] && s[1..][j] == s[j + 1];
          }
        }
      }
      [s[0]] + rest
  }

  /** Every entry of `Put(es, k, v)` is an old entry (same position) or the new one. */
  lemma {:induction false} PutEntry<K(!new), V>(es: seq<(K, V)>, k: K, v: V, i: nat) returns (j: nat)
    requires i < |Put(es, k, v)|
    ensures j <= |es|
    ensures j < |es| ==> Put(es, k, v)[i] == es[j]
    ensures j == |es| ==> Put(es, k, v)[i] == (k, v)
  {
    if es == [] {
      j := 0;
    } else if es[0].0 == k {
      j := if i == 0 then |es| else i;
    } else if i == 0 {
      j := 0;
    } else {
      var j' := PutEntry(es[1..], k, v, i - 1);
      j := j' + 1;
    }
  }

  /** In a map with distinct keys, an entry is what its key looks up. */
  lemma {:induction false} DistinctLookup<K, V>(es: seq<(K, V)>, i: nat)
    requires DistinctKeys(es) && i < |es|
    ensures Lookup(es, es[i].0) == Some(es[i].1)
  {
    if i > 0 {
      assert es[0].0 != es[i].0;
      assert DistinctKeys(es[1..]) by {
        forall a, b | 0 <= a < b < |es[1..]|
          ensures es[1..][a].0 != es[1..][b].0
        {
          assert es[1..][a] == es[a + 1] && es[1..][b] == es[b + 1];
        }
      }
      assert es[1..][i - 1] == es[i];
      DistinctLookup(es[1..], i - 1);
    }
  }

  /** `map - k`: every entry but the one for `k`, in the original order. */
  function Delete<K(==,!new), V>(es: seq<(K, V)>, k: K): (r: seq<(K, V)>)
    ensures Lookup(r, k).None?
    ensures forall k' :: k' != k ==> Lookup(r, k') == Lookup(es, k')
    ensures Lookup(es, k).None? ==> r == es
    ensures |r| <= |es|
  {
    if es == [] then []
    else if es[0].0 == k then Delete(es[1..], k)
    else
      var rest := Delete(es[1..], k);
      var r := [es[0]] + rest;
      assert r[0] == es[0] && r[1..] == rest;
      assert Lookup(es, k).None? ==> r == es by {
        if Lookup(es, k).None? {
          assert rest == es[1..];
        }
      }
      r
  }
  /** The tail of a map is a map without the head's key. */
  lemma DistinctTail<K, V>(es: seq<(K, V)>)
    requires DistinctKeys(es) && es != []
    ensures DistinctKeys(es[1..])
    ensures Lookup(es[1..], es[0].0).None?
  {
    forall a, b | 0 <= a < b < |es[1..]|
      ensures es[1..][a].0 != es[1..][b].0
    {
      assert es[1..][a] == es[a + 1] && es[1..][b] == es[b + 1];
    }
    LookupFindsKeys(es[1..], es[0].0);
    forall j | 0 <= j < |es[1..]|
      ensures Keys(es[1..])[j] != es[0].0
    {
      assert es[1..][j] == es[j + 1];
    }
  }

  /** A map extended in front by a new key is a map. */
  lemma DistinctCons<K, V>(e: (K, V), rest: seq<(K, V)>)
    requires DistinctKeys(rest) && Lookup(rest, e.0).None?
    ensures DistinctKeys([e] + rest)
  {
    var r := [e] + rest;
    LookupFindsKeys(rest, e.0);
    forall a, b | 0 <= a < b < |r|
      ensures r[a].0 != r[b].0
    {
      if a == 0 {
        assert r[b] == rest[b - 1];
        assert Keys(rest)[b - 1] == rest[b - 1].0;
      } else {
        assert r[a] == rest[a - 1] && r[b] == rest[b - 1];
      }
    }
  }

  /** Removing a key keeps a map a map. */
  lemma {:induction false} DeleteKeepsDistinctKeys<K(!new), V>(es: seq<(K, V)>, k: K)
    requires DistinctKeys(es)
    ensures DistinctKeys(Delete(es, k))
  {
    if es != [] {
      DistinctTail(es);
      DeleteKeepsDistinctKeys(es[1..], k);
      if es[0].0 != k {
        DistinctCons(es[0], Delete(es[1..], k));
      }
    }
  }
}

=== FILE: locks.dfy ===
/** `DefaultLock` (abcstore-core Lock.kt): a non-blocking re-entrant lock.

    The lock remembers the owning thread (`-1` when free) and how many
    times that owner has entered.  The owner, or anyone when the lock is
    free, may enter; anyone else gets a `ConcurrentModificationException`
    at once instead of waiting.  Each exit decrements the count, also when
    the block fails, and the lock is freed when the count reaches zero.

    Threads are modelled by explicit owner tokens and the compare-and-set
    as one step; atomicity is not modelled.
 */
module Locks {
  import opened Outcomes

  /** A thread id; real ids are non-negative. */
  type Owner = nat

  /** `accessingThread` (−1 when free) and `accessCount`. */
  datatype Lock = Lock(owner: int, count: int)

  /** `DefaultLock()`: free, never entered. */
  const Free: Lock := Lock(-1, 0)

  /** The states a lock can be observed in between calls: free with no
      entries, or held by a thread with at least one entry. */
  ghost predicate Valid(l: Lock) {
    (l.owner == -1 && l.count == 0) || (l.owner >= 0 && l.count > 0)
  }

  /** The guard `accessingThread.get() == threadId || compareAndSet(-1, threadId)`. */
  predicate CanEnter(l: Lock, t: Owner) {
    l.owner == t || l.owner == -1
  }

  /** Entering: claim ownership when free and count the entry. */
  function Enter(l: Lock, t: Owner): (r: Result<Lock>)
    ensures r.Ok? <==> CanEnter(l, t)
    ensures r.Ok? ==> r.value == Lock(t, l.count + 1)
    ensures r.Err? ==> r.error == ConcurrentModification
    ensures Valid(l) && r.Ok? ==> Valid(r.value) && Exit(r.value) == l
  {
    if CanEnter(l, t) then Ok(Lock(t, l.count + 1)) else Err(ConcurrentModification)
  }

  /** The `finally`: `if (--accessCount == 0) accessingThread.set(-1)`. */
  function Exit(l: Lock): (r: Lock)
    ensures r.count == l.count - 1
    ensures r.owner == (if l.count == 1 then -1 else l.owner)
    ensures Valid(l) && l.owner >= 0 ==> Valid(r) && (r == Free || r.owner == l.owner)
  {
    var c := l.count - 1;
    if c == 0 then Lock(-1, c) else Lock(l.owner, c)
  }

  /** What a block does while it holds the lock: return a value, throw, or
      enter the lock again (as some thread) for a nested block and, when
      that returns, go on with the rest. */
  datatype Block =
    | Return(value: int)
    | Throw(code: nat)
    | Nested(owner: Owner, inner: Block, rest: Block)

  /** `lock(block)` called by thread `t`: the lock afterwards and the block's
      result.  A refused thread changes nothing; otherwise every entry is
      matched by an exit, also on failure, so the lock ends as it began. */
  function Invoke(l: Lock, t: Owner, b: Block): (r: (Lock, Result<int>))
    ensures !CanEnter(l, t) ==> r == (l, Err(ConcurrentModification))
    ensures Valid(l) ==> r.0 == l
    decreases b, 1
  {
    match Enter(l, t)
    case Err(e) => (l, Err(e))
    case Ok(held) =>
      var (after, res) := Run(held, b);
      (Exit(after), res)
  }

  /** Running a block under a lock it already holds. */
  function Run(l: Lock, b: Block): (r: (Lock, Result<int>))
    ensures Valid(l) ==> r.0 == l
    decreases b, 0
  {
    match b
    case Return(v) => (l, Ok(v))
    case Throw(c) => (l, Err(Raised(c)))
    case Nested(t, inner, rest) =>
      var (l1, r1) := Invoke(l, t, inner);
      if r1.Err? then (l1, r1) else Run(l1, rest)
  }

  /** A free lock is entered by any thread, which becomes its owner. */
  lemma FreeLockAdmitsAnyone(t: Owner)
    ensures Enter(Free, t) == Ok(Lock(t, 1))
  {
  }

  /** The owner re-enters, one more entry each time. */
  lemma ReenterSucceeds(l: Lock, t: Owner)
    requires Valid(l) && l.owner == t
    ensures Enter(l, t).Ok? && Enter(l, t).value.owner == t
    ensures Enter(l, t).value.count == l.count + 1
  {
  }

  /** Any other thread is refused while the lock is held, and nothing changes. */
  lemma ForeignOwnerRefused(l: Lock, t: Owner, b: Block)
    requires Valid(l) && l.owner >= 0 && l.owner != t
    ensures Enter(l, t) == Err(ConcurrentModification)
    ensures Invoke(l, t, b) == (l, Err(ConcurrentModification))
  {
  }

  /** After a call on a free lock the lock is free again, whatever the block did. */
  lemma FreeAfterwards(t: Owner, b: Block)
    ensures Invoke(Free, t, b).0 == Free
  {
  }

  /** The block's value as it would be without any lock. */
  function Eval(b: Block): Result<int> {
    match b
    case Return(v) => Ok(v)
    case Throw(c) => Err(Raised(c))
    case Nested(_, inner, rest) =>
      var r := Eval(inner);
      if r.Err? then r else Eval(rest)
  }

  /** Every nested entry is made by thread `t`. */
  predicate SingleOwner(b: Block, t: Owner) {
    match b
    case Return(_) => true
    case Throw(_) => true
    case Nested(t', inner, rest) => t' == t && SingleOwner(inner, t) && SingleOwner(rest, t)
  }

  /** For one thread the lock is transparent: the call returns the block's own value. */
  lemma {:induction false} InvokeIsTransparent(l: Lock, t: Owner, b: Block)
    requires Valid(l) && CanEnter(l, t) && SingleOwner(b, t)
    ensures Invoke(l, t, b).1 == Eval(b)
    decreases b, 1
  {
    RunIsTransparent(Lock(t, l.count + 1), t, b);
  }

  lemma {:induction false} RunIsTransparent(l: Lock, t: Owner, b: Block)
    requires Valid(l) && l.owner == t && SingleOwner(b, t)
    ensures Run(l, b).1 == Eval(b)
    decreases b, 0
  {
    match b
    case Return(_) =>
    case Throw(_) =>
    case Nested(t', inner, rest) =>
      InvokeIsTransparent(l, t, inner);
      if Eval(inner).Ok? {
        RunIsTransparent(l, t, rest);
      }
  }

  /** A nested entry by another thread fails the whole call with `ConcurrentModificationException`. */
  lemma NestedForeignEntryFails(t: Owner, u: Owner, inner: Block, rest: Block)
    requires t != u
    ensures Invoke(Free, t, Nested(u, inner, rest)) == (Free, Err(ConcurrentModification))
  {
    var held := Lock(t, 1);
    assert Invoke(held, u, inner) == (held, Err(ConcurrentModification));
    assert Run(held, Nested(u, inner, rest)) == (held, Err(ConcurrentModification));
  }
}

=== FILE: middlewares.dfy ===
/** The middleware chain of the `abcredux` reducer store (abcredux-core
    Store.kt, `MiddlewareDispatcher`).

    Each dispatch walks the middlewares in iteration order.  A middleware
    sees the state, the action and `next`, the rest of the chain; it
    either answers itself without calling `next` or calls `next` once,
    with an action of its choice, and answers something computed from
    what `next` returned.  Past the last middleware, `next` returns the
    action it is given.  The answer of the whole chain is the action the
    reducer receives, or nothing.
 */
module Middlewares {
  import opened Values
  import opened Outcomes

  /** What a middleware's `dispatch` does with the action it receives. */
  datatype Reply =
    | Stop(answer: Option<Value>)                                // returns without calling `next`
    | Next(action: Value, after: Option<Value> -> Option<Value>)  // returns `after(next.dispatch(action))`

  /** A middleware: from the state and the action, its reply. */
  type Middleware = (Value, Value) -> Reply

  /** `MiddlewareDispatcher.dispatch(action)` with the dispatcher's `state`. */
  function Chain(ms: seq<Middleware>, state: Value, a: Value): (r: Option<Value>)
    ensures ms == [] ==> r == Some(a)
    decreases |ms|
  {
    if ms == [] then Some(a)
    else match ms[0](state, a)
      case Stop(answer) => answer
      case Next(b, after) => after(Chain(ms[1..], state, b))
  }

  /** The chain `ms`, with `rest` standing for whatever follows it. */
  function ChainInto(ms: seq<Middleware>, state: Value, a: Value, rest: Value -> Option<Value>): Option<Value>
    decreases |ms|
  {
    if ms == [] then rest(a)
    else match ms[0](state, a)
      case Stop(answer) => answer
      case Next(b, after) => after(ChainInto(ms[1..], state, b, rest))
  }

  /** The chain runs in iteration order: the first middlewares run with
      the later ones as their `next`. */
  lemma {:induction false} ChainSplits(ms1: seq<Middleware>, ms2: seq<Middleware>, state: Value, a: Value)
    ensures Chain(ms1 + ms2, state, a) == ChainInto(ms1, state, a, (b: Value) => Chain(ms2, state, b))
    decreases |ms1|
  {
    if ms1 == [] {
      assert ms1 + ms2 == ms2;
    } else {
      assert (ms1 + ms2)[0] == ms1[0];
      assert (ms1 + ms2)[1..] == ms1[1..] + ms2;
      match ms1[0](state, a)
      case Stop(_) =>
      case Next(b, after) =>
        ChainSplits(ms1[1..], ms2, state, b);
    }
  }

  /** A middleware that answers by itself hides every later one. */
  lemma StopHidesTheRest(m: Middleware, rest: seq<Middleware>, state: Value, a: Value)
    requires m(state, a).Stop?
    ensures Chain([m] + rest, state, a) == m(state, a).answer
  {
    assert ([m] + rest)[0] == m;
  }

  /** A middleware that only looks: it calls `next` with the same action
      and returns what `next` returned. */
  ghost predicate Transparent(m: Middleware) {
    forall state, a :: m(state, a) == Next(a, (r: Option<Value>) => r)
  }

  /** Middlewares that only look leave the action as it was. */
  lemma {:induction false} TransparentChainPassesAction(ms: seq<Middleware>, state: Value, a: Value)
    requires forall i :: 0 <= i < |ms| ==> Transparent(ms[i])
    ensures Chain(ms, state, a) == Some(a)
    decreases |ms|
  {
    if ms != [] {
      assert Transparent(ms[0]);
      assert ms[0](state, a) == Next(a, (r: Option<Value>) => r);
      TransparentChainPassesAction(ms[1..], state, a);
    }
  }
}

=== FILE: observed_store.dfy ===
/** The `abcredux` store of abcstore-core (package `hu.nemi.abcredux.core`).

    The `RootStateStore` keeps the tree in an observable property: every
    assignment of a tree different from the current one calls each member
    of the subscriber set, as the set is at that moment, with the new
    tree.  A subscriber is the user's block together with its store's
    value lens, so it is called with the value of its own store.

    The set is a `LinkedHashSet`, iterated in insertion order.  Two
    subscribers are equal when block and lens are, and a store's lens is
    created with the store, so the set is keyed by (block, store).

    Both schedulers are the `ImmediateScheduler` and the `Lock` is held by
    the single caller of this sequential model, so it never refuses.
 */
module ObservedStore {
  import opened Values
  import opened Lenses
  import opened Outcomes
  import opened Callbacks
  import opened ReduxNodes
  import Linked
  import Scopes
  import Subscriptions

  /** The subscriber set: for each (block, store), the reference its
      lens reads through. */
  type Subscribers = seq<(Subscriber, MRef)>

  datatype Root = Root(state: RNode, isDispatching: bool, subscriptions: Subscribers)

  /** What a store operation did: its outcome, the store afterwards, the
      subscriber calls it made, in order, and the store as those calls find
      it (what a dispatch made from inside a callback runs against). */
  datatype Effect = Effect(outcome: Outcome, store: Root, calls: seq<Call>, during: Root)

  /** `StateStore(initialState)`: one node, nobody subscribed, not dispatching. */
  function Create(initial: Value): (s: Root)
    ensures s.state == RLeaf(initial) && !s.isDispatching && s.subscriptions == []
  {
    Root(RLeaf(initial), false, [])
  }

  /** The set holds each subscriber once. */
  ghost predicate Valid(s: Root) {
    Linked.DistinctKeys(s.subscriptions)
  }

  lemma CreateIsValid(initial: Value)
    ensures Valid(Create(initial))
  {
  }

  /** A new store reads its initial value at the root, and a sub-state of
      it reads the pair of that value and the sub-state's initial value. */
  lemma CreateReadsInitial(initial: Value, key: Key, init: Value)
    ensures MValueGet(MRoot, Create(initial).state) == initial
    ensures MValueGet(MChild(MRoot, key, init), Create(initial).state) == PairV(initial, init)
  {
  }

  // ---------------------------------------------------------------------
  // The observable `state`

  /** What the reader `m` of a subscriber sees in `state`. */
  function ReadIn(state: RNode): MRef -> Value {
    (m: MRef) => MValueGet(m, state)
  }

  /** Assigning `state`: a different tree is stored and broadcast to the
      set as it is now; an equal one is stored silently. */
  function Assign(s: Root, next: RNode): (e: Effect)
    ensures e.outcome == Pass && e.store == s.(state := next) && e.during == e.store
    ensures next == s.state ==> e.calls == []
    ensures next != s.state ==> |e.calls| == |s.subscriptions|
  {
    if next == s.state then Effect(Pass, s, [], s)
    else Effect(Pass, s.(state := next), Broadcast(s.subscriptions, ReadIn(next)), s.(state := next))
  }

  // ---------------------------------------------------------------------
  // `dispatch`

  /** `RootStateStore.dispatch(action)`: refused while a dispatch is in
      flight.  The flag is reset in a `finally` before the new tree is
      assigned, so subscribers are called with the flag down; a failing
      action assigns nothing. */
  function RootDispatch(s: Root, action: RNode -> Result<RNode>): (e: Effect)
    ensures e.outcome == Pass <==> !s.isDispatching && action(s.state).Ok?
    ensures s.isDispatching ==> e.outcome == Fail(IllegalState)
    ensures !s.isDispatching && action(s.state).Err? ==> e.outcome == Fail(action(s.state).error)
    ensures e.outcome.Fail? ==> e.store == s && e.calls == []
    ensures e.outcome == Pass ==> e.store == s.(state := action(s.state).value)
    ensures e.store.state == s.state ==> e.calls == []
    ensures e.store.state != s.state ==> e.calls == Broadcast(s.subscriptions, ReadIn(e.store.state))
    ensures e.calls != [] ==> e.during == e.store && !e.during.isDispatching
  {
    if s.isDispatching then Effect(Fail(IllegalState), s, [], s)
    else match action(s.state)
      case Err(err) => Effect(Fail(err), s, [], s)
      case Ok(next) => Assign(s, next)
  }

  /** The root-level action of `DefaultStateStore.dispatch(action)`. */
  function Mutation(m: MRef, f: Value -> Result<Value>): RNode -> Result<RNode> {
    (n: RNode) => match f(MValueGet(m, n))
      case Ok(v) => Ok(MValuePut(m, n, v))
      case Err(err) => Err(err)
  }

  /** `store.dispatch(mutator)` on the store of reference `m`; a mutator
      that throws is an `Err`. */
  function Dispatch(s: Root, m: MRef, f: Value -> Result<Value>): (e: Effect)
    ensures e.outcome == Pass <==> !s.isDispatching && f(MValueGet(m, s.state)).Ok?
    ensures s.isDispatching ==> e.outcome == Fail(IllegalState)
    ensures e.outcome.Fail? ==> e.store == s && e.calls == []
    ensures e.outcome == Pass ==> e.store.state == MValuePut(m, s.state, f(MValueGet(m, s.state)).value)
    ensures e.store.isDispatching == s.isDispatching && e.store.subscriptions == s.subscriptions
    ensures e.store.state == s.state ==> e.calls == []
    ensures e.store.state != s.state ==> e.calls == Broadcast(s.subscriptions, ReadIn(e.store.state))
    ensures e.calls != [] ==> e.during == e.store && !e.during.isDispatching
  {
    RootDispatch(s, Mutation(m, f))
  }

  /** After a dispatch that changed the tree, every subscriber is called
      with its store's new value. */
  lemma DispatchNotifiesSubscribers(s: Root, m: MRef, f: Value -> Result<Value>, b: SubId, id: StoreId)
    requires Dispatch(s, m, f).store.state != s.state
    requires Linked.Lookup(s.subscriptions, (b, id)).Some?
    ensures Call(b, MValueGet(Linked.Lookup(s.subscriptions, (b, id)).value, Dispatch(s, m, f).store.state))
      in Dispatch(s, m, f).calls
  {
    BroadcastReachesEveryone(s.subscriptions, ReadIn(Dispatch(s, m, f).store.state), (b, id));
  }

  /** Unlike the `abcstore` store, subscribers run after the flag is reset,
      against the new tree: a dispatch made from a callback is accepted
      whenever its mutator succeeds. */
  lemma CallbackMayDispatch(s: Root, m: MRef, f: Value -> Result<Value>, m2: MRef, f2: Value -> Result<Value>)
    requires Dispatch(s, m, f).calls != []
    ensures !Dispatch(s, m, f).during.isDispatching
    ensures Dispatch(s, m, f).during == Dispatch(s, m, f).store
    ensures var d := Dispatch(s, m, f).during;
      Dispatch(d, m2, f2).outcome == Pass <==> f2(MValueGet(m2, d.state)).Ok?
  {
  }

  // ---------------------------------------------------------------------
  // `withState`

  /** `withState { ... }` on the store of reference `m`: the block runs on
      `map(node.value)` of a scope holding the tree, and the tree it ends
      with is assigned.  It does not look at `isDispatching`. */
  function WithState(s: Root, m: MRef, block: Scopes.Block<Value>): (e: Effect)
    ensures e.outcome == Pass
    ensures e.store.state == Scopes.Run(Scopes.MapBlock(ValueLensOf(Mut(m)), block), s.state)
    ensures e.store.isDispatching == s.isDispatching && e.store.subscriptions == s.subscriptions
    ensures e.store.state == s.state ==> e.calls == []
    ensures e.store.state != s.state ==> e.calls == Broadcast(s.subscriptions, ReadIn(e.store.state))
  {
    Assign(s, Scopes.Run(Scopes.MapBlock(ValueLensOf(Mut(m)), block), s.state))
  }

  /** On the root store a block that ends with `value = x` leaves exactly
      `x` in the root node: only the last assignment counts, and the
      children are untouched. */
  lemma RootWithStateLastAssignmentWins(s: Root, block: Scopes.Block<Value>, x: Value)
    ensures WithState(s, MRoot, block + [Scopes.Assign(x)]).store.state == s.state.(value := x)
  {
    var l := ValueLensOf(Mut(MRoot));
    RootValueLensIsLawful();
    Scopes.MappedRunWrites(l, block + [Scopes.Assign(x)], s.state);
    Scopes.RunEndsWithAssign(block, x, l.get(s.state));
  }

  // ---------------------------------------------------------------------
  // `subscribe` and the returned `Subscription`

  /** `store.subscribe(block)` on store `id` with reference `m`: the
      subscriber joins the set (an equal one already there stays) and is
      called with the current value, whether or not it was there before. */
  function Subscribe(s: Root, id: StoreId, m: MRef, b: SubId): (e: Effect)
    ensures e.outcome == Pass
    ensures e.calls == [Call(b, MValueGet(m, s.state))]
    ensures e.store.state == s.state && e.store.isDispatching == s.isDispatching
    ensures Linked.Lookup(e.store.subscriptions, (b, id)).Some?
    ensures forall k :: k != (b, id) ==> Linked.Lookup(e.store.subscriptions, k) == Linked.Lookup(s.subscriptions, k)
    ensures Linked.Lookup(s.subscriptions, (b, id)).Some? ==> e.store.subscriptions == s.subscriptions
  {
    var subs := if Linked.Lookup(s.subscriptions, (b, id)).Some? then s.subscriptions
                else Linked.Put(s.subscriptions, (b, id), m);
    Effect(Pass, s.(subscriptions := subs), [Call(b, MValueGet(m, s.state))], s.(subscriptions := subs))
  }

  lemma SubscribeKeepsValid(s: Root, id: StoreId, m: MRef, b: SubId)
    requires Valid(s)
    ensures Valid(Subscribe(s, id, m, b).store)
  {
    Linked.PutKeepsDistinctKeys(s.subscriptions, (b, id), m);
  }

  /** A new subscriber is called with the new value of its store after
      every change of the tree. */
  lemma SubscriberSeesChanges(s: Root, id: StoreId, m: MRef, b: SubId, m2: MRef, f: Value -> Result<Value>)
    requires Linked.Lookup(s.subscriptions, (b, id)).None?
    requires var t := Subscribe(s, id, m, b).store; Dispatch(t, m2, f).store.state != t.state
    ensures var t := Subscribe(s, id, m, b).store;
      Call(b, MValueGet(m, Dispatch(t, m2, f).store.state)) in Dispatch(t, m2, f).calls
  {
    var t := Subscribe(s, id, m, b).store;
    DispatchNotifiesSubscribers(t, m2, f, b, id);
  }

  /** The scheduled `subscriptions -= subscriber`. */
  function Unsubscribe(s: Root, id: StoreId, b: SubId): (t: Root)
    ensures t.state == s.state && t.isDispatching == s.isDispatching
    ensures Linked.Lookup(t.subscriptions, (b, id)).None?
    ensures forall k :: k != (b, id) ==> Linked.Lookup(t.subscriptions, k) == Linked.Lookup(s.subscriptions, k)
  {
    s.(subscriptions := Linked.Delete(s.subscriptions, (b, id)))
  }

  lemma UnsubscribeKeepsValid(s: Root, id: StoreId, b: SubId)
    requires Valid(s)
    ensures Valid(Unsubscribe(s, id, b))
  {
    Linked.DeleteKeepsDistinctKeys(s.subscriptions, (b, id));
  }

  /** Once unsubscribed from store `id`, a block that has no other store
      subscription is never called by a later dispatch. */
  lemma UnsubscribedIsNotCalled(s: Root, id: StoreId, b: SubId, m: MRef, f: Value -> Result<Value>, i: nat)
    requires Valid(s)
    requires forall id' :: id' != id ==> Linked.Lookup(s.subscriptions, (b, id')).None?
    requires i < |Dispatch(Unsubscribe(s, id, b), m, f).calls|
    ensures Dispatch(Unsubscribe(s, id, b), m, f).calls[i].sub != b
  {
    var t := Unsubscribe(s, id, b);
    UnsubscribeKeepsValid(s, id, b);
    var e := Dispatch(t, m, f);
    var id' := BroadcastOnlySubscribers(t.subscriptions, ReadIn(e.store.state), i);
  }

  /** The handle returned by `subscribe`: its block removes the subscriber. */
  function Removal(id: StoreId, b: SubId): Root -> (Root, Outcome) {
    (s: Root) => (Unsubscribe(s, id, b), Pass)
  }

  /** `subscription.unsubscribe()` on the handle `h` of subscriber (`b`, `id`). */
  function Unsubscription(h: Subscriptions.Subscription, s: Root, id: StoreId, b: SubId): (r: Subscriptions.Step<Root>)
    ensures r.sub.isUnsubscribed && r.outcome == Pass
    ensures r.env == if h.isUnsubscribed then s else Unsubscribe(s, id, b)
  {
    Subscriptions.Unsubscribe(h, s, Removal(id, b))
  }

  /** Unsubscribing twice through the same handle is unsubscribing once,
      even when the block subscribed again in between. */
  lemma SecondUnsubscriptionIsIgnored(h: Subscriptions.Subscription, s: Root, id: StoreId, m: MRef, b: SubId)
    ensures var first := Unsubscription(h, s, id, b);
      var again := Subscribe(first.env, id, m, b).store;
      Unsubscription(first.sub, again, id, b).env == again
  {
  }

  // ---------------------------------------------------------------------
  // `ReducerStore`

  /** `reducerStore.dispatch(action)`: the mutator `{ reducer(it, action) }`
      dispatched to the underlying store; a reducer that throws is an `Err`,
      which assigns nothing. */
  function ReducerDispatch(s: Root, m: MRef, reducer: (Value, Value) -> Result<Value>, a: Value): (e: Effect)
    ensures e.outcome == Pass <==> !s.isDispatching && reducer(MValueGet(m, s.state), a).Ok?
    ensures s.isDispatching ==> e.outcome == Fail(IllegalState)
    ensures !s.isDispatching && reducer(MValueGet(m, s.state), a).Err? ==>
      e.outcome == Fail(reducer(MValueGet(m, s.state), a).error)
    ensures e.outcome == Pass ==> e.store.state == MValuePut(m, s.state, reducer(MValueGet(m, s.state), a).value)
    ensures e.outcome.Fail? ==> e.store == s && e.calls == []
  {
    Dispatch(s, m, (v: Value) => reducer(v, a))
  }
}

=== FILE: observed_store_scenarios.dfy ===
/** The `withState` test of the abcstore-core `abcredux` store
    (WithStateTest.kt), step by step: a root store of `23`, its sub-state
    store `"sub"` initialised to `2`, one subscriber on each, then five
    `withState` blocks.  Every subscriber call is listed, in order. */
module ObservedStoreScenarios {
  import opened Values
  import opened Outcomes
  import opened Callbacks
  import opened ReduxNodes
  import opened ObservedStore
  import Scopes

  const SubRef: MRef := MChild(MRoot, StrV("sub"), IntV(2))

  /** The root store is store 0, the sub-state store is store 1. */
  const RootStore: StoreId := 0
  const SubStore: StoreId := 1

  /** The block on the root store, and the one on the sub-state store. */
  const RootBlock: SubId := 1
  const SubBlock: SubId := 2

  /** A tree holding `x` at the root and `y` under `"sub"`. */
  function Tree(x: int, y: int): RNode {
    RNode(IntV(x), [(StrV("sub"), RLeaf(IntV(y)))])
  }

  const Both: Subscribers := [((RootBlock, RootStore), MRoot), ((SubBlock, SubStore), SubRef)]

  /** Both subscribers, called with a tree holding `x` and `y`. */
  function Calls(x: int, y: int): seq<Call> {
    [Call(RootBlock, IntV(x)), Call(SubBlock, PairV(IntV(x), IntV(y)))]
  }

  lemma BothSee(x: int, y: int)
    ensures Broadcast(Both, ReadIn(Tree(x, y))) == Calls(x, y)
  {
    var t := Tree(x, y);
    assert MGet(SubRef, t) == RNode(PairV(IntV(x), IntV(y)), []);
  }

  /** `store.subscribe` then `subStore.subscribe`: each is called once with
      its current value, `23` and `23 to 2`. */
  lemma Subscriptions()
    ensures var e1 := Subscribe(Create(IntV(23)), RootStore, MRoot, RootBlock);
      var e2 := Subscribe(e1.store, SubStore, SubRef, SubBlock);
      && e1.calls == [Call(RootBlock, IntV(23))]
      && e2.calls == [Call(SubBlock, PairV(IntV(23), IntV(2)))]
      && e2.store == Root(RLeaf(IntV(23)), false, Both)
  {
    assert MGet(SubRef, RLeaf(IntV(23))) == RNode(PairV(IntV(23), IntV(2)), []);
  }

  /** `subStore.withState { value = 13 to 1 }` writes both the root value
      and the child. */
  lemma SubStoreAssigns()
    ensures var e := WithState(Root(RLeaf(IntV(23)), false, Both), SubRef, [Scopes.Assign(PairV(IntV(13), IntV(1)))]);
      e.store == Root(Tree(13, 1), false, Both) && e.calls == Calls(13, 1)
  {
    var st := RLeaf(IntV(23));
    var p := PairV(IntV(13), IntV(1));
    var l := ValueLensOf(Mut(SubRef));
    Scopes.MapBlockHead(l, [Scopes.Assign(p)], st);
    var b := Scopes.MapBlock(l, [Scopes.Assign(p)]);
    assert Scopes.Run(b, st) == b[0](st);
    assert MGet(SubRef, st) == RNode(PairV(IntV(23), IntV(2)), []);
    assert RChildPut(st, StrV("sub"), RNode(p, [])) == Tree(13, 1);
    assert SPut(Mut(SubRef), st, p) == Tree(13, 1);
    BothSee(13, 1);
  }

  /** `store.withState { value = 42 }` keeps the child. */
  lemma RootAssigns()
    ensures var e := WithState(Root(Tree(13, 1), false, Both), MRoot, [Scopes.Assign(IntV(42))]);
      e.store == Root(Tree(42, 1), false, Both) && e.calls == Calls(42, 1)
  {
    RootWithStateLastAssignmentWins(Root(Tree(13, 1), false, Both), [], IntV(42));
    assert [] + [Scopes.Assign(IntV(42))] == [Scopes.Assign(IntV(42))];
    BothSee(42, 1);
  }

  /** The 101 assignments `42 .. 142` of the `forEach` loop. */
  function Counting(): Scopes.Block<Value> {
    seq(101, i requires 0 <= i < 101 => Scopes.Assign(IntV(42 + i)))
  }

  /** A block that assigns 101 values and then `53` notifies only once, with `53`. */
  lemma LoopThenAssign()
    ensures var e := WithState(Root(Tree(42, 1), false, Both), MRoot, Counting() + [Scopes.Assign(IntV(53))]);
      e.store == Root(Tree(53, 1), false, Both) && e.calls == Calls(53, 1)
  {
    RootWithStateLastAssignmentWins(Root(Tree(42, 1), false, Both), Counting(), IntV(53));
    BothSee(53, 1);
  }

  /** Assigning the value already held notifies nobody, on either store. */
  lemma SameValuesAreSilent()
    ensures var e := WithState(Root(Tree(53, 1), false, Both), MRoot, [Scopes.Assign(IntV(53))]);
      e.store == Root(Tree(53, 1), false, Both) && e.calls == []
    ensures var e := WithState(Root(Tree(53, 1), false, Both), SubRef, [Scopes.Assign(PairV(IntV(53), IntV(1)))]);
      e.store == Root(Tree(53, 1), false, Both) && e.calls == []
  {
    var t := Tree(53, 1);
    RootWithStateLastAssignmentWins(Root(t, false, Both), [], IntV(53));
    assert [] + [Scopes.Assign(IntV(53))] == [Scopes.Assign(IntV(53))];
    var p := PairV(IntV(53), IntV(1));
    Scopes.MapBlockHead(ValueLensOf(Mut(SubRef)), [Scopes.Assign(p)], t);
    var b := Scopes.MapBlock(ValueLensOf(Mut(SubRef)), [Scopes.Assign(p)]);
    assert Scopes.Run(b, t) == b[0](t);
    assert MGet(SubRef, t) == RNode(p, []);
    assert RChildPut(t, StrV("sub"), RNode(p, [])) == t;
    assert SPut(Mut(SubRef), t, p) == t;
  }

  /** The whole test: each step makes exactly the calls it verifies, in
      this order, and the last two make none. */
  lemma WithStateRespectsDistinctChanges()
    ensures
      var e1 := Subscribe(Create(IntV(23)), RootStore, MRoot, RootBlock);
      var e2 := Subscribe(e1.store, SubStore, SubRef, SubBlock);
      var e3 := WithState(e2.store, SubRef, [Scopes.Assign(PairV(IntV(13), IntV(1)))]);
      var e4 := WithState(e3.store, MRoot, [Scopes.Assign(IntV(42))]);
      var e5 := WithState(e4.store, MRoot, Counting() + [Scopes.Assign(IntV(53))]);
      var e6 := WithState(e5.store, MRoot, [Scopes.Assign(IntV(53))]);
      var e7 := WithState(e6.store, SubRef, [Scopes.Assign(PairV(IntV(53), IntV(1)))]);
      && e1.calls == [Call(RootBlock, IntV(23))]
      && e2.calls == [Call(SubBlock, PairV(IntV(23), IntV(2)))]
      && e3.calls == Calls(13, 1) && e4.calls == Calls(42, 1) && e5.calls == Calls(53, 1)
      && e6.calls == [] && e7.calls == []
  {
    var e1 := Subscribe(Create(IntV(23)), RootStore, MRoot, RootBlock);
    var e2 := Subscribe(e1.store, SubStore, SubRef, SubBlock);
    Subscriptions();
    assert e2.store == Root(RLeaf(IntV(23)), false, Both);
    var e3 := WithState(e2.store, SubRef, [Scopes.Assign(PairV(IntV(13), IntV(1)))]);
    SubStoreAssigns();
    assert e3.store == Root(Tree(13, 1), false, Both);
    var e4 := WithState(e3.store, MRoot, [Scopes.Assign(IntV(42))]);
    RootAssigns();
    assert e4.store == Root(Tree(42, 1), false, Both);
    var e5 := WithState(e4.store, MRoot, Counting() + [Scopes.Assign(IntV(53))]);
    LoopThenAssign();
    assert e5.store == Root(Tree(53, 1), false, Both);
    var e6 := WithState(e5.store, MRoot, [Scopes.Assign(IntV(53))]);
    var e7 := WithState(e6.store, SubRef, [Scopes.Assign(PairV(IntV(53), IntV(1)))]);
    SameValuesAreSilent();
    assert e6.calls == [] && e7.calls == [];
  }
}

=== FILE: outcomes.dfy ===
/** Failure-carrying datatypes shared by every module of the model.

    The Kotlin library signals misuse with exceptions; the model returns them
    as values.  `Raised` stands for any exception thrown by user code (a
    mutator, a reducer, an unsubscribe block) that the library lets through.
 */
module Outcomes {

  /** The exceptions the library throws or propagates. */
  datatype Error =
    | IllegalState            // java.lang.IllegalStateException: reentrant dispatch
    | IllegalArgument         // java.lang.IllegalArgumentException: empty fold, foreign zip
    | ConcurrentModification  // java.util.ConcurrentModificationException: lock held by another owner
    | Raised(code: nat)       // anything thrown by caller-supplied code

  /** Kotlin's nullable `T?`. */
  datatype Option<+T> = None | Some(value: T) {
    function GetOr(default: T): T {
      match this
      case Some(v) => v
      case None => default
    }
  }

  /** A value or the exception that replaced it. */
  datatype Result<+T> = Ok(value: T) | Err(error: Error)

  /** Completion of a `Unit`-returning call: normal return or an exception. */
  datatype Outcome = Pass | Fail(error: Error)
}

=== FILE: reducers.dfy ===
/** Reducer folding: `fold(r1, ..., rn)` combines reducers `(S, A) -> S`
    into one that threads the state through them in order, handing every
    one of them the same action.  Both Reducers.kt files define the same
    function; the model covers both.
 */
module Reducers {
  import opened Outcomes

  /** `reducers.fold(state) { s, r -> r(s, action) }`: left to right. */
  function Thread<S, A>(rs: seq<(S, A) -> S>, s: S, a: A): S
    decreases |rs|
  {
    if rs == [] then s else Thread(rs[1..], rs[0](s, a), a)
  }

  /** `fold(*reducers)`: refuses an empty list, otherwise the threading reducer. */
  function Fold<S, A>(rs: seq<(S, A) -> S>): (r: Result<(S, A) -> S>)
    ensures r.Err? <==> rs == []
    ensures r.Err? ==> r.error == IllegalArgument
  {
    if rs == [] then Err(IllegalArgument) else Ok((s: S, a: A) => Thread(rs, s, a))
  }

  /** The documented meaning, `rn(... r2(r1(s, a), a) ..., a)`: the last
      reducer applied to the fold of the others. */
  function Nest<S, A>(rs: seq<(S, A) -> S>, s: S, a: A): S
    decreases |rs|
  {
    if rs == [] then s else rs[|rs| - 1](Nest(rs[..|rs| - 1], s, a), a)
  }

  /** The state each reducer receives, in order, together with its action. */
  function Inputs<S, A>(rs: seq<(S, A) -> S>, s: S, a: A): (ins: seq<(S, A)>)
    ensures |ins| == |rs|
    ensures forall i :: 0 <= i < |ins| ==> ins[i].1 == a
    ensures rs != [] ==> ins[0].0 == s
    decreases |rs|
  {
    if rs == [] then [] else [(s, a)] + Inputs(rs[1..], rs[0](s, a), a)
  }

  /** Threading through a concatenation threads through each part in turn. */
  lemma {:induction false} ThreadAppend<S, A>(rs1: seq<(S, A) -> S>, rs2: seq<(S, A) -> S>, s: S, a: A)
    ensures Thread(rs1 + rs2, s, a) == Thread(rs2, Thread(rs1, s, a), a)
    decreases |rs1|
  {
    if rs1 == [] {
      assert rs1 + rs2 == rs2;
    } else {
      assert (rs1 + rs2)[1..] == rs1[1..] + rs2;
      assert (rs1 + rs2)[0] == rs1[0];
      ThreadAppend(rs1[1..], rs2, rs1[0](s, a), a);
    }
  }

  /** The fold applies the reducers left to right, as documented. */
  lemma {:induction false} ThreadIsNest<S, A>(rs: seq<(S, A) -> S>, s: S, a: A)
    ensures Thread(rs, s, a) == Nest(rs, s, a)
    decreases |rs|
  {
    if rs != [] {
      var init := rs[..|rs| - 1];
      var last := rs[|rs| - 1];
      assert rs == init + [last];
      ThreadAppend(init, [last], s, a);
      ThreadIsNest(init, s, a);
      assert Thread([last], Thread(init, s, a), a) == last(Thread(init, s, a), a);
    }
  }

  /** Each reducer is fed the result of the one before it. */
  lemma {:induction false} InputsChain<S, A>(rs: seq<(S, A) -> S>, s: S, a: A, i: nat)
    requires i + 1 < |rs|
    ensures Inputs(rs, s, a)[i + 1].0 == rs[i](Inputs(rs, s, a)[i].0, a)
    decreases i
  {
    if i > 0 {
      InputsChain(rs[1..], rs[0](s, a), a, i - 1);
    }
  }

  /** The folded result is the last reducer applied to its input. */
  lemma {:induction false} ThreadIsLastOutput<S, A>(rs: seq<(S, A) -> S>, s: S, a: A)
    requires rs != []
    ensures Thread(rs, s, a) == rs[|rs| - 1](Inputs(rs, s, a)[|rs| - 1].0, a)
    decreases |rs|
  {
    if |rs| > 1 {
      ThreadIsLastOutput(rs[1..], rs[0](s, a), a);
    }
  }

  /** A fold of one reducer is that reducer. */
  lemma FoldSingle<S, A>(r: (S, A) -> S, s: S, a: A)
    ensures Fold([r]).Ok? && Fold([r]).value(s, a) == r(s, a)
  {
    assert [r][1..] == [];
    assert Fold([r]).value(s, a) == Thread([r], s, a);
    assert Thread([r], s, a) == Thread([], r(s, a), a);
  }

  /** Folding is associative: `fold(r1, r2, r3)` behaves like `fold(fold(r1, r2), r3)`. */
  lemma FoldRegroups<S, A>(r1: (S, A) -> S, r2: (S, A) -> S, r3: (S, A) -> S, s: S, a: A)
    ensures Fold([r1, r2]).Ok? && Fold([r1, r2, r3]).Ok?
    ensures Fold([Fold([r1, r2]).value, r3]).Ok?
    ensures Fold([r1, r2, r3]).value(s, a) == Fold([Fold([r1, r2]).value, r3]).value(s, a)
  {
    var f12 := Fold([r1, r2]).value;
    ThreadAppend([r1, r2], [r3], s, a);
    assert [r1, r2] + [r3] == [r1, r2, r3];
    assert f12(s, a) == Thread([r1, r2], s, a);
    assert Thread([f12, r3], s, a) == Thread([r3], f12(s, a), a) by {
      assert [f12, r3][1..] == [r3];
    }
  }

  /** Splitting the list anywhere and folding the halves gives the same reducer. */
  lemma FoldSplits<S, A>(rs1: seq<(S, A) -> S>, rs2: seq<(S, A) -> S>, s: S, a: A)
    requires rs1 != [] && rs2 != []
    ensures Fold(rs1 + rs2).Ok? && Fold(rs1).Ok? && Fold(rs2).Ok?
    ensures Fold(rs1 + rs2).value(s, a) == Fold(rs2).value(Fold(rs1).value(s, a), a)
  {
    ThreadAppend(rs1, rs2, s, a);
  }
}

=== FILE: redux_nodes.dfy ===
/** The state tree of the `abcredux` store (abcredux-core StateNode.kt).

    Like the `abcstore` tree but without subscribers: a node is a value and
    keyed children.  A `MutableStateRef` reaches one node of the tree
    through a node lens built by `addChild` and `plus(lens)`; a `StateRef`
    is only a value lens, built from a mutable reference, by `plus(lens)`
    on another `StateRef`, or by pairing two references with `plus(other)`.
    Child sub-states pair the parent's value with the child's, which the
    library writes `State(parentState, state)`; the model writes `PairV`.
 */
module ReduxNodes {
  import opened Values
  import opened Lenses
  import opened Outcomes
  import Linked

  datatype RNode = RNode(value: Value, children: seq<(Key, RNode)>)

  /** `StateNode(value)`: no children yet. */
  function RLeaf(v: Value): (n: RNode)
    ensures n.value == v && n.children == []
  {
    RNode(v, [])
  }

  /** The read half of `addChild(key, init)`: the child under `key`, or a
      fresh node from `init`, with the value `State(parent value, child value)`. */
  function RChildGet(n: RNode, key: Key, init: Value): RNode {
    var child := Linked.Lookup(n.children, key).GetOr(RLeaf(init));
    RNode(PairV(n.value, child.value), child.children)
  }

  /** The write half: `parentState` becomes the parent's value and `state`,
      with the written children, the child under `key`. */
  function RChildPut(n: RNode, key: Key, m: RNode): RNode {
    RNode(First(m.value), Linked.Put(n.children, key, RNode(Second(m.value), m.children)))
  }

  /** The node step of `MutableStateRef.plus(lens)`: the same node, its value seen through `lens`. */
  function RMapGet(lens: Lens<Value, Value>, n: RNode): (r: RNode)
    ensures r.value == lens.get(n.value) && r.children == n.children
  {
    RNode(lens.get(n.value), n.children)
  }

  function RMapPut(lens: Lens<Value, Value>, n: RNode, m: RNode): (r: RNode)
    ensures r.value == lens.put(n.value, m.value) && r.children == m.children
    ensures GetPut(lens) ==> RMapGet(lens, r) == m
    ensures PutGet(lens) && m == RMapGet(lens, n) ==> r == n
  {
    RNode(lens.put(n.value, m.value), m.children)
  }

  /** How a `MutableStateRef` was built. */
  datatype MRef =
    | MRoot                                         // MutableStateRef(Lens())
    | MChild(parent: MRef, key: Key, init: Value)   // parent.addChild(key, init)
    | MMapped(parent: MRef, lens: Lens<Value, Value>) // parent + lens

  /** `nodeLens` read. */
  function MGet(r: MRef, root: RNode): RNode {
    match r
    case MRoot => root
    case MChild(p, key, init) => RChildGet(MGet(p, root), key, init)
    case MMapped(p, lens) => RMapGet(lens, MGet(p, root))
  }

  /** `nodeLens` write. */
  function MPut(r: MRef, root: RNode, n: RNode): RNode {
    match r
    case MRoot => n
    case MChild(p, key, init) => MPut(p, root, RChildPut(MGet(p, root), key, n))
    case MMapped(p, lens) => MPut(p, root, RMapPut(lens, MGet(p, root), n))
  }

  /** `value` of a mutable reference: `nodeLens` followed by the node's value. */
  function MValueGet(r: MRef, root: RNode): Value {
    MGet(r, root).value
  }

  function MValuePut(r: MRef, root: RNode, v: Value): RNode {
    MPut(r, root, MGet(r, root).(value := v))
  }

  /** How a `StateRef` was built. */
  datatype SRef =
    | Mut(ref: MRef)                          // a MutableStateRef used as a StateRef
    | Composed(base: SRef, lens: Lens<Value, Value>) // StateRef(value + lens)
    | Paired(left: SRef, right: SRef)         // left + other

  /** The `value` lens of a `StateRef`, read. */
  function SGet(r: SRef, root: RNode): Value {
    match r
    case Mut(m) => MValueGet(m, root)
    case Composed(b, lens) => lens.get(SGet(b, root))
    case Paired(a, b) => PairV(SGet(a, root), SGet(b, root))
  }

  /** ... and written.  A pair is written through the left reference first,
      then through the right one into the result. */
  function SPut(r: SRef, root: RNode, v: Value): RNode {
    match r
    case Mut(m) => MValuePut(m, root, v)
    case Composed(b, lens) => SPut(b, root, lens.put(SGet(b, root), v))
    case Paired(a, b) => SPut(b, SPut(a, root, First(v)), Second(v))
  }

  /** The `value` lens of a reference, on the whole tree. */
  function ValueLensOf(r: SRef): Lens<RNode, Value> {
    Lens((n: RNode) => SGet(r, n), (n: RNode, v: Value) => SPut(r, n, v))
  }

  /** The root store's value lens is lawful: it reads back what it writes
      and a second write replaces the first. */
  lemma RootValueLensIsLawful()
    ensures GetPut(ValueLensOf(Mut(MRoot))) && PutPut(ValueLensOf(Mut(MRoot)))
  {
  }

  /** The value a sub-state store of the root presents: its own part of
      `State(root value, child value)`. */
  function ChildState(key: Key, init: Value): SRef {
    Composed(Mut(MChild(MRoot, key, init)), SecondLens())
  }

  // ---------------------------------------------------------------------
  // `addChild`

  /** A missing child reads as a fresh leaf; a present one brings its own children. */
  lemma RChildGetCases(n: RNode, key: Key, init: Value)
    ensures Linked.Lookup(n.children, key).None? ==> RChildGet(n, key, init) == RNode(PairV(n.value, init), [])
    ensures Linked.Lookup(n.children, key).Some? ==>
      var child := Linked.Lookup(n.children, key).value;
      RChildGet(n, key, init) == RNode(PairV(n.value, child.value), child.children)
  {
  }

  /** The parent keeps every other child. */
  lemma RChildPutFields(n: RNode, key: Key, m: RNode)
    ensures RChildPut(n, key, m).value == First(m.value)
    ensures Linked.Lookup(RChildPut(n, key, m).children, key) == Some(RNode(Second(m.value), m.children))
    ensures forall k :: k != key ==> Linked.Lookup(RChildPut(n, key, m).children, k) == Linked.Lookup(n.children, k)
  {
  }

  /** After writing `State(p, c)` through `addChild`, reading gives it back. */
  lemma RChildPutThenGet(n: RNode, key: Key, m: RNode, init: Value)
    requires m.value.PairV?
    ensures RChildGet(RChildPut(n, key, m), key, init) == m
  {
    RChildPutFields(n, key, m);
    SplitPair(m.value);
  }

  /** Writing back what was read leaves the node as it was when the child exists ... */
  lemma RChildGetThenPut(n: RNode, key: Key, init: Value)
    requires Linked.Lookup(n.children, key).Some?
    ensures RChildPut(n, key, RChildGet(n, key, init)) == n
  {
    var child := Linked.Lookup(n.children, key).value;
    assert RChildGet(n, key, init) == RNode(PairV(n.value, child.value), child.children);
    Linked.PutLookup(n.children, key);
  }

  /** ... and otherwise stores the initial child. */
  lemma RChildGetThenPutAbsent(n: RNode, key: Key, init: Value)
    requires Linked.Lookup(n.children, key).None?
    ensures RChildPut(n, key, RChildGet(n, key, init)) != n
    ensures Linked.Lookup(RChildPut(n, key, RChildGet(n, key, init)).children, key) == Some(RLeaf(init))
  {
    RChildPutFields(n, key, RChildGet(n, key, init));
  }

  // ---------------------------------------------------------------------
  // Reading back what was written

  /** Every step of `r` gives back the node written through it: each user
      lens reads back what it writes on the values it sees, and every
      sub-state receives a pair. */
  ghost predicate Fits(r: MRef, root: RNode, n: RNode) {
    match r
    case MRoot => true
    case MChild(p, key, _) => n.value.PairV? && Fits(p, root, RChildPut(MGet(p, root), key, n))
    case MMapped(p, lens) =>
      lens.get(lens.put(MGet(p, root).value, n.value)) == n.value && Fits(p, root, RMapPut(lens, MGet(p, root), n))
  }

  /** A mutable reference reads back the node written through it, whenever the write fits. */
  lemma {:induction false} MPutThenGet(r: MRef, root: RNode, n: RNode)
    requires Fits(r, root, n)
    ensures MGet(r, MPut(r, root, n)) == n
  {
    match r
    case MRoot =>
    case MChild(p, key, init) =>
      var m := RChildPut(MGet(p, root), key, n);
      MPutThenGet(p, root, m);
      RChildPutThenGet(MGet(p, root), key, n, init);
    case MMapped(p, lens) =>
      MPutThenGet(p, root, RMapPut(lens, MGet(p, root), n));
  }

  /** Writing a value through a mutable reference leaves the referenced
      node with that value and its old children, whenever the write fits. */
  lemma ValuePutKeepsChildren(m: MRef, root: RNode, v: Value)
    requires Fits(m, root, MGet(m, root).(value := v))
    ensures MGet(m, MValuePut(m, root, v)) == RNode(v, MGet(m, root).children)
  {
    MPutThenGet(m, root, MGet(m, root).(value := v));
  }

  /** In particular the root's direct sub-state stores read back their values. */
  lemma ChildStateReadsBack(key: Key, init: Value, root: RNode, v: Value)
    ensures SGet(ChildState(key, init), SPut(ChildState(key, init), root, v)) == v
  {
    var m := MChild(MRoot, key, init);
    var w := SecondLens().put(SGet(Mut(m), root), v);
    var n := MGet(m, root).(value := w);
    MPutThenGet(m, root, n);
  }

  // ---------------------------------------------------------------------
  // `plus(lens)` on mutable and on plain references agree

  /** Mapping the node (`MutableStateRef.plus`) or mapping the value
      (`StateRef.plus`) gives the same value lens. */
  lemma MappedIsComposed(m: MRef, lens: Lens<Value, Value>, root: RNode, v: Value)
    ensures SGet(Mut(MMapped(m, lens)), root) == SGet(Composed(Mut(m), lens), root)
    ensures SPut(Mut(MMapped(m, lens)), root, v) == SPut(Composed(Mut(m), lens), root, v)
  {
    var g := MGet(m, root);
    assert RMapPut(lens, g, RMapGet(lens, g).(value := v)) == g.(value := lens.put(g.value, v));
  }

  // ---------------------------------------------------------------------
  // `plus(other)`: pairing two references

  /** Writing one sub-state of the root leaves any sibling's value alone. */
  lemma SiblingUntouched(k1: Key, i1: Value, k2: Key, i2: Value, root: RNode, v: Value)
    requires k1 != k2
    ensures SGet(ChildState(k2, i2), SPut(ChildState(k1, i1), root, v)) == SGet(ChildState(k2, i2), root)
  {
    var m := MChild(MRoot, k1, i1);
    var w := SecondLens().put(SGet(Mut(m), root), v);
    var n := MGet(m, root).(value := w);
    var after := RChildPut(root, k1, n);
    assert SPut(ChildState(k1, i1), root, v) == SPut(Mut(m), root, w);
    assert MValuePut(m, root, w) == MPut(m, root, n);
    assert MPut(m, root, n) == after;
    RChildPutFields(root, k1, n);
    assert Linked.Lookup(after.children, k2) == Linked.Lookup(root.children, k2);
    assert MGet(MChild(MRoot, k2, i2), after).value.second == MGet(MChild(MRoot, k2, i2), root).value.second;
  }

  /** The pair of two sibling sub-states reads back the pair written to it. */
  lemma SiblingPairReadsBack(k1: Key, i1: Value, k2: Key, i2: Value, root: RNode, x: Value, y: Value)
    requires k1 != k2
    ensures
      var zip := Paired(ChildState(k1, i1), ChildState(k2, i2));
      SGet(zip, SPut(zip, root, PairV(x, y))) == PairV(x, y)
  {
    var a := ChildState(k1, i1);
    var b := ChildState(k2, i2);
    var r1 := SPut(a, root, x);
    ChildStateReadsBack(k1, i1, root, x);
    ChildStateReadsBack(k2, i2, r1, y);
    SiblingUntouched(k2, i2, k1, i1, r1, y);
  }

  /** A store paired with itself does not read back: the right-hand write
      overwrites the left-hand one. */
  lemma SelfPairLosesLeft(root: RNode, x: Value, y: Value)
    ensures
      var zip := Paired(Mut(MRoot), Mut(MRoot));
      SGet(zip, SPut(zip, root, PairV(x, y))) == PairV(y, y)
  {
  }
}

=== FILE: redux_store.dfy ===
/** The `abcredux` store (abcredux-core Store.kt).

    One `RootStateStore` owns the tree of `ReduxNodes` and a map from
    subscriber to its `Subscription`.  Every assignment of a tree different
    from the current one calls each subscriber of the map, in insertion
    order, with the new tree; a subscriber is a `DefaultSubscriber`, the
    user's block with its store's value lens, so it receives its own
    store's value.  Subscribers are equal when block and store are (the
    lens is created with the store), so the map is keyed by (block, store).

    Handles are numbered in the order `subscribe` made them; each is a
    `DefaultSubscription` whose block removes its subscriber from the map.

    The `Lock` is held by the single caller of this sequential model, so
    it never refuses.
 */
module ReduxStore {
  import opened Values
  import opened Lenses
  import opened Outcomes
  import opened Callbacks
  import opened ReduxNodes
  import opened Middlewares
  import Linked
  import Subscriptions

  /** A map entry: the number of the subscriber's handle and the reference
      its lens reads through. */
  datatype Entry = Entry(handle: nat, reader: SRef)

  type Registry = seq<(Subscriber, Entry)>

  /** A handle made by `subscribe`: whom it removes, and whether it is spent. */
  datatype Handle = Handle(owner: Subscriber, sub: Subscriptions.Subscription)

  datatype Root = Root(state: RNode, isDispatching: bool, subscriptions: Registry, handles: seq<Handle>)

  /** What a store operation did: its outcome, the store afterwards, the
      subscriber calls it made, in order, and the store as those calls find
      it (what a dispatch made from inside a callback runs against). */
  datatype Effect = Effect(outcome: Outcome, store: Root, calls: seq<Call>, during: Root)

  /** What `subscribe` did: the store afterwards, the handle it returned
      and the calls it made. */
  datatype Subscribed = Subscribed(store: Root, handle: nat, calls: seq<Call>)

  /** `StateStore(initialState)`: one node, no subscriber, no handle. */
  function Create(initial: Value): (s: Root)
    ensures s.state == RLeaf(initial) && s.state.children == []
    ensures !s.isDispatching && s.subscriptions == [] && s.handles == []
  {
    Root(RLeaf(initial), false, [], [])
  }

  /** The map holds each subscriber once; a subscriber's handle is live and
      belongs to it; and every live handle is the handle of its owner. */
  ghost predicate Valid(s: Root) {
    && Linked.DistinctKeys(s.subscriptions)
    && (forall k :: Linked.Lookup(s.subscriptions, k).Some? ==>
          var h := Linked.Lookup(s.subscriptions, k).value.handle;
          h < |s.handles| && s.handles[h].owner == k && !s.handles[h].sub.isUnsubscribed)
    && (forall h :: 0 <= h < |s.handles| && !s.handles[h].sub.isUnsubscribed ==>
          Linked.Lookup(s.subscriptions, s.handles[h].owner).Some? &&
          Linked.Lookup(s.subscriptions, s.handles[h].owner).value.handle == h)
  }

  lemma CreateIsValid(initial: Value)
    ensures Valid(Create(initial))
  {
  }

  /** A new store reads its initial value at the root, and a sub-state of
      it reads the pair of that value and the sub-state's initial value. */
  lemma CreateReadsInitial(initial: Value, key: Key, init: Value)
    ensures SGet(Mut(MRoot), Create(initial).state) == initial
    ensures SGet(Mut(MChild(MRoot, key, init)), Create(initial).state) == PairV(initial, init)
  {
  }

  // ---------------------------------------------------------------------
  // The observable `state`

  /** What a subscriber's reader sees in `state`. */
  function ReadIn(state: RNode): Entry -> Value {
    (e: Entry) => SGet(e.reader, state)
  }

  /** Assigning `state`: a different tree is stored and every subscriber
      of the map is called; an equal one is stored silently.

      The same commit as `ObservedStore.Assign`: abcredux-core repeats the
      `observable` delegate of abcstore-core's abcredux store.  It is defined
      again here because this `Root` also holds the handle registry and its
      subscriptions read through `Entry`, not `MRef`, so neither store's
      definition applies to the other's type. */
  function Assign(s: Root, next: RNode): (e: Effect)
    ensures e.outcome == Pass && e.store == s.(state := next) && e.during == e.store
    ensures next == s.state ==> e.calls == []
    ensures next != s.state ==> |e.calls| == |s.subscriptions|
  {
    if next == s.state then Effect(Pass, s, [], s)
    else Effect(Pass, s.(state := next), Broadcast(s.subscriptions, ReadIn(next)), s.(state := next))
  }

  // ---------------------------------------------------------------------
  // `dispatch`

  /** `RootStateStore.dispatch(action)`: refused while a dispatch is in
      flight.  The flag is reset in a `finally` before the new tree is
      assigned, so a failing action assigns nothing.  Repeated from
      `ObservedStore.RootDispatch` for the same reason as `Assign`. */
  function RootDispatch(s: Root, action: RNode -> Result<RNode>): (e: Effect)
    ensures e.outcome == Pass <==> !s.isDispatching && action(s.state).Ok?
    ensures s.isDispatching ==> e.outcome == Fail(IllegalState)
    ensures !s.isDispatching && action(s.state).Err? ==> e.outcome == Fail(action(s.state).error)
    ensures e.outcome.Fail? ==> e.store == s && e.calls == []
    ensures e.outcome == Pass ==> e.store == s.(state := action(s.state).value)
    ensures e.store.state == s.state ==> e.calls == []
    ensures e.store.state != s.state ==> e.calls == Broadcast(s.subscriptions, ReadIn(e.store.state))
    ensures e.calls != [] ==> e.during == e.store && !e.during.isDispatching
  {
    if s.isDispatching then Effect(Fail(IllegalState), s, [], s)
    else match action(s.state)
      case Err(err) => Effect(Fail(err), s, [], s)
      case Ok(next) => Assign(s, next)
  }

  /** The root-level action of `DefaultStateStore.dispatch(action)`: read
      the store's value, mutate it, write it back through the same reference. */
  function Mutation(r: SRef, f: Value -> Result<Value>): RNode -> Result<RNode> {
    (n: RNode) => match f(SGet(r, n))
      case Ok(v) => Ok(SPut(r, n, v))
      case Err(err) => Err(err)
  }

  /** `store.dispatch(mutator)` on the store of reference `r`; a mutator
      that throws is an `Err`. */
  function Dispatch(s: Root, r: SRef, f: Value -> Result<Value>): (e: Effect)
    ensures e.outcome == Pass <==> !s.isDispatching && f(SGet(r, s.state)).Ok?
    ensures s.isDispatching ==> e.outcome == Fail(IllegalState)
    ensures e.outcome.Fail? ==> e.store == s && e.calls == []
    ensures e.outcome == Pass ==> e.store.state == SPut(r, s.state, f(SGet(r, s.state)).value)
    ensures e.store.isDispatching == s.isDispatching
    ensures e.store.subscriptions == s.subscriptions && e.store.handles == s.handles
    ensures e.store.state == s.state ==> e.calls == []
    ensures e.store.state != s.state ==> e.calls == Broadcast(s.subscriptions, ReadIn(e.store.state))
    ensures e.calls != [] ==> e.during == e.store && !e.during.isDispatching
  {
    RootDispatch(s, Mutation(r, f))
  }

  /** After a dispatch that changed the tree, every subscriber is called
      with its store's new value. */
  lemma DispatchNotifiesSubscribers(s: Root, r: SRef, f: Value -> Result<Value>, k: Subscriber)
    requires Dispatch(s, r, f).store.state != s.state
    requires Linked.Lookup(s.subscriptions, k).Some?
    ensures Call(k.0, SGet(Linked.Lookup(s.subscriptions, k).value.reader, Dispatch(s, r, f).store.state))
      in Dispatch(s, r, f).calls
  {
    BroadcastReachesEveryone(s.subscriptions, ReadIn(Dispatch(s, r, f).store.state), k);
  }

  /** `store.dispatch(actionCreator)`: the creator sees the store's value;
      when it returns no mutator nothing happens, not even the check of
      `isDispatching`; otherwise its mutator is dispatched. */
  function DispatchCreator(s: Root, r: SRef, creator: Value -> Option<Value -> Result<Value>>): (e: Effect)
    ensures creator(SGet(r, s.state)).None? ==> e == Effect(Pass, s, [], s)
    ensures creator(SGet(r, s.state)).Some? ==> e == Dispatch(s, r, creator(SGet(r, s.state)).value)
    ensures e.outcome.Fail? <==>
      (creator(SGet(r, s.state)).Some? &&
       (s.isDispatching || creator(SGet(r, s.state)).value(SGet(r, s.state)).Err?))
    ensures e.outcome.Fail? ==> e.store == s && e.calls == []
    ensures e.store.isDispatching == s.isDispatching
    ensures e.store.subscriptions == s.subscriptions && e.store.handles == s.handles
    ensures e.store.state != s.state ==> e.calls == Broadcast(s.subscriptions, ReadIn(e.store.state))
    ensures e.store.state == s.state ==> e.calls == []
  {
    match creator(SGet(r, s.state))
    case None => Effect(Pass, s, [], s)
    case Some(f) => Dispatch(s, r, f)
  }

  /** Dispatching through an action creator keeps the store valid, and
      after a change every subscriber is called with its store's new value. */
  lemma DispatchCreatorNotifiesSubscribers(s: Root, r: SRef, creator: Value -> Option<Value -> Result<Value>>, k: Subscriber)
    requires Valid(s)
    requires Linked.Lookup(s.subscriptions, k).Some?
    requires DispatchCreator(s, r, creator).store.state != s.state
    ensures Valid(DispatchCreator(s, r, creator).store)
    ensures Call(k.0, SGet(Linked.Lookup(s.subscriptions, k).value.reader, DispatchCreator(s, r, creator).store.state))
      in DispatchCreator(s, r, creator).calls
  {
    BroadcastReachesEveryone(s.subscriptions, ReadIn(DispatchCreator(s, r, creator).store.state), k);
  }

  /** As in the other `abcredux` store, subscribers run after the flag is
      reset, against the new tree: a dispatch made from a callback is
      accepted whenever its mutator succeeds. */
  lemma CallbackMayDispatch(s: Root, r: SRef, f: Value -> Result<Value>, r2: SRef, f2: Value -> Result<Value>)
    requires Dispatch(s, r, f).calls != []
    ensures !Dispatch(s, r, f).during.isDispatching
    ensures Dispatch(s, r, f).during == Dispatch(s, r, f).store
    ensures var d := Dispatch(s, r, f).during;
      Dispatch(d, r2, f2).outcome == Pass <==> f2(SGet(r2, d.state)).Ok?
  {
  }

  /** A creator that returns nothing leaves the store alone and calls nobody,
      even while a dispatch is in flight. */
  lemma NullCreatorChangesNothing(s: Root, r: SRef, creator: Value -> Option<Value -> Result<Value>>)
    requires creator(SGet(r, s.state)).None?
    ensures DispatchCreator(s, r, creator).store == s
    ensures DispatchCreator(s, r, creator).calls == []
    ensures DispatchCreator(s, r, creator).outcome == Pass
  {
  }

  // ---------------------------------------------------------------------
  // `subscribe` and the returned `Subscription`

  /** `store.subscribe(block)` on store `id` with reference `r`: a
      subscriber already in the map gets its handle back and is not
      called; a new one gets a fresh handle and is called once with its
      current value. */
  function Subscribe(s: Root, id: StoreId, r: SRef, b: SubId): (e: Subscribed)
    ensures Linked.Lookup(s.subscriptions, (b, id)).Some? ==>
      e == Subscribed(s, Linked.Lookup(s.subscriptions, (b, id)).value.handle, [])
    ensures Linked.Lookup(s.subscriptions, (b, id)).None? ==>
      && e.calls == [Call(b, SGet(r, s.state))]
      && e.handle == |s.handles|
      && e.store.handles == s.handles + [Handle((b, id), Subscriptions.Fresh())]
      && Linked.Lookup(e.store.subscriptions, (b, id)) == Some(Entry(e.handle, r))
    ensures e.store.state == s.state && e.store.isDispatching == s.isDispatching
    ensures forall k :: k != (b, id) ==> Linked.Lookup(e.store.subscriptions, k) == Linked.Lookup(s.subscriptions, k)
  {
    match Linked.Lookup(s.subscriptions, (b, id))
    case Some(entry) => Subscribed(s, entry.handle, [])
    case None =>
      var h := |s.handles|;
      var t := s.(subscriptions := Linked.Put(s.subscriptions, (b, id), Entry(h, r)),
                  handles := s.handles + [Handle((b, id), Subscriptions.Fresh())]);
      Subscribed(t, h, [Call(b, SGet(r, s.state))])
  }

  lemma SubscribeKeepsValid(s: Root, id: StoreId, r: SRef, b: SubId)
    requires Valid(s)
    ensures Valid(Subscribe(s, id, r, b).store)
  {
    var e := Subscribe(s, id, r, b);
    if Linked.Lookup(s.subscriptions, (b, id)).None? {
      Linked.PutKeepsDistinctKeys(s.subscriptions, (b, id), Entry(|s.handles|, r));
      var t := e.store;
      forall h | 0 <= h < |t.handles| && !t.handles[h].sub.isUnsubscribed
        ensures Linked.Lookup(t.subscriptions, t.handles[h].owner).Some?
        ensures Linked.Lookup(t.subscriptions, t.handles[h].owner).value.handle == h
      {
        if h < |s.handles| {
          assert t.handles[h] == s.handles[h];
        }
      }
    }
  }

  /** Subscribing again returns the same handle, changes nothing and calls nobody. */
  lemma SubscribeAgainReturnsSameHandle(s: Root, id: StoreId, r: SRef, r2: SRef, b: SubId)
    ensures var first := Subscribe(s, id, r, b);
      Subscribe(first.store, id, r2, b) == Subscribed(first.store, first.handle, [])
  {
  }

  /** The block of the handle of `owner`: `subscriptions -= block`. */
  function Removal(owner: Subscriber): Registry -> (Registry, Outcome) {
    (es: Registry) => (Linked.Delete(es, owner), Pass)
  }

  /** `subscription.unsubscribe()` on handle `h`: a live handle removes its
      subscriber and is spent; a spent one does nothing. */
  function Unsubscribe(s: Root, h: nat): (t: Root)
    requires h < |s.handles|
    ensures t.state == s.state && t.isDispatching == s.isDispatching
    ensures |t.handles| == |s.handles| && t.handles[h].sub.isUnsubscribed
    ensures forall g :: 0 <= g < |s.handles| && g != h ==> t.handles[g] == s.handles[g]
    ensures t.handles[h].owner == s.handles[h].owner
    ensures s.handles[h].sub.isUnsubscribed ==> t == s
    ensures !s.handles[h].sub.isUnsubscribed ==> t.subscriptions == Linked.Delete(s.subscriptions, s.handles[h].owner)
  {
    var handle := s.handles[h];
    var step := Subscriptions.Unsubscribe(handle.sub, s.subscriptions, Removal(handle.owner));
    assert handle.sub.isUnsubscribed ==> s.handles[h := Handle(handle.owner, step.sub)] == s.handles by {
      if handle.sub.isUnsubscribed {
        assert Handle(handle.owner, step.sub) == handle;
      }
    }
    s.(subscriptions := step.env, handles := s.handles[h := Handle(handle.owner, step.sub)])
  }

  lemma UnsubscribeKeepsValid(s: Root, h: nat)
    requires Valid(s) && h < |s.handles|
    ensures Valid(Unsubscribe(s, h))
  {
    var t := Unsubscribe(s, h);
    var owner := s.handles[h].owner;
    if !s.handles[h].sub.isUnsubscribed {
      Linked.DeleteKeepsDistinctKeys(s.subscriptions, owner);
      forall k | Linked.Lookup(t.subscriptions, k).Some?
        ensures Linked.Lookup(t.subscriptions, k).value.handle < |t.handles|
        ensures t.handles[Linked.Lookup(t.subscriptions, k).value.handle].owner == k
        ensures !t.handles[Linked.Lookup(t.subscriptions, k).value.handle].sub.isUnsubscribed
      {
        assert k != owner;
        var g := Linked.Lookup(s.subscriptions, k).value.handle;
        assert g != h by {
          assert s.handles[g].owner == k;
        }
      }
      forall g | 0 <= g < |t.handles| && !t.handles[g].sub.isUnsubscribed
        ensures Linked.Lookup(t.subscriptions, t.handles[g].owner).Some?
        ensures Linked.Lookup(t.subscriptions, t.handles[g].owner).value.handle == g
      {
        assert g != h;
        assert t.handles[g] == s.handles[g];
        assert s.handles[g].owner != owner;
      }
    }
  }

  /** A live handle takes its subscriber out of the map, and nobody else. */
  lemma UnsubscribeRemoves(s: Root, h: nat, k: Subscriber)
    requires h < |s.handles| && !s.handles[h].sub.isUnsubscribed
    ensures Linked.Lookup(Unsubscribe(s, h).subscriptions, s.handles[h].owner).None?
    ensures k != s.handles[h].owner ==> Linked.Lookup(Unsubscribe(s, h).subscriptions, k) == Linked.Lookup(s.subscriptions, k)
  {
  }

  /** A second `unsubscribe()` on the same handle does nothing ... */
  lemma UnsubscribeAgainDoesNothing(s: Root, h: nat)
    requires h < |s.handles|
    ensures Unsubscribe(Unsubscribe(s, h), h) == Unsubscribe(s, h)
  {
  }

  /** ... even when the block has subscribed again in between: the new
      subscription, with its new handle, stays. */
  lemma SpentHandleSparesResubscription(s: Root, id: StoreId, r: SRef, b: SubId)
    requires Valid(s)
    ensures var first := Subscribe(s, id, r, b);
      var gone := Unsubscribe(first.store, first.handle);
      var again := Subscribe(gone, id, r, b);
      && again.handle != first.handle
      && again.calls == [Call(b, SGet(r, s.state))]
      && Linked.Lookup(Unsubscribe(again.store, first.handle).subscriptions, (b, id)) == Some(Entry(again.handle, r))
  {
    var first := Subscribe(s, id, r, b);
    SubscribeKeepsValid(s, id, r, b);
    var gone := Unsubscribe(first.store, first.handle);
    UnsubscribeKeepsValid(first.store, first.handle);
    assert Linked.Lookup(gone.subscriptions, (b, id)).None?;
  }

  /** Once its live handle is used, a block that has no other store
      subscription is never called by a later dispatch.  (A spent handle
      guarantees nothing: the block may have subscribed again since.) */
  lemma UnsubscribedIsNotCalled(s: Root, h: nat, r: SRef, f: Value -> Result<Value>, i: nat)
    requires Valid(s) && h < |s.handles| && !s.handles[h].sub.isUnsubscribed
    requires forall id :: id != s.handles[h].owner.1 ==> Linked.Lookup(s.subscriptions, (s.handles[h].owner.0, id)).None?
    requires i < |Dispatch(Unsubscribe(s, h), r, f).calls|
    ensures Dispatch(Unsubscribe(s, h), r, f).calls[i].sub != s.handles[h].owner.0
  {
    var t := Unsubscribe(s, h);
    UnsubscribeKeepsValid(s, h);
    var e := Dispatch(t, r, f);
    var id := BroadcastOnlySubscribers(t.subscriptions, ReadIn(e.store.state), i);
    UnsubscribeRemoves(s, h, (e.calls[i].sub, id));
  }

  // ---------------------------------------------------------------------
  // `ReducerStore`

  /** A reducer store over the store of reference `base`; a reducer that
      throws answers an `Err`. */
  datatype ReducerStore = ReducerStore(base: SRef, reducer: (Value, Value) -> Result<Value>, middleware: seq<Middleware>)

  /** `withReducer(reducer, middleware)` on store `id`: the new store's
      middleware dispatcher subscribes its `onStateChanged`, block
      `observer`, to the store, which sets the dispatcher's `state`. */
  function WithReducer(s: Root, id: StoreId, base: SRef, reducer: (Value, Value) -> Result<Value>,
                       middleware: seq<Middleware>, observer: SubId): (e: (ReducerStore, Subscribed))
    ensures e.0.base == base && e.0.reducer == reducer && e.0.middleware == middleware
    ensures Linked.Lookup(s.subscriptions, (observer, id)).None? ==>
      e.1.calls == [Call(observer, SGet(base, s.state))]
    ensures Linked.Lookup(e.1.store.subscriptions, (observer, id)).Some?
  {
    (ReducerStore(base, reducer, middleware), Subscribe(s, id, base, observer))
  }

  /** The middleware dispatcher's `state` stays the store's value: its
      observer is called with the new value after every change. */
  lemma MiddlewareStateFollowsStore(s: Root, id: StoreId, observer: SubId, base: SRef, r: SRef, f: Value -> Result<Value>)
    requires Linked.Lookup(s.subscriptions, (observer, id)).Some?
    requires Linked.Lookup(s.subscriptions, (observer, id)).value.reader == base
    requires Dispatch(s, r, f).store.state != s.state
    ensures Call(observer, SGet(base, Dispatch(s, r, f).store.state)) in Dispatch(s, r, f).calls
  {
    DispatchNotifiesSubscribers(s, r, f, (observer, id));
  }

  /** `reducerStore.dispatch(action)`: the action goes through the
      middleware chain, with the store's value as the state; when the
      chain answers an action, the mutator `{ reducer(it, action) }` is
      dispatched, otherwise nothing happens.  A reducer that throws fails
      the dispatch and assigns nothing. */
  function ReducerDispatch(s: Root, rs: ReducerStore, a: Value): (e: Effect)
    ensures Chain(rs.middleware, SGet(rs.base, s.state), a).None? ==> e == Effect(Pass, s, [], s)
    ensures var b := Chain(rs.middleware, SGet(rs.base, s.state), a);
      b.Some? ==> (e.outcome ==
                   if s.isDispatching then Fail(IllegalState)
                   else if rs.reducer(SGet(rs.base, s.state), b.value).Err? then Fail(rs.reducer(SGet(rs.base, s.state), b.value).error)
                   else Pass)
    ensures var b := Chain(rs.middleware, SGet(rs.base, s.state), a);
      b.Some? && e.outcome == Pass ==>
        e.store.state == SPut(rs.base, s.state, rs.reducer(SGet(rs.base, s.state), b.value).value)
    ensures e.outcome.Fail? ==> e.store == s && e.calls == []
  {
    match Chain(rs.middleware, SGet(rs.base, s.state), a)
    case None => Effect(Pass, s, [], s)
    case Some(b) => Dispatch(s, rs.base, (v: Value) => rs.reducer(v, b))
  }

  /** Without middleware the reducer receives the action as dispatched. */
  lemma NoMiddlewareReducesAction(s: Root, base: SRef, reducer: (Value, Value) -> Result<Value>, a: Value)
    requires !s.isDispatching && reducer(SGet(base, s.state), a).Ok?
    ensures ReducerDispatch(s, ReducerStore(base, reducer, []), a).outcome == Pass
    ensures ReducerDispatch(s, ReducerStore(base, reducer, []), a).store.state ==
      SPut(base, s.state, reducer(SGet(base, s.state), a).value)
  {
  }

  /** `reducerStore.dispatch(actionCreator)`: the creator sees the store's
      value; an action it returns goes straight to the reducer, bypassing
      the middleware, and is reduced against the value the creator saw. */
  function ReducerCreatorDispatch(s: Root, rs: ReducerStore, creator: Value -> Option<Value>): (e: Effect)
    ensures creator(SGet(rs.base, s.state)).None? ==> e == Effect(Pass, s, [], s)
  {
    DispatchCreator(s, rs.base, (v: Value) =>
      match creator(v)
      case None => None
      case Some(a) => Some((_: Value) => rs.reducer(v, a)))
  }

  /** An action creator's action has the effect of dispatching that action
      to a reducer store without middleware. */
  lemma CreatorBypassesMiddleware(s: Root, rs: ReducerStore, creator: Value -> Option<Value>)
    requires creator(SGet(rs.base, s.state)).Some?
    ensures ReducerCreatorDispatch(s, rs, creator) ==
      ReducerDispatch(s, rs.(middleware := []), creator(SGet(rs.base, s.state)).value)
  {
  }

  // ---------------------------------------------------------------------
  // Store handles: `subState`, `map` and `zip`

  /** A `DefaultMutableStateStore` or `DefaultImmutableStateStore` of root
      store `root`. */
  datatype StoreView =
    | MutableStore(root: nat, node: MRef)
    | ImmutableStore(root: nat, state: SRef)

  /** The argument of `zip`: a store of this library, or of another
      implementation of the interface. */
  datatype Zippable = Own(store: StoreView) | Foreign

  /** The reference a store reads and writes through. */
  function Reader(v: StoreView): SRef {
    match v
    case MutableStore(_, m) => Mut(m)
    case ImmutableStore(_, r) => r
  }

  /** `subState(key, init)`: a mutable store of the same root, one child down. */
  function SubState(v: StoreView, key: Key, init: Value): (r: StoreView)
    requires v.MutableStore?
    ensures r.MutableStore? && r.root == v.root
  {
    MutableStore(v.root, MChild(v.node, key, init))
  }

  /** A sub-state store sees `State(parent value, child value)`. */
  lemma SubStateSeesParent(v: StoreView, key: Key, init: Value, n: RNode)
    requires v.MutableStore?
    ensures SGet(Reader(SubState(v, key, init)), n).PairV?
    ensures SGet(Reader(SubState(v, key, init)), n).first == SGet(Reader(v), n)
  {
  }

  /** `map(lens)`: a store of the same kind and root, seen through `lens`. */
  function Map(v: StoreView, lens: Lens<Value, Value>): (r: StoreView)
    ensures r.MutableStore? == v.MutableStore? && r.root == v.root
  {
    match v
    case MutableStore(root, m) => MutableStore(root, MMapped(m, lens))
    case ImmutableStore(root, s) => ImmutableStore(root, Composed(s, lens))
  }

  /** A mapped store, mutable or not, reads and writes through `lens`. */
  lemma MapIsThroughLens(v: StoreView, lens: Lens<Value, Value>, n: RNode, x: Value)
    ensures SGet(Reader(Map(v, lens)), n) == lens.get(SGet(Reader(v), n))
    ensures SPut(Reader(Map(v, lens)), n, x) == SPut(Reader(v), n, lens.put(SGet(Reader(v), n), x))
  {
    if v.MutableStore? {
      MappedIsComposed(v.node, lens, n, x);
    }
  }

  /** `zip(other)`: a store of another implementation or of another root
      store is refused with `IllegalArgumentException`; otherwise the
      result pairs the two references. */
  function Zip(v: StoreView, other: Zippable): (r: Result<StoreView>)
    ensures r.Ok? <==> other.Own? && other.store.root == v.root
    ensures r.Err? ==> r.error == IllegalArgument
    ensures r.Ok? ==> r.value.ImmutableStore? && r.value.root == v.root
  {
    match other
    case Foreign => Err(IllegalArgument)
    case Own(o) =>
      if o.root != v.root then Err(IllegalArgument)
      else Ok(ImmutableStore(v.root, Paired(Reader(v), Reader(o))))
  }

  /** The zipped store reads the pair of both values and writes the first
      component through this store, then the second through the other. */
  lemma ZipPairsValues(v: StoreView, o: StoreView, n: RNode, x: Value, y: Value)
    requires o.root == v.root
    ensures Zip(v, Own(o)).Ok?
    ensures SGet(Reader(Zip(v, Own(o)).value), n) == PairV(SGet(Reader(v), n), SGet(Reader(o), n))
    ensures SPut(Reader(Zip(v, Own(o)).value), n, PairV(x, y)) == SPut(Reader(o), SPut(Reader(v), n, x), y)
  {
  }
}

=== FILE: scopes.dfy ===
/** `withState` blocks and `StateScope.map`.

    Inside `withState { ... }` user code reads and assigns `value` on a
    mutable scope; only the value the scope holds when the block returns is
    committed to the store.  The model describes a block by the assignments
    it makes, in order: each step maps the scope's current value to the
    value it assigns (a plain `value = x` is a constant step).

    `StateScope.map(lens)` is the scope a narrowed store hands to its block:
    reading gives `lens.get(parent.value)`, assigning `v` sets
    `parent.value = lens.put(parent.value, v)`.
 */
module Scopes {
  import opened Lenses

  /** The assignments of a `withState` block, in order. */
  type Block<!T> = seq<T -> T>

  /** The scope's value when the block returns. */
  function Run<T>(b: Block<T>, v: T): T
    decreases |b|
  {
    if b == [] then v else Run(b[1..], b[0](v))
  }

  /** `value = x`. */
  function Assign<T>(x: T): T -> T {
    (_: T) => x
  }

  /** One assignment on the mapped scope, seen on the parent scope. */
  function MapStep<P, S>(l: Lens<P, S>, f: S -> S): P -> P {
    (p: P) => l.put(p, f(l.get(p)))
  }

  /** The block run on `map(lens)`, as a block on the parent scope. */
  function MapBlock<P, S>(l: Lens<P, S>, b: Block<S>): (r: Block<P>)
    ensures |r| == |b|
    decreases |b|
  {
    if b == [] then [] else [MapStep(l, b[0])] + MapBlock(l, b[1..])
  }

  /** Only the last assignment counts: a block that ends with `value = x` commits `x`. */
  lemma {:induction false} RunEndsWithAssign<T>(b: Block<T>, x: T, v: T)
    ensures Run(b + [Assign(x)], v) == x
    decreases |b|
  {
    if b == [] {
      assert [Assign(x)][1..] == [];
    } else {
      assert (b + [Assign(x)])[1..] == b[1..] + [Assign(x)];
      RunEndsWithAssign(b[1..], x, b[0](v));
    }
  }

  /** Running a concatenation runs each part in turn. */
  lemma {:induction false} RunAppend<T>(b1: Block<T>, b2: Block<T>, v: T)
    ensures Run(b1 + b2, v) == Run(b2, Run(b1, v))
    decreases |b1|
  {
    if b1 == [] {
      assert b1 + b2 == b2;
    } else {
      assert (b1 + b2)[1..] == b1[1..] + b2;
      RunAppend(b1[1..], b2, b1[0](v));
    }
  }

  /** The first step through the mapped scope. */
  lemma MapBlockHead<P, S>(l: Lens<P, S>, b: Block<S>, p: P)
    requires b != []
    ensures MapBlock(l, b)[0](p) == l.put(p, b[0](l.get(p)))
    ensures MapBlock(l, b)[1..] == MapBlock(l, b[1..])
  {
  }

  /** What the narrowed block ends with, read through the lens, is what the
      same block ends with on the narrowed value, for any lens that reads
      back what it writes. */
  lemma {:induction false} MappedRunReads<P(!new), S(!new)>(l: Lens<P, S>, b: Block<S>, p: P)
    requires GetPut(l)
    ensures l.get(Run(MapBlock(l, b), p)) == Run(b, l.get(p))
    decreases |b|
  {
    if b != [] {
      MapBlockHead(l, b, p);
      var p1 := l.put(p, b[0](l.get(p)));
      assert l.get(p1) == b[0](l.get(p));
      MappedRunReads(l, b[1..], p1);
    }
  }

  /** For a lawful lens a non-empty narrowed block is one write of its
      final value: the parent ends as `lens.put(parent, final)`. */
  lemma {:induction false} MappedRunWrites<P(!new), S(!new)>(l: Lens<P, S>, b: Block<S>, p: P)
    requires GetPut(l) && PutPut(l)
    requires b != []
    ensures Run(MapBlock(l, b), p) == l.put(p, Run(b, l.get(p)))
    decreases |b|
  {
    MapBlockHead(l, b, p);
    var p1 := l.put(p, b[0](l.get(p)));
    assert l.get(p1) == b[0](l.get(p));
    if |b| > 1 {
      MappedRunWrites(l, b[1..], p1);
      MapBlockHead(l, b[1..], p1);
      assert l.put(p1, Run(b[1..], l.get(p1))) == l.put(p, Run(b[1..], l.get(p1)));
    } else {
      assert b[1..] == [];
    }
  }

  /** A block that assigns nothing leaves the parent exactly as it was. */
  lemma MappedEmptyRun<P, S>(l: Lens<P, S>, p: P)
    ensures Run(MapBlock(l, []), p) == p
  {
  }
}

=== FILE: subscriptions.dfy ===
/** `DefaultSubscription` (abcredux-core Observable.kt): a handle whose
    `unsubscribe` runs its `onUnsubscribe` block at most once.

    The block acts on some environment `E` (for the stores: the store
    state) and may fail; the flag is set in a `finally`, so it is set even
    when the block fails.  The lock guarding the check is a `DefaultLock`
    owned by the single caller of this sequential model, so it never
    refuses (see `Locks.ReenterSucceeds`).
 */
module Subscriptions {
  import opened Outcomes

  datatype Subscription = Subscription(isUnsubscribed: bool)

  /** `Subscription(lock, onUnsubscribe)`: a fresh, live subscription. */
  function Fresh(): (s: Subscription)
    ensures !s.isUnsubscribed
  {
    Subscription(false)
  }

  /** What one `unsubscribe()` call did. */
  datatype Step<E> = Step(sub: Subscription, env: E, ran: bool, outcome: Outcome)

  /** `unsubscribe()`: run the block only when not yet unsubscribed, then
      mark the subscription, whatever the block's outcome. */
  function Unsubscribe<E>(s: Subscription, env: E, onUnsubscribe: E -> (E, Outcome)): (r: Step<E>)
    ensures r.sub.isUnsubscribed
    ensures r.ran <==> !s.isUnsubscribed
    ensures !r.ran ==> r.env == env && r.outcome == Pass
    ensures r.ran ==> (r.env, r.outcome) == onUnsubscribe(env)
  {
    if s.isUnsubscribed then Step(s, env, false, Pass)
    else
      var (env', outcome) := onUnsubscribe(env);
      Step(Subscription(true), env', true, outcome)
  }

  /** `n` successive `unsubscribe()` calls: the final handle and
      environment, and how many times the block ran. */
  function UnsubscribeTimes<E>(s: Subscription, env: E, onUnsubscribe: E -> (E, Outcome), n: nat): (Subscription, E, nat)
    decreases n
  {
    if n == 0 then (s, env, 0)
    else
      var step := Unsubscribe(s, env, onUnsubscribe);
      var (s', env', runs) := UnsubscribeTimes(step.sub, step.env, onUnsubscribe, n - 1);
      (s', env', runs + (if step.ran then 1 else 0))
  }

  /** A spent subscription ignores every further call. */
  lemma {:induction false} SpentIgnoresCalls<E>(s: Subscription, env: E, onUnsubscribe: E -> (E, Outcome), n: nat)
    requires s.isUnsubscribed
    ensures UnsubscribeTimes(s, env, onUnsubscribe, n) == (s, env, 0)
    decreases n
  {
    if n > 0 {
      SpentIgnoresCalls(s, env, onUnsubscribe, n - 1);
    }
  }

  /** However often `unsubscribe` is called, the block runs at most once:
      exactly once for a live subscription called at least once, and its
      effect is the single run's effect. */
  lemma RunsAtMostOnce<E>(s: Subscription, env: E, onUnsubscribe: E -> (E, Outcome), n: nat)
    ensures UnsubscribeTimes(s, env, onUnsubscribe, n).2 <= 1
    ensures UnsubscribeTimes(s, env, onUnsubscribe, n).2 == (if n > 0 && !s.isUnsubscribed then 1 else 0)
    ensures n > 0 && !s.isUnsubscribed ==>
      UnsubscribeTimes(s, env, onUnsubscribe, n).1 == onUnsubscribe(env).0
  {
    if n > 0 {
      var step := Unsubscribe(s, env, onUnsubscribe);
      SpentIgnoresCalls(step.sub, step.env, onUnsubscribe, n - 1);
    }
  }

  /** A fresh subscription runs its block on the first `unsubscribe()` and
      never again. */
  lemma FreshRunsOnce<E>(env: E, onUnsubscribe: E -> (E, Outcome), n: nat)
    requires n > 0
    ensures Unsubscribe(Fresh(), env, onUnsubscribe).ran
    ensures Unsubscribe(Fresh(), env, onUnsubscribe).env == onUnsubscribe(env).0
    ensures UnsubscribeTimes(Fresh(), env, onUnsubscribe, n) ==
      (Subscription(true), onUnsubscribe(env).0, 1)
  {
    var step := Unsubscribe(Fresh(), env, onUnsubscribe);
    SpentIgnoresCalls(step.sub, step.env, onUnsubscribe, n - 1);
  }

  /** A block that fails still spends the subscription: a retry does not run it. */
  lemma FailureStillSpends<E>(env: E, onUnsubscribe: E -> (E, Outcome))
    requires onUnsubscribe(env).1.Fail?
    ensures Unsubscribe(Fresh(), env, onUnsubscribe).outcome.Fail?
    ensures Unsubscribe(Fresh(), env, onUnsubscribe).sub.isUnsubscribed
    ensures !Unsubscribe(Unsubscribe(Fresh(), env, onUnsubscribe).sub, env, onUnsubscribe).ran
  {
  }
}

=== FILE: tree_nodes.dfy ===
/** The state tree of the `abcstore` store: every node holds a value, the
    subscribers registered on it, and its keyed children.

    A `NodeRef` addresses one node of the tree, seen through the lenses it
    was built from: `RootRef` is the root itself, `ChildRef` adds a keyed
    child (pairing the parent's value with the child's), `MappedRef` reshapes
    the value by a user lens without moving to another node.  These are the
    only three ways a node reference can be made, so the model spells them
    out as a datatype and gives each its get and put with `NodeGet` and `NodePut`.
 */
module TreeNodes {
  import opened Values
  import opened Lenses
  import opened Outcomes
  import opened Callbacks
  import Linked

  datatype Node = Node(value: Value, subscribers: seq<SubId>, children: seq<(Key, Node)>)

  /** `StateNode(value)`: no subscribers and no children yet. */
  function Leaf(v: Value): (n: Node)
    ensures n.value == v && n.subscribers == [] && n.children == []
  {
    Node(v, [], [])
  }

  /** The lens at the end of `value`: a node's value; the write keeps subscribers and children. */
  function ValueLens(): Lens<Node, Value> {
    Lens((n: Node) => n.value, (n: Node, v: Value) => n.(value := v))
  }

  /** The lens at the end of `subscribers`: a node's subscriber set. */
  function SubscribersLens(): Lens<Node, seq<SubId>> {
    Lens((n: Node) => n.subscribers, (n: Node, s: seq<SubId>) => n.(subscribers := s))
  }

  /** The read half of `addChild(key, init)`: the child under `key`, or a
      fresh node made from `init` when there is none, presented with the
      pair (parent value, child value). */
  function ChildGet(n: Node, key: Key, init: Value): Node {
    var child := Linked.Lookup(n.children, key).GetOr(Leaf(init));
    Node(PairV(n.value, child.value), child.subscribers, child.children)
  }

  /** A missing child reads as a fresh leaf without subscribers; a present
      one brings its own subscribers and children. */
  lemma ChildGetCases(n: Node, key: Key, init: Value)
    ensures Linked.Lookup(n.children, key).None? ==>
      ChildGet(n, key, init) == Node(PairV(n.value, init), [], [])
    ensures Linked.Lookup(n.children, key).Some? ==>
      var child := Linked.Lookup(n.children, key).value;
      ChildGet(n, key, init) == Node(PairV(n.value, child.value), child.subscribers, child.children)
  {
  }

  /** The write half of `addChild(key, init)`: the pair's first half becomes
      the parent's value and the second half, with the carried subscribers
      and children, becomes the child under `key`. */
  function ChildPut(n: Node, key: Key, m: Node): Node {
    n.(value := First(m.value), children := Linked.Put(n.children, key, Node(Second(m.value), m.subscribers, m.children)))
  }

  /** The parent keeps its subscribers and every other child. */
  lemma ChildPutFields(n: Node, key: Key, m: Node)
    ensures ChildPut(n, key, m).value == First(m.value)
    ensures ChildPut(n, key, m).subscribers == n.subscribers
    ensures Linked.Lookup(ChildPut(n, key, m).children, key) == Some(Node(Second(m.value), m.subscribers, m.children))
    ensures forall k :: k != key ==> Linked.Lookup(ChildPut(n, key, m).children, k) == Linked.Lookup(n.children, k)
  {
  }

  /** The lens `addChild` appends to the parent's node lens. */
  function ChildLens(key: Key, init: Value): Lens<Node, Node> {
    Lens((n: Node) => ChildGet(n, key, init), (n: Node, m: Node) => ChildPut(n, key, m))
  }

  /** The read half of the node step of `plus(lens)`: the same node with its value seen through `lens`. */
  function MapGet(lens: Lens<Value, Value>, n: Node): (r: Node)
    ensures r.value == lens.get(n.value) && r.subscribers == n.subscribers && r.children == n.children
  {
    Node(lens.get(n.value), n.subscribers, n.children)
  }

  /** The write half: the mapped value is written back through `lens`, and
      the subscribers and children come from the written node. */
  function MapPut(lens: Lens<Value, Value>, n: Node, m: Node): (r: Node)
    ensures r.value == lens.put(n.value, m.value) && r.subscribers == m.subscribers && r.children == m.children
    ensures GetPut(lens) ==> MapGet(lens, r) == m
    ensures PutGet(lens) && m == MapGet(lens, n) ==> r == n
  {
    Node(lens.put(n.value, m.value), m.subscribers, m.children)
  }

  /** The lens `plus(lens)` appends to the node lens. */
  function MapLens(lens: Lens<Value, Value>): Lens<Node, Node> {
    Lens((n: Node) => MapGet(lens, n), (n: Node, m: Node) => MapPut(lens, n, m))
  }

  /** How a `DefaultStateNodeRef` was built. */
  datatype NodeRef =
    | RootRef                                                  // StateNodeRef()
    | ChildRef(parent: NodeRef, key: Key, init: Value)         // parent.addChild(key, init)
    | MappedRef(parent: NodeRef, lens: Lens<Value, Value>)     // parent + lens

  /** `nodeLens` read: the node the reference stands for, seen from the root. */
  function NodeGet(r: NodeRef, root: Node): Node {
    match r
    case RootRef => root
    case ChildRef(p, key, init) => ChildGet(NodeGet(p, root), key, init)
    case MappedRef(p, lens) => MapGet(lens, NodeGet(p, root))
  }

  /** `nodeLens` write: the root after replacing the referenced node by `n`. */
  function NodePut(r: NodeRef, root: Node, n: Node): Node {
    match r
    case RootRef => n
    case ChildRef(p, key, init) => NodePut(p, root, ChildPut(NodeGet(p, root), key, n))
    case MappedRef(p, lens) => NodePut(p, root, MapPut(lens, NodeGet(p, root), n))
  }

  /** `nodeLens` as a lens value. */
  function NodeLens(r: NodeRef): Lens<Node, Node> {
    Lens((root: Node) => NodeGet(r, root), (root: Node, n: Node) => NodePut(r, root, n))
  }

  /** `value`: the value of the referenced node. */
  function ValueGet(r: NodeRef, root: Node): Value {
    NodeGet(r, root).value
  }

  /** `value` write: the root after replacing the referenced value by `v`. */
  function ValuePut(r: NodeRef, root: Node, v: Value): Node {
    NodePut(r, root, NodeGet(r, root).(value := v))
  }

  /** `subscribers`: the subscriber set of the referenced node. */
  function SubsGet(r: NodeRef, root: Node): seq<SubId> {
    NodeGet(r, root).subscribers
  }

  /** `subscribers` write: the root after replacing the referenced subscriber set by `s`. */
  function SubsPut(r: NodeRef, root: Node, s: seq<SubId>): Node {
    NodePut(r, root, NodeGet(r, root).(subscribers := s))
  }

  /** The child keys leading from the root to the referenced node. */
  function Path(r: NodeRef): seq<Key> {
    match r
    case RootRef => []
    case ChildRef(p, key, _) => Path(p) + [key]
    case MappedRef(p, _) => Path(p)
  }

  /** The subscribers of the node reached from `n` along `path`; none where
      the path leaves the tree. */
  function SubsAt(n: Node, path: seq<Key>): seq<SubId>
    decreases |path|
  {
    if path == [] then n.subscribers
    else match Linked.Lookup(n.children, path[0])
      case None => []
      case Some(c) => SubsAt(c, path[1..])
  }

  /** `StateNodeRef()` starts from the identity lens. */
  lemma RootRefIsIdentity()
    ensures Same(NodeLens(RootRef), Identity())
  {
    var l: Lens<Node, Node> := Identity();
    forall root: Node ensures NodeLens(RootRef).get(root) == l.get(root) {}
    forall root: Node, n: Node ensures NodeLens(RootRef).put(root, n) == l.put(root, n) {}
  }

  /** `addChild` reads through `nodeLens + ChildLens(key, init)`. */
  lemma ChildRefGetIsComposition(p: NodeRef, key: Key, init: Value, root: Node)
    ensures NodeLens(ChildRef(p, key, init)).get(root) == Compose(NodeLens(p), ChildLens(key, init)).get(root)
  {
    calc {
      NodeLens(ChildRef(p, key, init)).get(root);
      NodeGet(ChildRef(p, key, init), root);
      ChildGet(NodeGet(p, root), key, init);
      ChildLens(key, init).get(NodeLens(p).get(root));
      Compose(NodeLens(p), ChildLens(key, init)).get(root);
    }
  }

  /** ... and writes through it. */
  lemma ChildRefPutIsComposition(p: NodeRef, key: Key, init: Value, root: Node, n: Node)
    ensures NodeLens(ChildRef(p, key, init)).put(root, n) == Compose(NodeLens(p), ChildLens(key, init)).put(root, n)
  {
    calc {
      NodeLens(ChildRef(p, key, init)).put(root, n);
      NodePut(ChildRef(p, key, init), root, n);
      NodePut(p, root, ChildPut(NodeGet(p, root), key, n));
      NodeLens(p).put(root, ChildLens(key, init).put(NodeLens(p).get(root), n));
      Compose(NodeLens(p), ChildLens(key, init)).put(root, n);
    }
  }

  /** `addChild` is `nodeLens + ChildLens(key, init)`. */
  lemma ChildRefIsComposition(p: NodeRef, key: Key, init: Value)
    ensures Same(NodeLens(ChildRef(p, key, init)), Compose(NodeLens(p), ChildLens(key, init)))
  {
    forall root: Node {
      ChildRefGetIsComposition(p, key, init, root);
    }
    forall root: Node, n: Node {
      ChildRefPutIsComposition(p, key, init, root, n);
    }
  }

  /** `plus(lens)` reads through `nodeLens + MapLens(lens)`. */
  lemma MappedRefGetIsComposition(p: NodeRef, lens: Lens<Value, Value>, root: Node)
    ensures NodeLens(MappedRef(p, lens)).get(root) == Compose(NodeLens(p), MapLens(lens)).get(root)
  {
    calc {
      NodeLens(MappedRef(p, lens)).get(root);
      NodeGet(MappedRef(p, lens), root);
      MapGet(lens, NodeGet(p, root));
      MapLens(lens).get(NodeLens(p).get(root));
      Compose(NodeLens(p), MapLens(lens)).get(root);
    }
  }

  /** ... and writes through it. */
  lemma MappedRefPutIsComposition(p: NodeRef, lens: Lens<Value, Value>, root: Node, n: Node)
    ensures NodeLens(MappedRef(p, lens)).put(root, n) == Compose(NodeLens(p), MapLens(lens)).put(root, n)
  {
    calc {
      NodeLens(MappedRef(p, lens)).put(root, n);
      NodePut(MappedRef(p, lens), root, n);
      NodePut(p, root, MapPut(lens, NodeGet(p, root), n));
      NodeLens(p).put(root, MapLens(lens).put(NodeLens(p).get(root), n));
      Compose(NodeLens(p), MapLens(lens)).put(root, n);
    }
  }

  /** `plus(lens)` is `nodeLens + MapLens(lens)`. */
  lemma MappedRefIsComposition(p: NodeRef, lens: Lens<Value, Value>)
    ensures Same(NodeLens(MappedRef(p, lens)), Compose(NodeLens(p), MapLens(lens)))
  {
    forall root: Node {
      MappedRefGetIsComposition(p, lens, root);
    }
    forall root: Node, n: Node {
      MappedRefPutIsComposition(p, lens, root, n);
    }
  }

  /** The lens value of a reference applies `NodeGet` and `NodePut`. */
  lemma NodeLensAt(r: NodeRef, root: Node, n: Node)
    ensures NodeLens(r).get(root) == NodeGet(r, root)
    ensures NodeLens(r).put(root, n) == NodePut(r, root, n)
  {
  }

  /** `value` is `nodeLens` composed with the value field lens. */
  lemma ValueIsComposition(r: NodeRef, root: Node, v: Value)
    ensures ValueGet(r, root) == Compose(NodeLens(r), ValueLens()).get(root)
    ensures ValuePut(r, root, v) == Compose(NodeLens(r), ValueLens()).put(root, v)
  {
    var g := NodeGet(r, root);
    ComposeAt(NodeLens(r), ValueLens(), root, v);
    NodeLensAt(r, root, g.(value := v));
    assert ValueLens().put(g, v) == g.(value := v);
  }

  /** `subscribers` is `nodeLens` composed with the subscriber field lens. */
  lemma SubscribersIsComposition(r: NodeRef, root: Node, s: seq<SubId>)
    ensures SubsGet(r, root) == Compose(NodeLens(r), SubscribersLens()).get(root)
    ensures SubsPut(r, root, s) == Compose(NodeLens(r), SubscribersLens()).put(root, s)
  {
    var g := NodeGet(r, root);
    var c := Compose(NodeLens(r), SubscribersLens());
    ComposeAt(NodeLens(r), SubscribersLens(), root, s);
    NodeLensAt(r, root, g.(subscribers := s));
    assert c.get(root) == g.subscribers;
    assert c.put(root, s) == NodePut(r, root, g.(subscribers := s));
  }

  lemma ValueLensIsLawful()
    ensures GetPut(ValueLens()) && PutGet(ValueLens()) && PutPut(ValueLens())
  {
  }

  /** Each field lens writes its own field and keeps the other two. */
  lemma FieldLensesWriteOneField(n: Node, v: Value, s: seq<SubId>)
    ensures ValueLens().put(n, v) == Node(v, n.subscribers, n.children)
    ensures SubscribersLens().put(n, s) == Node(n.value, s, n.children)
  {
  }

  /** After writing `(p, c)` through `addChild`, reading gives `(p, c)` back,
      whatever the initializer. */
  lemma ChildPutThenGet(n: Node, key: Key, m: Node, init: Value)
    requires m.value.PairV?
    ensures ChildGet(ChildPut(n, key, m), key, init) == m
  {
    ChildPutFields(n, key, m);
    SplitPair(m.value);
  }

  /** Writing back what was read leaves the node as it was when the child exists. */
  lemma ChildGetThenPut(n: Node, key: Key, init: Value)
    requires Linked.Lookup(n.children, key).Some?
    ensures ChildPut(n, key, ChildGet(n, key, init)) == n
  {
    var child := Linked.Lookup(n.children, key).value;
    assert ChildGet(n, key, init) == Node(PairV(n.value, child.value), child.subscribers, child.children);
    Linked.PutLookup(n.children, key);
  }

  /** ... but not when it is absent: the write-back materialises the child. */
  lemma ChildGetThenPutAbsent(n: Node, key: Key, init: Value)
    requires Linked.Lookup(n.children, key).None?
    ensures ChildPut(n, key, ChildGet(n, key, init)) != n
    ensures Linked.Lookup(ChildPut(n, key, ChildGet(n, key, init)).children, key) == Some(Leaf(init))
  {
    ChildGetCases(n, key, init);
    ChildPutFields(n, key, ChildGet(n, key, init));
  }

  /** The node step of `plus(lens)` is as lawful as `lens` itself. */
  lemma MapLensKeepsLaws(lens: Lens<Value, Value>)
    ensures GetPut(lens) ==> GetPut(MapLens(lens))
    ensures PutGet(lens) ==> PutGet(MapLens(lens))
    ensures PutPut(lens) ==> PutPut(MapLens(lens))
  {
  }

  /** Mapping keeps the node: a reference and its mapped version reach the
      same subscribers and children, and share their path. */
  lemma MappedRefStaysOnNode(r: NodeRef, lens: Lens<Value, Value>, root: Node)
    ensures Path(MappedRef(r, lens)) == Path(r)
    ensures SubsGet(MappedRef(r, lens), root) == SubsGet(r, root)
    ensures NodeGet(MappedRef(r, lens), root).children == NodeGet(r, root).children
    ensures ValueGet(MappedRef(r, lens), root) == lens.get(ValueGet(r, root))
  {
  }

  /** The subscribers along a path depend only on the subscriber sets and
      children, never on the values. */
  lemma SubsAtIgnoresValue(v1: Value, v2: Value, s: seq<SubId>, cs: seq<(Key, Node)>, path: seq<Key>)
    ensures SubsAt(Node(v1, s, cs), path) == SubsAt(Node(v2, s, cs), path)
  {
  }

  lemma AppendAssoc(a: seq<Key>, b: seq<Key>, c: seq<Key>)
    ensures a + (b + c) == (a + b) + c
  {
  }

  lemma SubsAtChild(n: Node, key: Key, q: seq<Key>)
    ensures SubsAt(n, [key] + q) ==
      match Linked.Lookup(n.children, key)
      case None => []
      case Some(c) => SubsAt(c, q)
  {
    assert ([key] + q)[0] == key && ([key] + q)[1..] == q;
  }

  /** Below the node `ChildGet` presents lie the subscribers of the child
      under `key` (none, for a child still to be created). */
  lemma ChildGetSubsAt(g: Node, key: Key, init: Value, q: seq<Key>)
    ensures SubsAt(ChildGet(g, key, init), q) == SubsAt(g, [key] + q)
  {
    SubsAtChild(g, key, q);
    ChildGetCases(g, key, init);
    var c := ChildGet(g, key, init);
    match Linked.Lookup(g.children, key)
    case None =>
      if q != [] {
        assert Linked.Lookup(c.children, q[0]).None?;
      }
    case Some(child) =>
      SubsAtIgnoresValue(c.value, child.value, child.subscribers, child.children, q);
  }

  /** Reading through a reference sees the subscriber sets of the tree
      node at `Path(r)` and of everything below it.  (The value read is not
      the stored one: a child reference pairs it with its parent's.) */
  lemma {:induction false} GetAt(r: NodeRef, root: Node, q: seq<Key>)
    ensures SubsAt(NodeGet(r, root), q) == SubsAt(root, Path(r) + q)
  {
    match r
    case RootRef =>
      assert Path(r) + q == q;
    case ChildRef(p, key, init) =>
      GetAt(p, root, [key] + q);
      ChildGetSubsAt(NodeGet(p, root), key, init, q);
      AppendAssoc(Path(p), [key], q);
    case MappedRef(p, lens) =>
      GetAt(p, root, q);
      var g := NodeGet(p, root);
      SubsAtIgnoresValue(lens.get(g.value), g.value, g.subscribers, g.children, q);
  }

  /** Below a node written by `ChildPut`, the subtree under `key` is the written one. */
  lemma ChildPutSubsAt(g: Node, key: Key, n: Node, q: seq<Key>)
    ensures SubsAt(ChildPut(g, key, n), q) ==
      if q != [] && q[0] == key then SubsAt(n, q[1..]) else SubsAt(g, q)
  {
    var m := ChildPut(g, key, n);
    ChildPutFields(g, key, n);
    if q != [] {
      SubsAtChild(m, q[0], q[1..]);
      SubsAtChild(g, q[0], q[1..]);
      assert [q[0]] + q[1..] == q;
      if q[0] == key {
        assert Linked.Lookup(m.children, key) == Some(Node(Second(n.value), n.subscribers, n.children));
        SubsAtIgnoresValue(Second(n.value), n.value, n.subscribers, n.children, q[1..]);
      } else {
        assert Linked.Lookup(m.children, q[0]) == Linked.Lookup(g.children, q[0]);
      }
    }
  }

  /** How a path relates to the path of a child reference `P + [key]`. */
  lemma PathSplit(P: seq<Key>, key: Key, path: seq<Key>)
    ensures !(P <= path) ==> !(P + [key] <= path)
    ensures P <= path ==> path == P + path[|P|..]
    ensures P <= path && path[|P|..] == [] ==> !(P + [key] <= path)
    ensures P <= path && path[|P|..] != [] ==>
      (P + [key] <= path <==> path[|P|..][0] == key)
    ensures P + [key] <= path ==> path[|P + [key]|..] == path[|P|..][1..]
  {
    if P + [key] <= path {
      assert path[..|P|] == (P + [key])[..|P|] == P;
    }
    if P <= path && path[|P|..] != [] {
      assert path[|P|..][0] == path[|P|];
      if path[|P|] == key {
        assert path[..|P| + 1] == P + [key];
      }
    }
  }

  /** Writing through a reference puts the written node's subscriber sets
      at and below `Path(r)` and leaves the subscribers everywhere else
      where they were.  (Values are not stated: a child reference also
      rewrites its parent's value.) */
  lemma {:induction false} PutAt(r: NodeRef, root: Node, n: Node, path: seq<Key>)
    ensures SubsAt(NodePut(r, root, n), path) ==
      if Path(r) <= path then SubsAt(n, path[|Path(r)|..]) else SubsAt(root, path)
  {
    match r
    case RootRef =>
      assert path[0..] == path;
    case ChildRef(p, key, init) =>
      var g := NodeGet(p, root);
      var m := ChildPut(g, key, n);
      PutAt(p, root, m, path);
      var P := Path(p);
      PathSplit(P, key, path);
      if P <= path {
        var q := path[|P|..];
        GetAt(p, root, q);
        ChildPutSubsAt(g, key, n, q);
      }
    case MappedRef(p, lens) =>
      var g := NodeGet(p, root);
      var m := MapPut(lens, g, n);
      PutAt(p, root, m, path);
      if Path(p) <= path {
        SubsAtIgnoresValue(m.value, n.value, n.subscribers, n.children, path[|Path(p)|..]);
      }
  }

  /** A path below or beside `P`, split at `P`. */
  lemma PathRest(P: seq<Key>, path: seq<Key>)
    requires P <= path
    ensures path == P + path[|P|..]
    ensures path[|P|..] == [] <==> path == P
  {
  }

  /** Writing a value through a reference moves no subscriber anywhere in the tree. */
  lemma RefValuePutKeepsSubscribers(r: NodeRef, root: Node, v: Value, path: seq<Key>)
    ensures SubsAt(ValuePut(r, root, v), path) == SubsAt(root, path)
  {
    var g := NodeGet(r, root);
    PutAt(r, root, g.(value := v), path);
    if Path(r) <= path {
      var q := path[|Path(r)|..];
      PathRest(Path(r), path);
      SubsAtIgnoresValue(v, g.value, g.subscribers, g.children, q);
      GetAt(r, root, q);
    }
  }

  /** The subscriber lens of a reference reads and writes exactly the set at `Path(r)`. */
  lemma RefSubscribersAt(r: NodeRef, root: Node, s: seq<SubId>, path: seq<Key>)
    ensures SubsGet(r, root) == SubsAt(root, Path(r))
    ensures SubsAt(SubsPut(r, root, s), path) ==
      if path == Path(r) then s else SubsAt(root, path)
  {
    GetAt(r, root, []);
    assert Path(r) + [] == Path(r);
    var g := NodeGet(r, root);
    PutAt(r, root, g.(subscribers := s), path);
    if Path(r) <= path {
      PathRest(Path(r), path);
      if path != Path(r) {
        GetAt(r, root, path[|Path(r)|..]);
      }
    }
  }

  /** Every node's children have distinct keys: the association lists are
      genuine maps all the way down.  Every tree the store builds is so. */
  ghost predicate WellFormed(n: Node)
    decreases n
  {
    && Linked.DistinctKeys(n.children)
    && forall i :: 0 <= i < |n.children| ==> WellFormed(n.children[i].1)
  }

  lemma LeafIsWellFormed(v: Value)
    ensures WellFormed(Leaf(v))
  {
  }

  lemma ChildGetKeepsWellFormed(g: Node, key: Key, init: Value)
    requires WellFormed(g)
    ensures WellFormed(ChildGet(g, key, init))
  {
    ChildGetCases(g, key, init);
    if Linked.Lookup(g.children, key).Some? {
      var i := Linked.LookupEntry(g.children, key);
      assert WellFormed(g.children[i].1);
    }
  }

  lemma ChildPutKeepsWellFormed(g: Node, key: Key, n: Node)
    requires WellFormed(g) && WellFormed(n)
    ensures WellFormed(ChildPut(g, key, n))
  {
    var c := Node(Second(n.value), n.subscribers, n.children);
    var cs := Linked.Put(g.children, key, c);
    Linked.PutKeepsDistinctKeys(g.children, key, c);
    forall i | 0 <= i < |cs|
      ensures WellFormed(cs[i].1)
    {
      var j := Linked.PutEntry(g.children, key, c, i);
      if j < |g.children| {
        assert WellFormed(g.children[j].1);
      }
    }
  }

  /** Reading through any reference of a well-formed tree gives a well-formed node. */
  lemma {:induction false} NodeGetKeepsWellFormed(r: NodeRef, root: Node)
    requires WellFormed(root)
    ensures WellFormed(NodeGet(r, root))
  {
    match r
    case RootRef =>
    case ChildRef(p, key, init) =>
      NodeGetKeepsWellFormed(p, root);
      ChildGetKeepsWellFormed(NodeGet(p, root), key, init);
    case MappedRef(p, lens) =>
      NodeGetKeepsWellFormed(p, root);
  }

  /** Writing a well-formed node through any reference keeps the tree well-formed. */
  lemma {:induction false} NodePutKeepsWellFormed(r: NodeRef, root: Node, n: Node)
    requires WellFormed(root) && WellFormed(n)
    ensures WellFormed(NodePut(r, root, n))
  {
    match r
    case RootRef =>
    case ChildRef(p, key, init) =>
      NodeGetKeepsWellFormed(p, root);
      ChildPutKeepsWellFormed(NodeGet(p, root), key, n);
      NodePutKeepsWellFormed(p, root, ChildPut(NodeGet(p, root), key, n));
    case MappedRef(p, lens) =>
      NodeGetKeepsWellFormed(p, root);
      NodePutKeepsWellFormed(p, root, MapPut(lens, NodeGet(p, root), n));
  }

  /** The `value` and `subscribers` writes keep the tree well-formed. */
  lemma FieldPutsKeepWellFormed(r: NodeRef, root: Node, v: Value, s: seq<SubId>)
    requires WellFormed(root)
    ensures WellFormed(ValuePut(r, root, v))
    ensures WellFormed(SubsPut(r, root, s))
  {
    var g := NodeGet(r, root);
    NodeGetKeepsWellFormed(r, root);
    NodePutKeepsWellFormed(r, root, g.(value := v));
    NodePutKeepsWellFormed(r, root, g.(subscribers := s));
  }
}

=== FILE: tree_store.dfy ===
/** The `abcstore` store (abcstore-core, package `hu.nemi.abcstore.core`).

    One `RootStateStore` owns the state tree; every `StateStore` handed to
    user code is a `DefaultStateStore`, i.e. the root store together with a
    node reference.  Subscribers live in the tree, on the node they
    subscribed to; after every change of the tree each of them is called
    with its node's value, read through the reference it subscribed with.

    Both schedulers are the `ImmediateScheduler`, so every task runs at
    once, and the store's `DefaultLock` is held by the single caller of this
    sequential model, so it never refuses (see `Locks.ReenterSucceeds`).
    A subscriber callback is observable only through the calls it
    receives: the model returns them, in order, as a log of `Call`s.
 */
module TreeStore {
  import opened Values
  import opened Lenses
  import opened Outcomes
  import opened Callbacks
  import opened TreeNodes
  import Linked
  import Scopes

  /** A `Subscriber` is equal to any other with the same block, so a node's
      set holds one entry per block, namely the first one added.  `Views`
      remembers, for each block and node path, the reference that entry
      reads through. */
  type Views = seq<((SubId, seq<Key>), NodeRef)>

  /** `RootStateStore`: the tree, the `isDispatching` flag and the readers
      of the subscribers stored in the tree. */
  datatype Root = Root(state: Node, isDispatching: bool, views: Views)

  /** What a store operation did: its outcome, the store afterwards, the
      subscriber calls it made, in order, and the store as those calls find
      it (what a dispatch made from inside a callback runs against). */
  datatype Effect = Effect(outcome: Outcome, store: Root, calls: seq<Call>, during: Root)

  /** `StateStore(initialState)`: one node, nobody subscribed, not dispatching. */
  function Create(initial: Value): Root {
    Root(Leaf(initial), false, [])
  }

  /** Every subscriber in the tree has a reader, reading the node the
      subscriber sits on, the tree's child maps have distinct keys and each
      node's subscribers form a set. */
  ghost predicate Valid(s: Root) {
    && WellFormed(s.state)
    && (forall path :: Linked.NoDuplicates(SubsAt(s.state, path)))
    && forall b, path :: b in SubsAt(s.state, path) ==>
         Linked.Lookup(s.views, (b, path)).Some? && Path(Linked.Lookup(s.views, (b, path)).value) == path
  }

  lemma CreateIsValid(initial: Value)
    ensures Valid(Create(initial))
    ensures !Create(initial).isDispatching
    ensures forall path :: SubsAt(Create(initial).state, path) == []
  {
    LeafIsWellFormed(initial);
  }

  // ---------------------------------------------------------------------
  // Notification: `dispatchStateChanged`

  /** The subscribers of the tree below `n` in the order they are called,
      each with the path of its node: the node's own subscribers, then the
      subtree of each child in turn. */
  function Entries(n: Node, path: seq<Key>): seq<(SubId, seq<Key>)>
    decreases n, |n.children| + 1
  {
    Here(n.subscribers, path) + Below(n, 0, path)
  }

  function Here(subs: seq<SubId>, path: seq<Key>): (r: seq<(SubId, seq<Key>)>)
    ensures |r| == |subs|
    ensures forall i :: 0 <= i < |r| ==> r[i] == (subs[i], path)
  {
    seq(|subs|, i requires 0 <= i < |subs| => (subs[i], path))
  }

  /** The subtrees of the children from position `i` on. */
  function Below(n: Node, i: nat, path: seq<Key>): seq<(SubId, seq<Key>)>
    decreases n, |n.children| - i
  {
    if i >= |n.children| then []
    else Entries(n.children[i].1, path + [n.children[i].0]) + Below(n, i + 1, path)
  }

  /** The value a subscriber entry receives: `block(nodeRef.value(state))`. */
  function Project(views: Views, e: (SubId, seq<Key>), state: Node): Value {
    match Linked.Lookup(views, e)
    case Some(r) => ValueGet(r, state)
    case None => UnitV
  }

  /** `dispatchStateChanged(state, state)`: every subscriber of the tree is
      called once per entry, in tree order. */
  function Notify(views: Views, state: Node): (calls: seq<Call>)
    ensures |calls| == |Entries(state, [])|
    ensures forall i :: 0 <= i < |calls| ==>
      calls[i] == Call(Entries(state, [])[i].0, Project(views, Entries(state, [])[i], state))
  {
    var es := Entries(state, []);
    seq(|es|, i requires 0 <= i < |es| => Call(es[i].0, Project(views, es[i], state)))
  }

  /** The subtree of every child from position `i` on is part of `Below`. */
  lemma {:induction false} BelowHasChild(n: Node, i: nat, j: nat, path: seq<Key>, e: (SubId, seq<Key>))
    requires i <= j < |n.children|
    requires e in Entries(n.children[j].1, path + [n.children[j].0])
    ensures e in Below(n, i, path)
    decreases j - i
  {
    if i < j {
      BelowHasChild(n, i + 1, j, path, e);
    }
  }

  /** Nobody is missed: a subscriber on the node at `q` below `n` has an entry. */
  lemma {:induction false} EntriesComplete(n: Node, pre: seq<Key>, q: seq<Key>, b: SubId)
    requires b in SubsAt(n, q)
    ensures (b, pre + q) in Entries(n, pre)
    decreases |q|
  {
    if q == [] {
      var i :| 0 <= i < |n.subscribers| && n.subscribers[i] == b;
      assert pre + q == pre;
      assert Here(n.subscribers, pre)[i] == (b, pre);
    } else {
      var c := Linked.Lookup(n.children, q[0]).value;
      var j := Linked.LookupEntry(n.children, q[0]);
      EntriesComplete(c, pre + [q[0]], q[1..], b);
      assert (pre + [q[0]]) + q[1..] == pre + q;
      BelowHasChild(n, 0, j, pre, (b, pre + q));
    }
  }

  /** Nobody is called who is not there: in a well-formed tree every entry
      is a subscriber of the node at its path. */
  lemma {:induction false} EntriesSound(n: Node, pre: seq<Key>, e: (SubId, seq<Key>))
    requires WellFormed(n) && e in Entries(n, pre)
    ensures pre <= e.1 && e.0 in SubsAt(n, e.1[|pre|..])
    decreases n, |n.children| + 1
  {
    if e in Here(n.subscribers, pre) {
      var i :| 0 <= i < |n.subscribers| && Here(n.subscribers, pre)[i] == e;
      assert e.1[|pre|..] == [];
    } else {
      BelowSound(n, 0, pre, e);
    }
  }

  lemma {:induction false} BelowSound(n: Node, i: nat, pre: seq<Key>, e: (SubId, seq<Key>))
    requires WellFormed(n) && e in Below(n, i, pre)
    ensures pre <= e.1 && e.0 in SubsAt(n, e.1[|pre|..])
    decreases n, |n.children| - i
  {
    var k := n.children[i].0;
    var c := n.children[i].1;
    if e in Entries(c, pre + [k]) {
      EntriesSound(c, pre + [k], e);
      var rest := e.1[|pre| + 1..];
      assert e.1[|pre|..] == [k] + rest;
      Linked.DistinctLookup(n.children, i);
      assert SubsAt(n, [k] + rest) == SubsAt(c, rest);
    } else {
      BelowSound(n, i + 1, pre, e);
    }
  }

  /** Every subscriber of the tree is called with the value its reader
      sees in the new tree. */
  lemma NotifyComplete(views: Views, state: Node, b: SubId, path: seq<Key>)
    requires b in SubsAt(state, path)
    ensures Call(b, Project(views, (b, path), state)) in Notify(views, state)
  {
    EntriesComplete(state, [], path, b);
    assert [] + path == path;
    var es := Entries(state, []);
    var i :| 0 <= i < |es| && es[i] == (b, path);
    assert Notify(views, state)[i] == Call(b, Project(views, (b, path), state));
  }

  /** An entry lies at its prefix: every entry of `Below(n, i, pre)` is in
      the subtree of some child `j >= i`, whose key follows `pre` in its path. */
  lemma {:induction false} BelowPrefix(n: Node, i: nat, pre: seq<Key>, e: (SubId, seq<Key>)) returns (j: nat)
    requires WellFormed(n) && e in Below(n, i, pre)
    ensures i <= j < |n.children| && pre + [n.children[j].0] <= e.1
    ensures e in Entries(n.children[j].1, pre + [n.children[j].0])
    decreases |n.children| - i
  {
    var k := n.children[i].0;
    var c := n.children[i].1;
    if e in Entries(c, pre + [k]) {
      EntriesSound(c, pre + [k], e);
      j := i;
    } else {
      j := BelowPrefix(n, i + 1, pre, e);
    }
  }

  /** The entries of the child at key `k` have `k` right after the prefix. */
  lemma EntriesAtKey(c: Node, pre: seq<Key>, k: Key, x: (SubId, seq<Key>))
    requires WellFormed(c) && x in Entries(c, pre + [k])
    ensures |x.1| > |pre| && x.1[|pre|] == k
  {
    EntriesSound(c, pre + [k], x);
    assert (pre + [k])[|pre|] == k;
  }

  /** A path below another agrees with it on every key the shorter one has. */
  lemma PrefixKeyAt(x: seq<Key>, y: seq<Key>, k: nat)
    requires x <= y && k < |x|
    ensures x[k] == y[k]
  {
  }

  /** Pre-order: the subscribers of a node are called before those of every
      node below it. */
  lemma {:induction false} PreOrder(n: Node, pre: seq<Key>, i: nat, j: nat)
    requires WellFormed(n)
    requires i < |Entries(n, pre)| && j < |Entries(n, pre)|
    requires Entries(n, pre)[i].1 < Entries(n, pre)[j].1
    ensures i < j
    decreases n, |n.children| + 1
  {
    var here := Here(n.subscribers, pre);
    var below := Below(n, 0, pre);
    if i >= |here| {
      assert Entries(n, pre)[i] == below[i - |here|];
      var m := BelowPrefix(n, 0, pre, below[i - |here|]);
      if j >= |here| {
        assert Entries(n, pre)[j] == below[j - |here|];
        BelowPreOrder(n, 0, pre, i - |here|, j - |here|);
      }
    }
  }

  lemma {:induction false} BelowPreOrder(n: Node, k: nat, pre: seq<Key>, i: nat, j: nat)
    requires WellFormed(n)
    requires i < |Below(n, k, pre)| && j < |Below(n, k, pre)|
    requires Below(n, k, pre)[i].1 < Below(n, k, pre)[j].1
    ensures i < j
    decreases n, |n.children| - k
  {
    var key := n.children[k].0;
    var c := n.children[k].1;
    var first := Entries(c, pre + [key]);
    var rest := Below(n, k + 1, pre);
    if i < |first| && j < |first| {
      assert Below(n, k, pre)[i] == first[i] && Below(n, k, pre)[j] == first[j];
      PreOrder(c, pre + [key], i, j);
    } else if i >= |first| {
      assert Below(n, k, pre)[i] == rest[i - |first|];
      var m := BelowPrefix(n, k + 1, pre, rest[i - |first|]);
      PrefixKeyAt(pre + [n.children[m].0], rest[i - |first|].1, |pre|);
      if j < |first| {
        assert Below(n, k, pre)[j] == first[j];
        EntriesAtKey(c, pre, key, first[j]);
        PrefixKeyAt(rest[i - |first|].1, first[j].1, |pre|);
      } else {
        assert Below(n, k, pre)[j] == rest[j - |first|];
        BelowPreOrder(n, k + 1, pre, i - |first|, j - |first|);
      }
    }
  }

  /** Children in turn: the subtree of a child is called before the subtrees
      of the children after it in the child map. */
  lemma ChildrenInOrder(n: Node, pre: seq<Key>, a: nat, b: nat, i: nat, j: nat)
    requires WellFormed(n) && a < b < |n.children|
    requires i < |Entries(n, pre)| && j < |Entries(n, pre)|
    requires pre + [n.children[a].0] <= Entries(n, pre)[i].1
    requires pre + [n.children[b].0] <= Entries(n, pre)[j].1
    ensures i < j
  {
    var here := Here(n.subscribers, pre);
    var below := Below(n, 0, pre);
    assert |pre + [n.children[a].0]| == |pre| + 1;
    assert i >= |here| && j >= |here| by {
      assert forall x :: 0 <= x < |here| ==> |here[x].1| == |pre|;
    }
    assert Entries(n, pre)[i] == below[i - |here|] && Entries(n, pre)[j] == below[j - |here|];
    BelowInOrder(n, 0, pre, a, b, i - |here|, j - |here|);
  }

  lemma {:induction false} BelowInOrder(n: Node, k: nat, pre: seq<Key>, a: nat, b: nat, i: nat, j: nat)
    requires WellFormed(n) && k <= a < b < |n.children|
    requires i < |Below(n, k, pre)| && j < |Below(n, k, pre)|
    requires pre + [n.children[a].0] <= Below(n, k, pre)[i].1
    requires pre + [n.children[b].0] <= Below(n, k, pre)[j].1
    ensures i < j
    decreases |n.children| - k
  {
    var key := n.children[k].0;
    var c := n.children[k].1;
    var first := Entries(c, pre + [key]);
    var rest := Below(n, k + 1, pre);
    var x := Below(n, k, pre)[i];
    var y := Below(n, k, pre)[j];
    PrefixKeyAt(pre + [n.children[a].0], x.1, |pre|);
    PrefixKeyAt(pre + [n.children[b].0], y.1, |pre|);
    if j < |first| {
      assert y == first[j];
      EntriesAtKey(c, pre, key, y);
    } else if i >= |first| {
      assert x == rest[i - |first|] && y == rest[j - |first|];
      if k < a {
        BelowInOrder(n, k + 1, pre, a, b, i - |first|, j - |first|);
      } else {
        var m := BelowPrefix(n, k + 1, pre, x);
      }
    }
  }

  /** Each node's subscribers form a set, so each (subscriber, path) pair of
      the tree appears once in its walk. */
  lemma {:induction false} EntriesNoDuplicates(n: Node, pre: seq<Key>)
    requires WellFormed(n) && forall q :: Linked.NoDuplicates(SubsAt(n, q))
    ensures Linked.NoDuplicates(Entries(n, pre))
    decreases n, |n.children| + 1
  {
    var here := Here(n.subscribers, pre);
    assert SubsAt(n, []) == n.subscribers;
    forall i, j | 0 <= i < j < |here|
      ensures here[i] != here[j]
    {
      assert n.subscribers[i] != n.subscribers[j];
    }
    BelowNoDuplicates(n, 0, pre);
    forall x | x in here
      ensures x !in Below(n, 0, pre)
    {
      if x in Below(n, 0, pre) {
        var j := BelowPrefix(n, 0, pre, x);
      }
    }
    Linked.NoDuplicatesAppend(here, Below(n, 0, pre));
  }

  lemma {:induction false} BelowNoDuplicates(n: Node, i: nat, pre: seq<Key>)
    requires WellFormed(n) && forall q :: Linked.NoDuplicates(SubsAt(n, q))
    ensures Linked.NoDuplicates(Below(n, i, pre))
    decreases n, |n.children| - i
  {
    if i < |n.children| {
      var k := n.children[i].0;
      var c := n.children[i].1;
      Linked.DistinctLookup(n.children, i);
      forall q
        ensures Linked.NoDuplicates(SubsAt(c, q))
      {
        SubsAtChild(n, k, q);
        assert SubsAt(n, [k] + q) == SubsAt(c, q);
      }
      EntriesNoDuplicates(c, pre + [k]);
      BelowNoDuplicates(n, i + 1, pre);
      forall x | x in Entries(c, pre + [k])
        ensures x !in Below(n, i + 1, pre)
      {
        if x in Below(n, i + 1, pre) {
          EntriesAtKey(c, pre, k, x);
          var j := BelowPrefix(n, i + 1, pre, x);
        }
      }
      Linked.NoDuplicatesAppend(Entries(c, pre + [k]), Below(n, i + 1, pre));
    }
  }

  /** In a well-formed tree whose nodes hold sets, a subscriber on the node
      at `path` has exactly one entry in the walk, and its call is the one
      at that position. */
  lemma NotifyOnce(views: Views, state: Node, b: SubId, path: seq<Key>) returns (i: nat)
    requires WellFormed(state) && forall q :: Linked.NoDuplicates(SubsAt(state, q))
    requires b in SubsAt(state, path)
    ensures i < |Notify(views, state)| && Entries(state, [])[i] == (b, path)
    ensures Notify(views, state)[i] == Call(b, Project(views, (b, path), state))
    ensures forall j :: 0 <= j < |Entries(state, [])| && Entries(state, [])[j] == (b, path) ==> j == i
  {
    EntriesComplete(state, [], path, b);
    assert [] + path == path;
    EntriesNoDuplicates(state, []);
    var es := Entries(state, []);
    i :| 0 <= i < |es| && es[i] == (b, path);
  }

  /** Every call goes to a subscriber of the tree, with the value its reader sees. */
  lemma NotifySound(views: Views, state: Node, i: nat) returns (path: seq<Key>)
    requires WellFormed(state) && i < |Notify(views, state)|
    ensures Notify(views, state)[i].sub in SubsAt(state, path)
    ensures Notify(views, state)[i] == Call(Notify(views, state)[i].sub, Project(views, (Notify(views, state)[i].sub, path), state))
  {
    var e := Entries(state, [])[i];
    EntriesSound(state, [], e);
    path := e.1;
    assert e.1[0..] == e.1;
  }

  // ---------------------------------------------------------------------
  // Committing a new tree: `setState`

  /** Commit `next` and notify everybody, unless the tree did not change.
      The callbacks run after the assignment, against the new tree. */
  function SetState(s: Root, next: Node): (e: Effect)
    ensures e.outcome == Pass && e.store.state == next && e.during == e.store
    ensures e.store.isDispatching == s.isDispatching && e.store.views == s.views
    ensures s.state == next ==> e.calls == []
    ensures s.state != next ==> |e.calls| == |Entries(next, [])|
  {
    if s.state == next then Effect(Pass, s, [], s)
    else Effect(Pass, s.(state := next), Notify(s.views, next), s.(state := next))
  }

  // ---------------------------------------------------------------------
  // `RootStateStore.dispatch` and `DefaultStateStore.dispatch`

  /** `RootStateStore.dispatch(action)`: refused while a dispatch is in
      flight; otherwise the action's tree is committed by `setState` inside
      the `try`, so the subscribers are called while the flag is still set.
      The flag is reset in a `finally`, so a failing action leaves the store
      as it was. */
  function RootDispatch(s: Root, action: Node -> Result<Node>): (e: Effect)
    ensures e.outcome == Pass <==> !s.isDispatching && action(s.state).Ok?
    ensures s.isDispatching ==> e.outcome == Fail(IllegalState)
    ensures !s.isDispatching && action(s.state).Err? ==> e.outcome == Fail(action(s.state).error)
    ensures e.outcome.Fail? ==> e.store == s && e.calls == []
    ensures e.outcome == Pass ==> e.store == s.(state := action(s.state).value)
    ensures e.store.state == s.state ==> e.calls == []
    ensures e.store.state != s.state ==> e.calls == Notify(s.views, e.store.state)
    ensures e.calls != [] ==> e.during == e.store.(isDispatching := true)
  {
    if s.isDispatching then Effect(Fail(IllegalState), s, [], s)
    else match action(s.state)
      case Err(err) => Effect(Fail(err), s, [], s)
      case Ok(next) =>
        var e := SetState(s.(isDispatching := true), next);
        e.(store := e.store.(isDispatching := false))
  }

  /** The root-level action of `DefaultStateStore.dispatch(mutator)`: read
      the node's value, mutate it, write it back through the same reference. */
  function Mutation(r: NodeRef, f: Value -> Result<Value>): Node -> Result<Node> {
    (n: Node) => match f(ValueGet(r, n))
      case Ok(v) => Ok(ValuePut(r, n, v))
      case Err(err) => Err(err)
  }

  /** `store.dispatch(mutator)` on the store of reference `r`; a mutator
      that throws is an `Err`. */
  function Dispatch(s: Root, r: NodeRef, f: Value -> Result<Value>): (e: Effect)
    ensures e.outcome == Pass <==> !s.isDispatching && f(ValueGet(r, s.state)).Ok?
    ensures s.isDispatching ==> e.outcome == Fail(IllegalState)
    ensures e.outcome.Fail? ==> e.store == s && e.calls == []
    ensures e.outcome == Pass ==> e.store.state == ValuePut(r, s.state, f(ValueGet(r, s.state)).value)
    ensures e.store.isDispatching == s.isDispatching && e.store.views == s.views
    ensures e.store.state == s.state ==> e.calls == []
    ensures e.store.state != s.state ==> e.calls == Notify(s.views, e.store.state)
    ensures e.calls != [] ==> e.during == e.store.(isDispatching := true)
  {
    RootDispatch(s, Mutation(r, f))
  }

  /** A dispatch moves no subscriber and keeps the store valid. */
  lemma DispatchKeepsValid(s: Root, r: NodeRef, f: Value -> Result<Value>)
    requires Valid(s)
    ensures Valid(Dispatch(s, r, f).store)
    ensures forall path :: SubsAt(Dispatch(s, r, f).store.state, path) == SubsAt(s.state, path)
  {
    var e := Dispatch(s, r, f);
    if e.outcome == Pass {
      var v := f(ValueGet(r, s.state)).value;
      FieldPutsKeepWellFormed(r, s.state, v, []);
      forall path
        ensures SubsAt(e.store.state, path) == SubsAt(s.state, path)
      {
        RefValuePutKeepsSubscribers(r, s.state, v, path);
      }
    }
  }

  /** After a dispatch that changed the tree, every subscriber of the tree,
      on every node, is called with the new value of the node it subscribed
      to, as read through its own reference; and nobody else is called. */
  lemma DispatchNotifiesSubscribers(s: Root, r: NodeRef, f: Value -> Result<Value>, b: SubId, path: seq<Key>)
    requires Valid(s)
    requires Dispatch(s, r, f).store.state != s.state
    requires b in SubsAt(s.state, path)
    ensures Linked.Lookup(s.views, (b, path)).Some?
    ensures Call(b, ValueGet(Linked.Lookup(s.views, (b, path)).value, Dispatch(s, r, f).store.state)) in Dispatch(s, r, f).calls
  {
    var e := Dispatch(s, r, f);
    DispatchKeepsValid(s, r, f);
    NotifyComplete(s.views, e.store.state, b, path);
  }

  /** A block subscribed on one node only is called exactly once by a
      dispatch that changed the tree, with the node's new value. */
  lemma DispatchCallsOnce(s: Root, r: NodeRef, f: Value -> Result<Value>, b: SubId, path: seq<Key>) returns (i: nat)
    requires Valid(s)
    requires Dispatch(s, r, f).store.state != s.state
    requires b in SubsAt(s.state, path)
    requires forall q :: q != path ==> b !in SubsAt(s.state, q)
    ensures Linked.Lookup(s.views, (b, path)).Some?
    ensures i < |Dispatch(s, r, f).calls|
    ensures Dispatch(s, r, f).calls[i] == Call(b, ValueGet(Linked.Lookup(s.views, (b, path)).value, Dispatch(s, r, f).store.state))
    ensures forall j :: 0 <= j < |Dispatch(s, r, f).calls| && Dispatch(s, r, f).calls[j].sub == b ==> j == i
  {
    var e := Dispatch(s, r, f);
    DispatchKeepsValid(s, r, f);
    i := NotifyOnce(s.views, e.store.state, b, path);
    var es := Entries(e.store.state, []);
    forall j | 0 <= j < |e.calls| && e.calls[j].sub == b
      ensures j == i
    {
      EntriesSound(e.store.state, [], es[j]);
      assert es[j].1[0..] == es[j].1;
    }
  }

  lemma DispatchCallsOnlySubscribers(s: Root, r: NodeRef, f: Value -> Result<Value>, i: nat) returns (path: seq<Key>)
    requires Valid(s) && i < |Dispatch(s, r, f).calls|
    ensures Dispatch(s, r, f).calls[i].sub in SubsAt(s.state, path)
  {
    var e := Dispatch(s, r, f);
    DispatchKeepsValid(s, r, f);
    path := NotifySound(s.views, e.store.state, i);
  }

  /** The subscribers of a dispatch are called while it is still in flight,
      on the new tree: a dispatch one of them makes is refused with
      `IllegalStateException` and changes nothing. */
  lemma ReentrantDispatchRefused(s: Root, r: NodeRef, f: Value -> Result<Value>, r2: NodeRef, f2: Value -> Result<Value>)
    requires Dispatch(s, r, f).calls != []
    ensures Dispatch(s, r, f).during.isDispatching
    ensures Dispatch(s, r, f).during.state == Dispatch(s, r, f).store.state
    ensures var d := Dispatch(s, r, f).during;
      Dispatch(d, r2, f2).outcome == Fail(IllegalState) && Dispatch(d, r2, f2).store == d
  {
  }

  // ---------------------------------------------------------------------
  // `subscribe` and the returned `Subscription`

  /** `subscribe(block)` on the store of reference `r`: add the subscriber
      to the node's set (a block already there keeps its first entry) and
      call it once with the node's current value. */
  function Subscribe(s: Root, r: NodeRef, b: SubId): (e: Effect)
    ensures e.outcome == Pass
    ensures e.calls == [Call(b, ValueGet(r, e.store.state))]
    ensures e.store.isDispatching == s.isDispatching
  {
    var subs := SubsGet(r, s.state);
    var state := SubsPut(r, s.state, Linked.Insert(subs, b));
    var views := if b in subs then s.views else Linked.Put(s.views, (b, Path(r)), r);
    Effect(Pass, Root(state, s.isDispatching, views), [Call(b, ValueGet(r, state))], Root(state, s.isDispatching, views))
  }

  /** The block joins the set of the node at `Path(r)`, and only that set. */
  lemma SubscribeAdds(s: Root, r: NodeRef, b: SubId, path: seq<Key>, x: SubId)
    ensures x in SubsAt(Subscribe(s, r, b).store.state, path) <==>
      x in SubsAt(s.state, path) || (x == b && path == Path(r))
    ensures path != Path(r) ==> SubsAt(Subscribe(s, r, b).store.state, path) == SubsAt(s.state, path)
  {
    var subs := SubsGet(r, s.state);
    RefSubscribersAt(r, s.state, Linked.Insert(subs, b), path);
  }

  lemma SubscribeKeepsValid(s: Root, r: NodeRef, b: SubId)
    requires Valid(s)
    ensures Valid(Subscribe(s, r, b).store)
  {
    var e := Subscribe(s, r, b);
    var subs := SubsGet(r, s.state);
    FieldPutsKeepWellFormed(r, s.state, UnitV, Linked.Insert(subs, b));
    RefSubscribersAt(r, s.state, subs, Path(r));
    forall path
      ensures Linked.NoDuplicates(SubsAt(e.store.state, path))
    {
      RefSubscribersAt(r, s.state, Linked.Insert(subs, b), path);
    }
    forall x, path | x in SubsAt(e.store.state, path)
      ensures Linked.Lookup(e.store.views, (x, path)).Some?
      ensures Path(Linked.Lookup(e.store.views, (x, path)).value) == path
    {
      SubscribeAdds(s, r, b, path, x);
    }
  }

  /** Subscribing a block again, through any reference to the same node,
      adds no second entry and keeps the first reader; the block is still
      called once more, with the value the new reference reads. */
  lemma SubscribeAgainAddsNothing(s: Root, r: NodeRef, r2: NodeRef, b: SubId, path: seq<Key>)
    requires Path(r2) == Path(r)
    ensures Subscribe(Subscribe(s, r, b).store, r2, b).store.views == Subscribe(s, r, b).store.views
    ensures SubsAt(Subscribe(Subscribe(s, r, b).store, r2, b).store.state, path) == SubsAt(Subscribe(s, r, b).store.state, path)
  {
    var s1 := Subscribe(s, r, b).store;
    RefSubscribersAt(r, s.state, Linked.Insert(SubsGet(r, s.state), b), Path(r));
    RefSubscribersAt(r2, s1.state, SubsGet(r2, s1.state), path);
  }

  /** The handle's `unsubscribe()`: remove the block from the node's set.
      It is neither scheduled nor checked against `isDispatching`. */
  function Unsubscribe(s: Root, r: NodeRef, b: SubId): (t: Root)
    ensures t.isDispatching == s.isDispatching && t.views == s.views
  {
    s.(state := SubsPut(r, s.state, Linked.Remove(SubsGet(r, s.state), b)))
  }

  /** The block leaves the set of the node at `Path(r)`; nothing else changes. */
  lemma UnsubscribeRemoves(s: Root, r: NodeRef, b: SubId, path: seq<Key>, x: SubId)
    ensures x in SubsAt(Unsubscribe(s, r, b).state, path) <==>
      x in SubsAt(s.state, path) && !(x == b && path == Path(r))
    ensures path != Path(r) ==> SubsAt(Unsubscribe(s, r, b).state, path) == SubsAt(s.state, path)
  {
    RefSubscribersAt(r, s.state, Linked.Remove(SubsGet(r, s.state), b), path);
  }

  lemma UnsubscribeKeepsValid(s: Root, r: NodeRef, b: SubId)
    requires Valid(s)
    ensures Valid(Unsubscribe(s, r, b))
  {
    var t := Unsubscribe(s, r, b);
    FieldPutsKeepWellFormed(r, s.state, UnitV, Linked.Remove(SubsGet(r, s.state), b));
    forall path
      ensures Linked.NoDuplicates(SubsAt(t.state, path))
    {
      RefSubscribersAt(r, s.state, Linked.Remove(SubsGet(r, s.state), b), path);
    }
    forall x, path | x in SubsAt(t.state, path)
      ensures Linked.Lookup(t.views, (x, path)).Some?
      ensures Path(Linked.Lookup(t.views, (x, path)).value) == path
    {
      UnsubscribeRemoves(s, r, b, path, x);
    }
  }

  /** A second `unsubscribe()` removes nothing more: every set stays as the first left it. */
  lemma UnsubscribeAgainRemovesNothing(s: Root, r: NodeRef, b: SubId, path: seq<Key>)
    ensures SubsAt(Unsubscribe(Unsubscribe(s, r, b), r, b).state, path) == SubsAt(Unsubscribe(s, r, b).state, path)
  {
    var t := Unsubscribe(s, r, b);
    RefSubscribersAt(r, s.state, Linked.Remove(SubsGet(r, s.state), b), Path(r));
    RefSubscribersAt(r, t.state, Linked.Remove(SubsGet(r, t.state), b), path);
  }

  /** A block that sat only on the node of `r` is never called by a later
      dispatch once it has unsubscribed. */
  lemma UnsubscribedIsNotCalled(s: Root, r: NodeRef, b: SubId, r2: NodeRef, f: Value -> Result<Value>, i: nat)
    requires Valid(s)
    requires forall path :: path != Path(r) ==> b !in SubsAt(s.state, path)
    requires i < |Dispatch(Unsubscribe(s, r, b), r2, f).calls|
    ensures Dispatch(Unsubscribe(s, r, b), r2, f).calls[i].sub != b
  {
    var t := Unsubscribe(s, r, b);
    UnsubscribeKeepsValid(s, r, b);
    var path := DispatchCallsOnlySubscribers(t, r2, f, i);
    UnsubscribeRemoves(s, r, b, path, b);
  }

  // ---------------------------------------------------------------------
  // `withState`

  /** The `value` lens of reference `r`, on the whole tree. */
  function ValueAt(r: NodeRef): Lens<Node, Value> {
    Lens((n: Node) => ValueGet(r, n), (n: Node, v: Value) => ValuePut(r, n, v))
  }

  /** `withState { ... }` on the store of reference `r`: run the block on
      `map(node.value)` of a scope holding the tree, then commit the tree it
      ends with.  Unlike `dispatch` it does not look at `isDispatching`. */
  function WithState(s: Root, r: NodeRef, block: Scopes.Block<Value>): (e: Effect)
    ensures e.outcome == Pass
    ensures e.store.state == Scopes.Run(Scopes.MapBlock(ValueAt(r), block), s.state)
    ensures e.store.isDispatching == s.isDispatching && e.store.views == s.views
    ensures e.store.state == s.state ==> e.calls == []
    ensures e.store.state != s.state ==> e.calls == Notify(s.views, e.store.state)
  {
    SetState(s, Scopes.Run(Scopes.MapBlock(ValueAt(r), block), s.state))
  }

  /** Assignments on a node's value move no subscriber and keep the tree well-formed. */
  lemma {:induction false} ValueRunKeepsShape(r: NodeRef, block: Scopes.Block<Value>, n: Node, path: seq<Key>)
    requires WellFormed(n)
    ensures WellFormed(Scopes.Run(Scopes.MapBlock(ValueAt(r), block), n))
    ensures SubsAt(Scopes.Run(Scopes.MapBlock(ValueAt(r), block), n), path) == SubsAt(n, path)
    decreases |block|
  {
    if block != [] {
      Scopes.MapBlockHead(ValueAt(r), block, n);
      var v := block[0](ValueGet(r, n));
      var n1 := ValuePut(r, n, v);
      FieldPutsKeepWellFormed(r, n, v, []);
      RefValuePutKeepsSubscribers(r, n, v, path);
      ValueRunKeepsShape(r, block[1..], n1, path);
    }
  }

  lemma WithStateKeepsValid(s: Root, r: NodeRef, block: Scopes.Block<Value>)
    requires Valid(s)
    ensures Valid(WithState(s, r, block).store)
    ensures forall path :: SubsAt(WithState(s, r, block).store.state, path) == SubsAt(s.state, path)
  {
    forall path
      ensures SubsAt(WithState(s, r, block).store.state, path) == SubsAt(s.state, path)
    {
      ValueRunKeepsShape(r, block, s.state, path);
    }
    ValueRunKeepsShape(r, block, s.state, []);
  }

  /** The root reference's value lens reads back what it writes. */
  lemma RootValueReadsBack()
    ensures GetPut(ValueAt(RootRef))
  {
  }

  /** Only the last assignment counts: a block ending in `value = x` leaves
      `x` in the store, for any reference whose value lens reads back. */
  lemma WithStateLastAssignmentWins(s: Root, r: NodeRef, block: Scopes.Block<Value>, x: Value)
    requires GetPut(ValueAt(r))
    ensures ValueGet(r, WithState(s, r, block + [Scopes.Assign(x)]).store.state) == x
  {
    var b := block + [Scopes.Assign(x)];
    Scopes.MappedRunReads(ValueAt(r), b, s.state);
    Scopes.RunEndsWithAssign(block, x, ValueGet(r, s.state));
  }

  /** `withState` from inside a subscriber callback of a dispatch is not
      refused, although the dispatch is still in flight. */
  lemma ReentrantWithStateRuns(s: Root, r: NodeRef, f: Value -> Result<Value>, r2: NodeRef, block: Scopes.Block<Value>)
    requires Dispatch(s, r, f).calls != []
    ensures var d := Dispatch(s, r, f).during;
      WithState(d, r2, block).outcome == Pass && WithState(d, r2, block).store.isDispatching
  {
  }

  // ---------------------------------------------------------------------
  // `ReducerStore`

  /** `reducerStore.dispatch(action)`: the mutator `{ reducer(it, action) }`
      dispatched to the underlying store; a reducer that throws is an `Err`,
      which leaves the store as it was. */
  function ReducerDispatch(s: Root, r: NodeRef, reducer: (Value, Value) -> Result<Value>, a: Value): (e: Effect)
    ensures e.outcome == Pass <==> !s.isDispatching && reducer(ValueGet(r, s.state), a).Ok?
    ensures s.isDispatching ==> e.outcome == Fail(IllegalState)
    ensures !s.isDispatching && reducer(ValueGet(r, s.state), a).Err? ==>
      e.outcome == Fail(reducer(ValueGet(r, s.state), a).error)
    ensures e.outcome == Pass ==> e.store.state == ValuePut(r, s.state, reducer(ValueGet(r, s.state), a).value)
    ensures e.outcome.Fail? ==> e.store == s && e.calls == []
  {
    Dispatch(s, r, (v: Value) => reducer(v, a))
  }
}

=== FILE: tree_store_scenarios.dfy ===
/** The behaviour the `abcstore` tests describe, on the model: each lemma
    replays one test (StateStoreTest.kt, ReducerStoreTest.kt) and states
    the calls the subscribers receive.
 */
module TreeStoreScenarios {
  import opened Values
  import opened Lenses
  import opened Outcomes
  import opened Callbacks
  import opened TreeNodes
  import opened TreeStore
  import Linked

  /** `{ it * 2 }` on an `Int` state. */
  function Double(v: Value): Result<Value> {
    if v.IntV? then Ok(IntV(v.i * 2)) else Err(IllegalArgument)
  }

  /** `{ 23 }`. */
  function Constant23(v: Value): Result<Value> {
    Ok(IntV(23))
  }

  /** The subscribers of a lone root node are called in set order. */
  lemma NotifyLoneRoot(views: Views, v: Value, subs: seq<SubId>)
    requires |subs| <= 2
    ensures |Notify(views, Node(v, subs, []))| == |subs|
    ensures forall i :: 0 <= i < |subs| ==>
      Notify(views, Node(v, subs, []))[i] == Call(subs[i], Project(views, (subs[i], []), Node(v, subs, [])))
  {
    var n := Node(v, subs, []);
    assert Below(n, 0, []) == [];
    assert Entries(n, []) == Here(subs, []);
  }

  /** One block subscribed to the root of `23`. */
  const OneSubscriber: Root := Root(Node(IntV(23), [1], []), false, [((1, []), RootRef)])

  lemma EmitsOnSubscribe()
    ensures Subscribe(Create(IntV(23)), RootRef, 1).calls == [Call(1, IntV(23))]
    ensures Subscribe(Create(IntV(23)), RootRef, 1).store == OneSubscriber
  {
  }

  lemma NotNotifiedAfterUnsubscribing()
    ensures
      var e := Dispatch(Unsubscribe(OneSubscriber, RootRef, 1), RootRef, Double);
      e.outcome == Pass && e.calls == []
  {
    var t := Unsubscribe(OneSubscriber, RootRef, 1);
    assert t.state == Node(IntV(23), [], []);
    var e := Dispatch(t, RootRef, Double);
    var n := Node(IntV(46), [], []);
    assert e.store.state == n;
    assert e.calls == Notify(t.views, n);
    NotifyLoneRoot(t.views, IntV(46), []);
  }

  lemma NotifiedWhenChanged()
    ensures Dispatch(OneSubscriber, RootRef, Double).calls == [Call(1, IntV(46))]
  {
    var e := Dispatch(OneSubscriber, RootRef, Double);
    var n := Node(IntV(46), [1], []);
    assert e.store.state == n;
    assert e.calls == Notify(OneSubscriber.views, n);
    NotifyLoneRoot(OneSubscriber.views, IntV(46), [1]);
    assert Project(OneSubscriber.views, (1, []), n) == IntV(46);
  }

  lemma NotNotifiedWhenUnchanged()
    ensures Dispatch(OneSubscriber, RootRef, Constant23).calls == []
  {
    assert Dispatch(OneSubscriber, RootRef, Constant23).store.state == OneSubscriber.state;
  }

  // ---------------------------------------------------------------------
  // `can have child state`

  /** `store.subState("string") { "Hello, World!" }.map(second)`. */
  const ChildStore: NodeRef := MappedRef(ChildRef(RootRef, StrV("string"), StrV("Hello, World!")), SecondLens())

  /** `childStore.subState("long") { -1L }.map(second)`. */
  const GrandchildStore: NodeRef := MappedRef(ChildRef(ChildStore, StrV("long"), LongV(-1)), SecondLens())

  function Goodbye(v: Value): Result<Value> {
    Ok(StrV("Goodbye, World!"))
  }

  /** `{ it + 23L }` on a `Long` state. */
  function Add23(v: Value): Result<Value> {
    if v.LongV? then Ok(LongV(v.l + 23)) else Err(IllegalArgument)
  }

  /** The tree after the three subscriptions, with the given root value,
      child text and grandchild number. */
  function Tree(root: Value, text: Value, number: Value): Node {
    Node(root, [1], [(StrV("string"), Node(text, [2], [(StrV("long"), Node(number, [3], []))]))])
  }

  lemma ChildSubscribes(views: Views)
    ensures Subscribe(Root(Node(IntV(23), [1], []), false, views), ChildStore, 2).store.state ==
      Node(IntV(23), [1], [(StrV("string"), Node(StrV("Hello, World!"), [2], []))])
    ensures Subscribe(Root(Node(IntV(23), [1], []), false, views), ChildStore, 2).calls == [Call(2, StrV("Hello, World!"))]
    ensures Subscribe(Root(Node(IntV(23), [1], []), false, views), ChildStore, 2).store.views ==
      Linked.Put(views, (2, [StrV("string")]), ChildStore)
  {
    var a := Node(IntV(23), [1], []);
    var hello := StrV("Hello, World!");
    var c0 := ChildRef(RootRef, StrV("string"), hello);
    assert NodeGet(c0, a) == Node(PairV(IntV(23), hello), [], []);
    assert NodeGet(ChildStore, a) == Node(hello, [], []);
    assert SubsGet(ChildStore, a) == [];
    assert Path(ChildStore) == [StrV("string")];
    assert Linked.Insert(SubsGet(ChildStore, a), 2) == [2];
    assert MapPut(SecondLens(), NodeGet(c0, a), Node(hello, [2], [])) == Node(PairV(IntV(23), hello), [2], []);
    assert NodePut(c0, a, Node(PairV(IntV(23), hello), [2], [])) == Node(IntV(23), [1], [(StrV("string"), Node(hello, [2], []))]);
  }

  lemma GrandchildSubscribes(views: Views)
    ensures
      var b := Node(IntV(23), [1], [(StrV("string"), Node(StrV("Hello, World!"), [2], []))]);
      && Subscribe(Root(b, false, views), GrandchildStore, 3).store.state == Tree(IntV(23), StrV("Hello, World!"), LongV(-1))
      && Subscribe(Root(b, false, views), GrandchildStore, 3).calls == [Call(3, LongV(-1))]
      && Subscribe(Root(b, false, views), GrandchildStore, 3).store.views ==
           Linked.Put(views, (3, [StrV("string"), StrV("long")]), GrandchildStore)
  {
    var hello := StrV("Hello, World!");
    var b := Node(IntV(23), [1], [(StrV("string"), Node(hello, [2], []))]);
    var c0 := ChildRef(RootRef, StrV("string"), hello);
    var g0 := ChildRef(ChildStore, StrV("long"), LongV(-1));
    assert NodeGet(c0, b) == Node(PairV(IntV(23), hello), [2], []);
    assert NodeGet(ChildStore, b) == Node(hello, [2], []);
    assert NodeGet(g0, b) == Node(PairV(hello, LongV(-1)), [], []);
    assert NodeGet(GrandchildStore, b) == Node(LongV(-1), [], []);
    assert SubsGet(GrandchildStore, b) == [];
    assert Path(GrandchildStore) == [StrV("string"), StrV("long")];
    assert Linked.Insert(SubsGet(GrandchildStore, b), 3) == [3];
    var grand := Node(PairV(hello, LongV(-1)), [3], []);
    assert MapPut(SecondLens(), NodeGet(g0, b), Node(LongV(-1), [3], [])) == grand;
    var c := Node(hello, [2], [(StrV("long"), Node(LongV(-1), [3], []))]);
    assert NodePut(g0, b, grand) == NodePut(ChildStore, b, c);
    assert MapPut(SecondLens(), NodeGet(c0, b), c) == Node(PairV(IntV(23), hello), [2], [(StrV("long"), Node(LongV(-1), [3], []))]);
    assert Linked.Put(b.children, StrV("string"), c) == [(StrV("string"), c)];
    assert NodePut(c0, b, Node(PairV(IntV(23), hello), [2], c.children)) == Tree(IntV(23), hello, LongV(-1));
    assert NodePut(ChildStore, b, c) == Tree(IntV(23), hello, LongV(-1));
    var t := Tree(IntV(23), hello, LongV(-1));
    assert NodeGet(c0, t) == Node(PairV(IntV(23), hello), [2], [(StrV("long"), Node(LongV(-1), [3], []))]);
    assert NodeGet(g0, t) == Node(PairV(hello, LongV(-1)), [3], []);
  }

  /** The readers registered by the three subscriptions. */
  function ChildStateViews(): Views {
    [((1, []), RootRef), ((2, [StrV("string")]), ChildStore), ((3, [StrV("string"), StrV("long")]), GrandchildStore)]
  }

  /** The store once the root and the child store have subscribed. */
  const AfterChild: Root :=
    Root(Node(IntV(23), [1], [(StrV("string"), Node(StrV("Hello, World!"), [2], []))]), false,
         [((1, []), RootRef), ((2, [StrV("string")]), ChildStore)])

  lemma ChildJoins()
    ensures Subscribe(OneSubscriber, ChildStore, 2).store == AfterChild
    ensures Subscribe(OneSubscriber, ChildStore, 2).calls == [Call(2, StrV("Hello, World!"))]
  {
    ChildSubscribes(OneSubscriber.views);
    SecondViewAppended();
  }

  lemma GrandchildJoins()
    ensures Subscribe(AfterChild, GrandchildStore, 3).store ==
      Root(Tree(IntV(23), StrV("Hello, World!"), LongV(-1)), false, ChildStateViews())
    ensures Subscribe(AfterChild, GrandchildStore, 3).calls == [Call(3, LongV(-1))]
  {
    GrandchildSubscribes(AfterChild.views);
    ThirdViewAppended();
  }

  /** The three subscriptions: each subscriber sees its own slice at once,
      and each registers the reader it subscribed with. */
  lemma ChildStateSubscriptions()
    ensures
      var s1 := Subscribe(Create(IntV(23)), RootRef, 1);
      var s2 := Subscribe(s1.store, ChildStore, 2);
      var s3 := Subscribe(s2.store, GrandchildStore, 3);
      && s1.calls == [Call(1, IntV(23))]
      && s2.calls == [Call(2, StrV("Hello, World!"))]
      && s3.calls == [Call(3, LongV(-1))]
      && s3.store == Root(Tree(IntV(23), StrV("Hello, World!"), LongV(-1)), false, ChildStateViews())
  {
    var s1 := Subscribe(Create(IntV(23)), RootRef, 1);
    EmitsOnSubscribe();
    assert s1.store == OneSubscriber;
    var s2 := Subscribe(s1.store, ChildStore, 2);
    ChildJoins();
    assert s2.store == AfterChild;
    GrandchildJoins();
  }

  lemma SecondViewAppended()
    ensures Linked.Put([((1, []), RootRef)], (2, [StrV("string")]), ChildStore) ==
      [((1, []), RootRef), ((2, [StrV("string")]), ChildStore)]
  {
    var es: Views := [((1, []), RootRef)];
    assert Linked.Put(es[1..], (2, [StrV("string")]), ChildStore) == [((2, [StrV("string")]), ChildStore)];
  }

  lemma ThirdViewAppended()
    ensures Linked.Put([((1, []), RootRef), ((2, [StrV("string")]), ChildStore)], (3, [StrV("string"), StrV("long")]), GrandchildStore) ==
      ChildStateViews()
  {
    var es: Views := [((1, []), RootRef), ((2, [StrV("string")]), ChildStore)];
    var k := (3, [StrV("string"), StrV("long")]);
    assert |es[1..][1..]| == 0;
    assert Linked.Put(es[1..], k, GrandchildStore) == [es[1]] + [(k, GrandchildStore)];
  }

  /** Each subscriber reads its own slice of the tree. */
  lemma ChildStateNotified(x: Value, y: Value, z: Value)
    ensures Notify(ChildStateViews(), Tree(x, y, z)) == [Call(1, x), Call(2, y), Call(3, z)]
  {
    var n := Tree(x, y, z);
    ThreeLevelEntries(n);
    var c0 := ChildRef(RootRef, StrV("string"), StrV("Hello, World!"));
    assert NodeGet(c0, n) == Node(PairV(x, y), [2], n.children[0].1.children);
    assert ValueGet(ChildStore, n) == y;
    var g0 := ChildRef(ChildStore, StrV("long"), LongV(-1));
    assert NodeGet(g0, n) == Node(PairV(y, z), [3], []);
    assert ValueGet(GrandchildStore, n) == z;
    assert Project(ChildStateViews(), (2, [StrV("string")]), n) == y;
    assert Project(ChildStateViews(), (3, [StrV("string"), StrV("long")]), n) == z;
  }

  lemma RootDoubles(views: Views)
    ensures Dispatch(Root(Tree(IntV(23), StrV("Hello, World!"), LongV(-1)), false, views), RootRef, Double).store.state ==
      Tree(IntV(46), StrV("Hello, World!"), LongV(-1))
  {
  }

  lemma ChildSaysGoodbye(views: Views)
    ensures Dispatch(Root(Tree(IntV(46), StrV("Hello, World!"), LongV(-1)), false, views), ChildStore, Goodbye).store.state ==
      Tree(IntV(46), StrV("Goodbye, World!"), LongV(-1))
  {
    var n := Tree(IntV(46), StrV("Hello, World!"), LongV(-1));
    var c0 := ChildRef(RootRef, StrV("string"), StrV("Hello, World!"));
    var rest := n.children[0].1.children;
    assert NodeGet(c0, n) == Node(PairV(IntV(46), StrV("Hello, World!")), [2], rest);
    var m := Node(StrV("Goodbye, World!"), [2], rest);
    assert MapPut(SecondLens(), NodeGet(c0, n), m) == Node(PairV(IntV(46), StrV("Goodbye, World!")), [2], rest);
    assert Linked.Put(n.children, StrV("string"), m) == [(StrV("string"), m)];
  }

  lemma GrandchildAdds(views: Views)
    ensures Dispatch(Root(Tree(IntV(46), StrV("Goodbye, World!"), LongV(-1)), false, views), GrandchildStore, Add23).store.state ==
      Tree(IntV(46), StrV("Goodbye, World!"), LongV(22))
  {
    var bye := StrV("Goodbye, World!");
    var n := Tree(IntV(46), bye, LongV(-1));
    var c0 := ChildRef(RootRef, StrV("string"), StrV("Hello, World!"));
    var g0 := ChildRef(ChildStore, StrV("long"), LongV(-1));
    var rest := n.children[0].1.children;
    assert NodeGet(c0, n) == Node(PairV(IntV(46), bye), [2], rest);
    assert NodeGet(ChildStore, n) == Node(bye, [2], rest);
    assert NodeGet(g0, n) == Node(PairV(bye, LongV(-1)), [3], []);
    assert ValueGet(GrandchildStore, n) == LongV(-1);
    var grand := Node(PairV(bye, LongV(22)), [3], []);
    assert MapPut(SecondLens(), NodeGet(g0, n), Node(LongV(22), [3], [])) == grand;
    var leaf := Node(LongV(22), [3], []);
    assert Linked.Put(rest, StrV("long"), leaf) == [(StrV("long"), leaf)];
    var c := Node(bye, [2], [(StrV("long"), leaf)]);
    assert NodePut(g0, n, grand) == NodePut(ChildStore, n, c);
    assert MapPut(SecondLens(), NodeGet(c0, n), c) == Node(PairV(IntV(46), bye), [2], c.children);
    assert Linked.Put(n.children, StrV("string"), c) == [(StrV("string"), c)];
  }

  /** The three dispatches: each notifies every subscriber, in tree order,
      with the value of its own slice. */
  lemma ChildStateDispatches()
    ensures
      var s1 := Subscribe(Create(IntV(23)), RootRef, 1).store;
      var s2 := Subscribe(s1, ChildStore, 2).store;
      var s3 := Subscribe(s2, GrandchildStore, 3).store;
      var d1 := Dispatch(s3, RootRef, Double);
      var d2 := Dispatch(d1.store, ChildStore, Goodbye);
      var d3 := Dispatch(d2.store, GrandchildStore, Add23);
      && d1.calls == [Call(1, IntV(46)), Call(2, StrV("Hello, World!")), Call(3, LongV(-1))]
      && d2.calls == [Call(1, IntV(46)), Call(2, StrV("Goodbye, World!")), Call(3, LongV(-1))]
      && d3.calls == [Call(1, IntV(46)), Call(2, StrV("Goodbye, World!")), Call(3, LongV(22))]
  {
    ChildStateSubscriptions();
    var views := ChildStateViews();
    RootDoubles(views);
    ChildStateNotified(IntV(46), StrV("Hello, World!"), LongV(-1));
    ChildSaysGoodbye(views);
    ChildStateNotified(IntV(46), StrV("Goodbye, World!"), LongV(-1));
    GrandchildAdds(views);
    ChildStateNotified(IntV(46), StrV("Goodbye, World!"), LongV(22));
  }

  /** The notification order of the test's three-level tree. */
  lemma ThreeLevelEntries(n: Node)
    requires n.subscribers == [1] && |n.children| == 1 && n.children[0].0 == StrV("string")
    requires n.children[0].1.subscribers == [2] && |n.children[0].1.children| == 1
    requires n.children[0].1.children[0].0 == StrV("long")
    requires n.children[0].1.children[0].1.subscribers == [3] && n.children[0].1.children[0].1.children == []
    ensures Entries(n, []) == [(1, []), (2, [StrV("string")]), (3, [StrV("string"), StrV("long")])]
  {
    var c := n.children[0].1;
    var g := c.children[0].1;
    assert Entries(g, [StrV("string"), StrV("long")]) == [(3, [StrV("string"), StrV("long")])] by {
      assert Here([3], [StrV("string"), StrV("long")]) == [(3, [StrV("string"), StrV("long")])];
      assert Below(g, 0, [StrV("string"), StrV("long")]) == [];
    }
    assert [StrV("string")] + [StrV("long")] == [StrV("string"), StrV("long")];
    assert Entries(c, [StrV("string")]) == [(2, [StrV("string")]), (3, [StrV("string"), StrV("long")])] by {
      assert Here([2], [StrV("string")]) == [(2, [StrV("string")])];
      assert Below(c, 1, [StrV("string")]) == [];
    }
    assert [] + [StrV("string")] == [StrV("string")];
    assert Here([1], []) == [(1, [])];
    assert Below(n, 1, []) == [];
  }

  // ---------------------------------------------------------------------
  // `deep states`

  /** Five nested `subState` calls. */
  const DeepStore: NodeRef :=
    ChildRef(ChildRef(ChildRef(ChildRef(ChildRef(RootRef,
      StrV("first"), StrV("1")), StrV("second"), IntV(2)), StrV("third"), LongV(3)), IntV(4), UnitV), LongV(5), PairV(IntV(1), IntV(2)))

  /** The tree once the innermost store has subscribed: the five children
      created on the way down, the subscriber on the deepest one. */
  function DeepTree(): Node {
    Node(IntV(23), [], [(StrV("first"),
      Node(StrV("1"), [], [(StrV("second"),
        Node(IntV(2), [], [(StrV("third"),
          Node(LongV(3), [], [(IntV(4),
            Node(UnitV, [], [(LongV(5),
              Node(PairV(IntV(1), IntV(2)), [1], []))]))]))]))]))])
  }

  /** The value the innermost store reads from the fresh root. */
  const DeepValue: Value :=
    PairV(PairV(PairV(PairV(PairV(IntV(23), StrV("1")), IntV(2)), LongV(3)), UnitV), PairV(IntV(1), IntV(2)))

  lemma DeepSubscriberPlaced()
    ensures NodeGet(DeepStore, Leaf(IntV(23))) == Node(DeepValue, [], [])
    ensures SubsPut(DeepStore, Leaf(IntV(23)), [1]) == DeepTree()
  {
  }

  lemma DeepValueRead()
    ensures ValueGet(DeepStore, DeepTree()) == DeepValue
  {
  }

  /** The innermost store sees the left-nested pairs of all six values. */
  lemma DeepStateEmitted()
    ensures Subscribe(Create(IntV(23)), DeepStore, 1).calls == [Call(1, DeepValue)]
  {
    DeepSubscriberPlaced();
    DeepValueRead();
    assert SubsGet(DeepStore, Leaf(IntV(23))) == [];
    assert Linked.Insert([], 1) == [1];
  }

  // ---------------------------------------------------------------------
  // ReducerStoreTest

  /** The test's reducer on `Op`: `Inc`, `Dec` and `Set(value)`. */
  function Counter(s: Value, a: Value): Result<Value> {
    if !s.IntV? then Ok(s)
    else if a == StrV("Inc") then Ok(IntV(s.i + 1))
    else if a == StrV("Dec") then Ok(IntV(s.i - 1))
    else if a.PairV? && a.first == StrV("Set") then Ok(a.second)
    else Ok(s)
  }

  /** A store subscriber and a reducer-store subscriber on the same node. */
  const TwoSubscribers: Root := Root(Node(IntV(23), [1, 2], []), false, [((1, []), RootRef), ((2, []), RootRef)])

  lemma TwoSubscribersSubscribe()
    ensures Subscribe(OneSubscriber, RootRef, 2).store == TwoSubscribers
    ensures Subscribe(OneSubscriber, RootRef, 2).calls == [Call(2, IntV(23))]
  {
  }

  /** Both blocks are called with the root value `x` of a changed tree. */
  lemma BothCalled(x: int)
    ensures Notify(TwoSubscribers.views, Node(IntV(x), [1, 2], [])) == [Call(1, IntV(x)), Call(2, IntV(x))]
  {
    var n := Node(IntV(x), [1, 2], []);
    NotifyLoneRoot(TwoSubscribers.views, IntV(x), [1, 2]);
    assert Project(TwoSubscribers.views, (1, []), n) == IntV(x);
    assert Project(TwoSubscribers.views, (2, []), n) == IntV(x);
  }

  lemma ReducerActionUpdatesState()
    ensures ReducerDispatch(TwoSubscribers, RootRef, Counter, StrV("Inc")).calls == [Call(1, IntV(24)), Call(2, IntV(24))]
  {
    var e := ReducerDispatch(TwoSubscribers, RootRef, Counter, StrV("Inc"));
    assert Counter(IntV(23), StrV("Inc")) == Ok(IntV(24));
    var n := Node(IntV(24), [1, 2], []);
    assert e.store.state == n;
    assert e.calls == Notify(TwoSubscribers.views, n);
    BothCalled(24);
  }

  lemma StateActionReachesReducerSubscriber()
    ensures Dispatch(TwoSubscribers, RootRef, Double).calls == [Call(1, IntV(46)), Call(2, IntV(46))]
  {
    var e := Dispatch(TwoSubscribers, RootRef, Double);
    var n := Node(IntV(46), [1, 2], []);
    assert e.store.state == n;
    assert e.calls == Notify(TwoSubscribers.views, n);
    BothCalled(46);
  }

  lemma UnsubscribedReducerSubscriberNotCalled()
    ensures ReducerDispatch(Unsubscribe(TwoSubscribers, RootRef, 2), RootRef, Counter, StrV("Inc")).calls == [Call(1, IntV(24))]
  {
    var t := Unsubscribe(TwoSubscribers, RootRef, 2);
    assert t.state == Node(IntV(23), [1], []);
    var e := ReducerDispatch(t, RootRef, Counter, StrV("Inc"));
    assert Counter(IntV(23), StrV("Inc")) == Ok(IntV(24));
    var n := Node(IntV(24), [1], []);
    assert e.store.state == n;
    assert e.calls == Notify(t.views, n);
    NotifyLoneRoot(t.views, IntV(24), [1]);
    assert Project(t.views, (1, []), n) == IntV(24);
  }
}

=== FILE: values.dfy ===
/** The universe of state values.

    The Kotlin library is generic in the state type and stores children of
    any type behind unchecked casts.  The model uses one structural value
    type for every slice of state and for child keys; Kotlin's `Pair` and the
    library's `State(parentState, state)` are both `PairV`.  Integers are
    unbounded: no scenario of the model reaches Kotlin's 32- or 64-bit limits.
 */
module Values {
  import opened Lenses

  datatype Value =
    | IntV(i: int)
    | LongV(l: int)
    | StrV(s: string)
    | UnitV
    | PairV(first: Value, second: Value)

  /** Sub-state keys are arbitrary values compared by equality (`Any` in Kotlin). */
  type Key = Value

  /** `.first` of a pair.  Kotlin's types rule out any other argument; the
      model reads a non-pair as its own first component. */
  function First(v: Value): Value {
    if v.PairV? then v.first else v
  }

  /** `.second` of a pair; a non-pair has `UnitV` as its second component. */
  function Second(v: Value): Value {
    if v.PairV? then v.second else UnitV
  }

  lemma SplitPair(v: Value)
    requires v.PairV?
    ensures PairV(First(v), Second(v)) == v
  {
  }

  /** The lens `Lens(get = { it.second }, set = { v -> { p -> p.copy(second = v) } })`
      that narrows a sub-state pair to its child part. */
  function SecondLens(): Lens<Value, Value> {
    Lens((p: Value) => Second(p), (p: Value, v: Value) => PairV(First(p), v))
  }
}
